=== FILE: README.md ===
# Physics sandboxes: the discrete layer

The repository is a small desktop app with a launcher page and three canvas
sandboxes:

- an SPH fluid, where particles are kept in a spatial hash grid;
- rigid polygons, which collide by the separating-axis test;
- orbiting bodies, which leave a trail behind them.

This project models the discrete, sequential logic those pages carry. It
covers:

- the fluid page's spatial hash grid: the cell of a point, the 3x3
  neighbourhood lookup, the per-tick membership update, the start-up scatter
  and the middle-click spawn;
- the fluid boundary reflection and the smoothing kernels;
- the separating-axis primitives and the wall clamp of the rigid-body page;
- the body loops of the rigid-body and orbit pages, including the orbit
  trail;
- the input layer all three pages share:
  - the wheel-driven, clamped update of the selected parameter;
  - the rotation of the selector list;
  - the run/pause/step state machine of the frame loop;
- the vector helpers;
- the launcher page's link-text truncation.

Numbers are exact reals, with no floating point. The maths the pages take from
`Math` is not modelled. Corner positions, edge normals, square roots and random
numbers are all inputs instead: they are parameters or given sequences.

Modules, one per source concern:

- `Vectors`: `src/js/modules/vectors.js`.
- `FluidKernels`, `FluidParticle`, `FluidGrid` and `FluidControls`: `src/js/fluidsimulation.js`.
- `RigidCollision` and `RigidBody`: `src/js/rigidbodysimulation.js`.
- `Orbit`: `src/js/orbitsimulation.js`.
- `Controls` and `SimulationLoop`: the input and frame-loop code shared by
  the three simulation files. The selector rotation, the key handling and the
  frame loop are the same code in each; the wheel handlers share their shape
  (sign, Ctrl factor, step, clamp) but differ in their cases and bounds, which
  `FluidControls`, `RigidBody` and `Orbit` give per page. Rows below cite the
  fluid copy; the rigid-body copies are at
  `src/js/rigidbodysimulation.js:226-261, 270-290, 322-342`, and the orbit
  copies at `src/js/orbitsimulation.js:140-175, 188-208, 240-257`.
- `LinkText`: `src/js/index.js`.

## Model

| member | source | states |
|---|---|---|
| `Vectors.Zero` | src/js/modules/vectors.js:1-3 | the identity of `add`, on either side |
| `Vectors.Normal` | src/js/modules/vectors.js:5-7 | perpendicular to `v` (`dot(v, normal(v)) == 0`) and of the same squared length |
| `Vectors.NormalTwiceNegates` | src/js/modules/vectors.js:5-7 | `normal(normal(v)) == multiply(v, -1)` |
| `Vectors.Dot` | src/js/modules/vectors.js:30-32 | the squared length `dot(v, v)` is never negative, and is 0 exactly for the zero vector |
| `Vectors.DotSymmetric` | src/js/modules/vectors.js:30-32 | `dot` is symmetric |
| `Vectors.Add` | src/js/modules/vectors.js:49-51 | the dot product with a sum is the sum of the dot products |
| `Vectors.AddCommutes` | src/js/modules/vectors.js:49-51 | `add` is commutative |
| `Vectors.Subtract` | src/js/modules/vectors.js:53-55 | adding `w` back to `subtract(v, w)` gives `v` |
| `Vectors.SubtractUndoesAdd` | src/js/modules/vectors.js:49-55 | `subtract(add(a, b), b) == a` |
| `Vectors.Multiply` | src/js/modules/vectors.js:57-59 | scaling a vector by `s` scales each of its dot products by `s` |
| `Vectors.Divide` | src/js/modules/vectors.js:61-63 | for `s != 0`, multiplying the quotient back by `s` gives `v` |
| `Vectors.DivideUndoesMultiply` | src/js/modules/vectors.js:57-63 | `divide(multiply(v, s), s) == v` for `s != 0` |
| `Vectors.Unit` | src/js/modules/vectors.js:13-21 | for a magnitude that is the non-negative root of `dot(v, v)`: 0 gives the zero vector and no division; otherwise the result has length 1 and times the magnitude is `v` |
| `Vectors.UnitLength` | src/js/modules/vectors.js:13-21 | dividing a vector by its non-zero magnitude gives squared length 1 |
| `Vectors.UnitOfZero` | src/js/modules/vectors.js:13-18 | the magnitude of `zero()` is 0, whichever root is taken, and `unit(zero())` is the zero vector |
| `Vectors.UnitDividesNonZero` | src/js/modules/vectors.js:13-21 | a non-zero vector has a non-zero magnitude and is divided by it |
| `FluidKernels.Kernel2` | src/js/fluidsimulation.js:53-58 | 0 at and beyond the cutoff; non-negative up to it |
| `FluidKernels.Kernel2Derivative` | src/js/fluidsimulation.js:60-65 | 0 at and beyond the cutoff; non-positive up to it |
| `FluidKernels.Kernel3` | src/js/fluidsimulation.js:67-72 | 0 at and beyond the cutoff; non-negative up to it |
| `FluidKernels.Kernel3Derivative` | src/js/fluidsimulation.js:74-79 | 0 at and beyond the cutoff; non-positive up to it |
| `FluidKernels.KernelPoly6` | src/js/fluidsimulation.js:81-86 | 0 at and beyond the cutoff, for every radius; non-negative on `[0, radius]` |
| `FluidKernels.Kernel2Decreasing` | src/js/fluidsimulation.js:53-58 | strictly decreasing in the distance on `[0, radius]` |
| `FluidKernels.Kernel3Decreasing` | src/js/fluidsimulation.js:67-72 | strictly decreasing in the distance on `[0, radius]` |
| `FluidKernels.KernelPoly6Decreasing` | src/js/fluidsimulation.js:81-86 | strictly decreasing in the distance on `[0, radius]` |
| `FluidKernels.DensityToPressure` | src/js/fluidsimulation.js:107-109 | with a positive multiplier: negative exactly below the target density, positive exactly above it; zero at the target |
| `FluidKernels.DensityToNearPressure` | src/js/fluidsimulation.js:111-113 | non-negative for a non-negative near density and multiplier |
| `FluidParticle.CellOf` | src/js/fluidsimulation.js:158-163 | the cell `floor(p / h)` is a square `[x*h, (x+1)*h) x [y*h, (y+1)*h)` that contains the point |
| `FluidParticle.CellOfUnique` | src/js/fluidsimulation.js:158-163 | the cells tile the plane: a cell containing the point is the one `getCellCoordinates` returns |
| `FluidParticle.CreateParticle` | src/js/fluidsimulation.js:230-243 | at rest at the given position, which is also its prediction, with mass 1 and radius 5, no density yet, registered to the cell that contains the position |
| `FluidParticle.CornerInOwnCell` | src/js/fluidsimulation.js:181-188 | a cell made from the corner `(x*h, y*h)` is labelled `(x, y)`, as the start-up grid relies on |
| `FluidParticle.UpdateBounds` | src/js/fluidsimulation.js:190-210 | only position and velocity change; an in-bounds particle is unchanged; with an extent of at least the radius each axis ends in `[radius/2, extent - radius/2]`, put on the crossed edge, with that velocity component times -0.7 |
| `FluidGrid.CreateParticleCell` | src/js/fluidsimulation.js:181-188 | an empty cell labelled with the cell that contains the position |
| `FluidGrid.ShiftedIsNear` | src/js/fluidsimulation.js:165-179 | lookup `n` of the nine probes a cell within one step on each axis, and lookup numbers are one-to-one |
| `FluidGrid.NearIsShifted` | src/js/fluidsimulation.js:165-179 | every cell within one step on each axis is probed by one of the nine lookups |
| `FluidGrid.SurroundingCells` | src/js/fluidsimulation.js:165-179 | the loop returns the existing cells among the nine probes, in probe order |
| `FluidGrid.NeighbourhoodUpTo` | src/js/fluidsimulation.js:165-179 | after `n` probes: at most `n` cells, each an existing cell near the centre, no two from the same key, and every existing near cell probed so far included |
| `FluidGrid.SurroundingCellsFacts` | src/js/fluidsimulation.js:165-179 | at most nine cells, all existing and within one step of the centre, pairwise from distinct keys, and every existing neighbour present (missing ones omitted) |
| `FluidGrid.IndexOf` | src/js/fluidsimulation.js:291 | `indexOf`: -1 exactly when absent, otherwise the first position holding the value |
| `FluidGrid.SpliceRemovesFirst` | src/js/fluidsimulation.js:291-295 | `splice(indexOf(x), 1)` removes exactly the first occurrence of `x` |
| `FluidGrid.MembersCountOf` | src/js/fluidsimulation.js:284-310 | the in-order member list of a cell holds each particle registered to it exactly once and no other |
| `FluidGrid.OrderedIsConsistent` | src/js/fluidsimulation.js:284-310 | a grid whose cells list exactly their particles in order has every particle listed once, in the cell of its coordinates |
| `FluidGrid.AddParticleConsistent` | src/js/fluidsimulation.js:395-400 | pushing a particle onto the list and onto the existing cell of its coordinates keeps every particle listed once in its own cell |
| `FluidGrid.AddParticleOrdered` | src/js/fluidsimulation.js:395-400 | ... and keeps each cell's list equal to its particles in list order |
| `FluidGrid.Settle` | src/js/fluidsimulation.js:308 | a particle after the update differs only in its cell coordinates, which are the cell of its position |
| `FluidGrid.MoveToCell` | src/js/fluidsimulation.js:284-310 | one callback of the membership loop keeps the loop invariant: particles before it settled and re-appended, the rest still in their old lists |
| `FluidGrid.Finish` | src/js/fluidsimulation.js:284-310 | once every particle has been moved, each cell lists exactly its particles, in list order |
| `FluidGrid.SampleCellExists` | src/js/fluidsimulation.js:388-396 | a point `(u*width, v*height)` with `u, v` in `[0, 1)` falls in one of the start-up cells |
| `FluidGrid.SpawnBatch` | src/js/fluidsimulation.js:437-443 | `n` loop iterations create `n` particles |
| `FluidGrid.SpawnBatchAt` | src/js/fluidsimulation.js:437-443 | spawned particle `m` sits at `(clientX + m, height - clientY)`, at rest, with mass 1 and radius 5, registered to the cell of its position |
| `FluidGrid.Batch` | src/js/fluidsimulation.js:395-400 | the scatter's first `n` particles are `n` in number |
| `FluidGrid.SamplePositions` | src/js/fluidsimulation.js:396 | one position per random pair; on a canvas of positive size, pairs in `[0, 1) x [0, 1)` give positions inside `[0, width) x [0, height)` |
| `FluidGrid.SamplesInCells` | src/js/fluidsimulation.js:388-400 | on a non-empty canvas every scattered position lands in a start-up cell |
| `FluidGrid.Scatter` | src/js/fluidsimulation.js:395-400 | pushes one particle per position onto the list and the existing cell; stops at the first position whose cell is missing |
| `FluidGrid.InitialCells` | src/js/fluidsimulation.js:388-393 | the start-up cells are exactly `0 <= x < width/h`, `0 <= y < height/h`, empty and stored under their own coordinates |
| `FluidGrid.ParticleGrid.constructor` | src/js/fluidsimulation.js:388-400 | the start-up grid is consistent and ordered; on a non-empty canvas it holds all 1000 scattered particles |
| `FluidGrid.ParticleGrid.Spawn` | src/js/fluidsimulation.js:437-443 | appends the spawned particles (at most `amount`) and keeps the grid consistent and the key set unchanged; fewer than `amount` only when the next particle's cell is missing |
| `FluidGrid.ParticleGrid.ApplyBounds` | src/js/fluidsimulation.js:190-210 | every particle ends inside the canvas; only positions and velocities change; the grid is untouched |
| `FluidGrid.ParticleGrid.UpdateMembership` | src/js/fluidsimulation.js:284-310 | afterwards each cell lists exactly its particles in list order, every particle is settled into the cell of its position, no key is lost, and a new key holds particles |
| `FluidGrid.ParticleGrid.Tick` | src/js/fluidsimulation.js:284-310 | bounds then membership: every particle is inside the canvas and listed once in the cell of its position, which exists |
| `Controls.Clamp` | src/js/fluidsimulation.js:473 | `min(max(v, lo), hi)` lies in `[lo, hi]`, is `v` when `v` is in range, and is the bound that `v` passes otherwise |
| `Controls.WheelDirection` | src/js/fluidsimulation.js:465-470 | `sign(wheelDeltaY)`, times ten with Ctrl: zero exactly for no scroll, positive exactly for an upward scroll |
| `Controls.WheelStep` | src/js/fluidsimulation.js:471-498 | the stepped value lies in `[lo, hi]`; direction 0 keeps an in-range value; a step that stays in range is taken exactly |
| `Controls.WheelStepMonotone` | src/js/fluidsimulation.js:471-498 | scrolling up never lowers an in-range value, and scrolling down never raises it |
| `Controls.WheelStepUndone` | src/js/fluidsimulation.js:471-498 | a notch that hit no bound is undone by the opposite notch |
| `Controls.WheelStepKeepsWhole` | src/js/fluidsimulation.js:475-476 | with step 1 and whole bounds, a whole value stays whole |
| `Controls.RotateDown` | src/js/fluidsimulation.js:409-411 | ArrowDown keeps the length and contents and moves the head to the tail |
| `Controls.RotateUp` | src/js/fluidsimulation.js:412-414 | ArrowUp keeps the length and contents and moves the tail to the head |
| `Controls.RotationsCancel` | src/js/fluidsimulation.js:409-414 | ArrowDown then ArrowUp, or the reverse, restores the list |
| `Controls.RotateDownTimes` | src/js/fluidsimulation.js:409-411 | `n` ArrowDown presses keep the length and, for `n` up to the length, rotate the list left by `n` |
| `Controls.FullCycleRestores` | src/js/fluidsimulation.js:409-411 | one ArrowDown per entry restores the list |
| `FluidControls.InitialInRange` | src/js/fluidsimulation.js:16-28 | every initial value lies in the range its wheel case clamps to |
| `FluidControls.Adjust` | src/js/fluidsimulation.js:471-501 | only the parameter at the head of the list changes, by the clamped step; the result stays in range and the spawn amount stays whole |
| `FluidControls.AdjustUndone` | src/js/fluidsimulation.js:471-501 | a notch that hit no bound is undone by the opposite notch, with every parameter back |
| `FluidControls.FluidSettings.constructor` | src/js/fluidsimulation.js:11-28 | the declared selector order and initial values, both mouse flags down |
| `FluidControls.FluidSettings.Wheel` | src/js/fluidsimulation.js:464-502 | the parameters become `Adjust` of the head selector; selectors and flags are unchanged |
| `FluidControls.FluidSettings.ArrowDown` | src/js/fluidsimulation.js:409-411 | the selectors are rotated down and stay a permutation of the declared list; the parameters and mouse flags are unchanged |
| `FluidControls.FluidSettings.ArrowUp` | src/js/fluidsimulation.js:412-414 | the selectors are rotated up and stay a permutation of the declared list; the parameters and mouse flags are unchanged |
| `FluidControls.FluidSettings.MouseDown` | src/js/fluidsimulation.js:429-449 | button 0 or 2 raises its flag; button 1 spawns up to `particleSpawnAmount` particles, stopping only at a missing cell, keeps the grid's key set and keeps an ordered grid ordered; any other button changes nothing |
| `FluidControls.FluidSettings.MouseUp` | src/js/fluidsimulation.js:451-462 | button 0 or 2 clears its flag; nothing else changes |
| `SimulationLoop.Min` | src/js/fluidsimulation.js:360 | `Math.min`: at most both arguments, and one of them |
| `SimulationLoop.FrameLoop.constructor` | src/js/fluidsimulation.js:7-9 | stopped, with no frame id and `dt = 0` |
| `SimulationLoop.FrameLoop.Start` | src/js/fluidsimulation.js:351-367 | a no-op while running; otherwise running from `now`, with the frame id left as it was (the first id is dropped) |
| `SimulationLoop.FrameLoop.Pause` | src/js/fluidsimulation.js:369-378 | a no-op while paused; otherwise stopped, with no frame id and `dt = 1/120` |
| `SimulationLoop.FrameLoop.Toggle` | src/js/fluidsimulation.js:380-386 | flips `running`, with the effects of pause or start |
| `SimulationLoop.FrameLoop.Frame` | src/js/fluidsimulation.js:357-364 | a frame steps exactly when running; it sets `dt = min(elapsed, 1/60) <= 1/60` and stores the next id |
| `SimulationLoop.FrameLoop.ManualStep` | src/js/fluidsimulation.js:418-422 | ArrowRight steps exactly when no frame id is stored |
| `SimulationLoop.FrameLoop.StartStoringId` | src/js/fluidsimulation.js:351-367 | start with the first id stored: a stored id then means running |
| `SimulationLoop.ManualStepHonouredWhileRunning` | src/js/fluidsimulation.js:366 | as written, ArrowRight steps while the loop runs, before its first frame |
| `SimulationLoop.ManualStepRefusedWhileRunning` | src/js/fluidsimulation.js:351-367 | with the first id stored, ArrowRight is refused while running and honoured after a pause |
| `SimulationLoop.GuardMeansPaused` | src/js/fluidsimulation.js:418-422 | under the sound guard, no stored id means paused |
| `RigidCollision.ProjectShape` | src/js/rigidbodysimulation.js:70-74 | no points gives the empty projection; otherwise `min <= dot(p, axis) <= max` for every point |
| `RigidCollision.ProjectionAttained` | src/js/rigidbodysimulation.js:70-74 | both ends of a projection are the dot product of some point |
| `RigidCollision.IsOverlapping` | src/js/rigidbodysimulation.js:76-78 | true exactly when the closed intervals intersect; the empty projection overlaps nothing |
| `RigidCollision.CommonPointOverlaps` | src/js/rigidbodysimulation.js:76-78 | a point common to both intervals makes them overlap, in either order |
| `RigidCollision.OverlapSymmetric` | src/js/rigidbodysimulation.js:76-78 | the overlap test is symmetric |
| `RigidCollision.BodiesColliding` | src/js/rigidbodysimulation.js:80-96 | true exactly when no axis of A's then B's list separates the projections; when false, a separating axis exists |
| `RigidCollision.CollidingHasCorners` | src/js/rigidbodysimulation.js:80-96 | a collision found over at least one axis means both corner lists are non-empty |
| `RigidCollision.AxisOverlap` | src/js/rigidbodysimulation.js:134 | the overlap on a non-separating axis is non-negative |
| `RigidCollision.MinChoice` | src/js/rigidbodysimulation.js:127-140 | after `n` rounds: no choice exactly when `n == 0`; otherwise an axis among the first `n` whose overlap is `<=` every one of theirs and `<` every earlier one's, so the first minimal axis wins |
| `RigidCollision.SelectMinOverlap` | src/js/rigidbodysimulation.js:127-140 | the loop ends with the choice `MinChoice` makes over all the axes |
| `RigidCollision.FirstMinimalChosen` | src/js/rigidbodysimulation.js:127-140 | when no axis has a smaller overlap than the first, the first axis is chosen |
| `RigidCollision.PushApart` | src/js/rigidbodysimulation.js:142-144 | the sum of the two positions is kept; each body moves `minAxis * minOverlap / 2`, in opposite directions |
| `RigidCollision.PushApartSeparatesByOverlap` | src/js/rigidbodysimulation.js:142-144 | along a unit axis the signed offset `dot(A - B, minAxis)` grows by exactly the overlap |
| `RigidCollision.PushApartWidensExactlyWhen` | src/js/rigidbodysimulation.js:142-144 | the push as written widens the distance along a unit axis exactly when `dot(A - B, minAxis) > -minOverlap / 2` |
| `RigidCollision.AsWrittenPushCollapses` | src/js/rigidbodysimulation.js:116-146 | two squares at (100, 100) and (150, 100) collide, the loop picks axis (1, 0) with overlap 50, and the push as written moves both to (125, 100) |
| `RigidCollision.Oriented` | src/js/rigidbodysimulation.js:142-144 | the axis or its negation, whichever has `dot(A - B, axis) >= 0` |
| `RigidCollision.OrientedPushApart` | src/js/rigidbodysimulation.js:142-144 | the corrected push keeps the sum of the two positions |
| `RigidCollision.OrientedPushWidensGap` | src/js/rigidbodysimulation.js:142-144 | along a unit axis the distance `abs(dot(A - B, minAxis))` grows by exactly the overlap, whichever side each body is on |
| `RigidBody.WallClamp` | src/js/rigidbodysimulation.js:99-114 | the four checks in sequence give `WallClamped`; only position and velocity change; an in-bounds body is unchanged; the position is clamped to the walls and each crossed component is negated without damping |
| `RigidBody.Rem360` | src/js/rigidbodysimulation.js:196-197 | JavaScript `% 360`: in `(-360, 360)`, with the sign of the dividend, the identity there |
| `RigidBody.Rem360WholeTurns` | src/js/rigidbodysimulation.js:196-197 | the remainder differs from its argument by whole turns |
| `RigidBody.PositionSumUpdate` | src/js/rigidbodysimulation.js:142-144 | replacing one body changes the sum of positions by its displacement |
| `RigidBody.PairKeepsSum` | src/js/rigidbodysimulation.js:142-144 | moving two bodies by opposite amounts keeps the sum of positions |
| `RigidBody.ContactOf` | src/js/rigidbodysimulation.js:116-146 | the oriented pair rule: no push exactly when the corner lists do not collide over the axes of both bodies; a push keeps the sum of the pair's positions |
| `RigidBody.PairStepFrame` | src/js/rigidbodysimulation.js:116-146 | one turn changes at most the two bodies of the pair, and only their positions |
| `RigidBody.PairStepKeepsSum` | src/js/rigidbodysimulation.js:142-144 | one turn under a sum-keeping pair rule keeps the sum of all positions |
| `RigidBody.AgreeingKeepsPairSum` | src/js/rigidbodysimulation.js:142-144 | the oriented pair rule of `bodyUpdateCollisions` keeps the sum of the pair's positions |
| `RigidBody.ThrownStays` | src/js/rigidbodysimulation.js:116-146 | after a throw the later turns change nothing |
| `RigidBody.PushedOnOwnTurn` | src/js/rigidbodysimulation.js:116-146 | another body `k` is untouched before turn `k` and left alone after it: it moves at most once, on its own turn |
| `RigidBody.MovedOnlyByPush` | src/js/rigidbodysimulation.js:116-146 | another body that comes out changed was pushed by the pair rule on its own turn, with no throw before, and only its position changed, to the one that push gave |
| `RigidBody.CollidePassMovesOnly` | src/js/rigidbodysimulation.js:116-146 | a whole pass changes only positions |
| `RigidBody.CollidePassKeepsSum` | src/js/rigidbodysimulation.js:116-146 | a whole pass under a sum-keeping pair rule keeps the sum of all positions |
| `RigidBody.CollideWith` | src/js/rigidbodysimulation.js:116-146 | one callback computes the turn `PairStep` of the oriented pair rule |
| `RigidBody.Collide` | src/js/rigidbodysimulation.js:116-146 | the loop computes the pass `CollidePass`; only positions change; the sum of all positions is preserved |
| `RigidBody.Advance` | src/js/rigidbodysimulation.js:193-197 | the field-by-field mouse force, position and orientation updates give `Advanced`: the velocity gains the mouse impulse, the position moves by the new velocity times `dt * 100`, and the orientation is `(orientation + angularVelocity * dt) % 360` |
| `RigidBody.StepTurns` | src/js/rigidbodysimulation.js:187-197 | a body that is not anchored and whose pass does not throw ends turned by its own spin, `Rem360(orientation + angularVelocity * dt)` of the orientation it started the frame with |
| `RigidBody.StepThrownStays` | src/js/rigidbodysimulation.js:187-197 | once a body's turn throws, the later turns of the frame change nothing |
| `RigidBody.UpdateBody` | src/js/rigidbodysimulation.js:187-197 | the step equals `BodyStep`: an anchored body leaves the list untouched and throws nothing; otherwise every other body ends as the collision pass leaves the list after gravity and the walls updated body `i`; without a throw body `i` ends turned by its own spin; no body's mass, friction, anchoring or shape changes, and other bodies change only in position |
| `RigidBody.StepBodies` | src/js/rigidbodysimulation.js:187-197 | the loop equals `StepFrom` over all bodies, stopping at a throw; anchored bodies receive no update of their own and are at most pushed; if all are anchored nothing changes; unanchored orientations end in `(-360, 360)` |
| `RigidBody.InitialInRange` | src/js/rigidbodysimulation.js:17-21 | the initial values lie in their wheel ranges |
| `RigidBody.Adjust` | src/js/rigidbodysimulation.js:322-342 | only the head selector's parameter changes; gravity stays in `[-2, 2]`, mouse force in `[10, 50]` and radius in `[10, 1000]` |
| `RigidBody.RigidSimulation.constructor` | src/js/rigidbodysimulation.js:263 | one circle body at `(100, 100)` with mass 10 and friction 0.1 |
| `RigidBody.RigidSimulation.SimulationStep` | src/js/rigidbodysimulation.js:187-197 | the new body list is `StepFrom` of the old one under the current gravity multiplier and the oriented pair rule `ContactOf`; anchored bodies change at most in position; mass, friction, anchoring and shape are kept; the settings are untouched |
| `RigidBody.RigidSimulation.Wheel` | src/js/rigidbodysimulation.js:322-342 | the parameters become `Adjust` of the head selector |
| `RigidBody.RigidSimulation.ArrowDown` | src/js/rigidbodysimulation.js:272-274 | the selectors are rotated down; the parameters, bodies and mouse flags are unchanged |
| `RigidBody.RigidSimulation.ArrowUp` | src/js/rigidbodysimulation.js:275-277 | the selectors are rotated up; the parameters, bodies and mouse flags are unchanged |
| `RigidBody.RigidSimulation.MouseDown` | src/js/rigidbodysimulation.js:292-307 | button 0 or 2 raises its flag; button 1 appends one square of mass 10 and friction 100 at the pointer |
| `RigidBody.RigidSimulation.MouseUp` | src/js/rigidbodysimulation.js:309-320 | button 0 or 2 clears its flag |
| `Orbit.CreateBody` | src/js/orbitsimulation.js:58-68 | the impulse becomes the velocity, and the trail starts empty |
| `Orbit.Appended` | src/js/orbitsimulation.js:99-102 | a copy of the position is appended exactly when the trail is empty or its last point is farther than 10 |
| `Orbit.Trail` | src/js/orbitsimulation.js:97-106 | a suffix of the appended trail that drops at most its oldest point, and only when over 100; at most 100 points if at most 100 before; at most one more point; the position last when appended |
| `Orbit.UpdateTrail` | src/js/orbitsimulation.js:97-106 | the push-then-shift code computes `Trail` |
| `Orbit.UpdateBody` | src/js/orbitsimulation.js:75-106 | only body `i` changes: its velocity gains the gravity impulse, its position moves by that velocity times `dt * 100`, the mouse impulse of the moved body is added to the velocity, and its trail follows `Trail` for the new position; radius and mass are kept |
| `Orbit.StepBodies` | src/js/orbitsimulation.js:75-106 | every body ends with its trail updated by `Trail` for its own new position, so every trail stays within 100 points; radii and masses are kept |
| `Orbit.InitialInRange` | src/js/orbitsimulation.js:16-17 | the initial values lie in their wheel ranges |
| `Orbit.Adjust` | src/js/orbitsimulation.js:240-257 | only the head selector's parameter changes; mouse force stays in `[10, 50]` and radius in `[10, 1000]` |
| `Orbit.OrbitSimulation.constructor` | src/js/orbitsimulation.js:177-178 | the heavy and the light starting body, with empty trails |
| `Orbit.OrbitSimulation.SimulationStep` | src/js/orbitsimulation.js:75-106 | every body keeps its radius and mass and ends with its trail updated by `Trail` for its new position; trails stay bounded and the settings are untouched |
| `Orbit.OrbitSimulation.Wheel` | src/js/orbitsimulation.js:240-257 | the parameters become `Adjust` of the head selector |
| `Orbit.OrbitSimulation.ArrowDown` | src/js/orbitsimulation.js:190-192 | the selectors are rotated down; the parameters, bodies and mouse flags are unchanged |
| `Orbit.OrbitSimulation.ArrowUp` | src/js/orbitsimulation.js:193-195 | the selectors are rotated up; the parameters, bodies and mouse flags are unchanged |
| `Orbit.OrbitSimulation.MouseDown` | src/js/orbitsimulation.js:210-225 | button 0 or 2 raises its flag; button 1 appends exactly one body at rest at the pointer, with radius 5 and mass 100 |
| `Orbit.OrbitSimulation.MouseUp` | src/js/orbitsimulation.js:227-238 | button 0 or 2 clears its flag |
| `LinkText.LeadingSpace` | src/js/index.js:5 | the count of leading whitespace code units, with a non-whitespace unit after them |
| `LinkText.TrailingSpace` | src/js/index.js:5 | the count of trailing whitespace code units, with a non-whitespace unit before them |
| `LinkText.Trim` | src/js/index.js:5 | `trim` keeps a contiguous slice that starts after the leading whitespace, and its ends are not whitespace |
| `LinkText.TrimDropsOnlyWhitespace` | src/js/index.js:5 | everything outside the kept slice is whitespace, and the result is empty exactly when the text is all whitespace |
| `LinkText.TrimIdempotent` | src/js/index.js:5 | trimming twice is trimming once |
| `LinkText.Truncate` | src/js/index.js:4-5 | text of at most 50 units is unchanged; longer text becomes `trim(first 50) + "..."`, at most 53 units, ending in `"..."` |
| `LinkText.TruncateKeepsSlice` | src/js/index.js:5 | what a shortened text keeps is a contiguous slice of the first 50 units, with no whitespace at either end and only whitespace around it |
| `LinkText.TruncateLinks` | src/js/index.js:3-7 | every link text is replaced in place by its truncation |

## Left out

- Floating point: every quantity is an exact real. The 0.1 wheel steps, the
  kernels' constants and `Math.PI` are exact. `Math.PI` is a decimal constant
  whose only use in the proofs is that it is positive.
- The fluid physics of each frame is not modelled: density and near-density
  sums, pressure and viscosity forces, the predicted positions and the Euler
  integration (`src/js/fluidsimulation.js:88-156, 250-282`). The fluid mouse
  force (`src/js/fluidsimulation.js:212-228`) is not modelled either: it
  divides by a distance that can be zero.
- The rigid and orbit mouse forces and the orbit gravity (which divides by a
  squared distance) are taken as the velocity change they produce. They are
  function parameters of the body loops.
- `vectors.magnitude`, `unit` (except its zero-vector case), `rotate`,
  `randomUnit`, `unitAngle` and `Math.random` are not modelled:
  - `Vectors.Unit` takes the magnitude as an input;
  - the rigid body corners and edge axes are function parameters;
  - the start-up scatter takes its random pairs as a sequence.
- `src/js/modules/shapes.js` is static vertex data. The circle and square are
  given to the constructor and to `MouseDown`.
- The following are not modelled:
  - drawing, the HUD text and `src/js/modules/renderingutils.js`;
  - DOM event registration, canvas resizing and the Electron shell (`main.js`, `src/js/preload.js`).
- `requestAnimationFrame` and `performance.now` are abstract: a frame is a
  call of `Frame`, and the browser's ids and times are parameters.
- The `"smoothingRadius"` wheel case (`src/js/fluidsimulation.js:493-494`) is
  unreachable. That name is not in the selector list, and the case assigns a
  constant. Selectors are an enumeration of the names that the list holds, so
  there is no unmatched selector to model.
- `FluidParticle.UpdateBounds`: the bounds on an axis are stated only for
  extents at least the particle's radius. On a narrower canvas the later
  check overrides the earlier one, and the particle cannot fit.
- `FluidGrid.ParticleGrid.ApplyBounds` and `FluidGrid.ParticleGrid.Tick`
  inherit that condition: "inside the canvas" is promised only on an axis
  whose extent is at least the particle's radius.
- `Orbit.Appended`: `magnitude(d) > 10` is stated as the squared length
  exceeding 100. The two agree over reals, and this avoids the square root.
- `LinkText.Truncate`: text is a sequence of UTF-16 code units, as
  JavaScript's `length`, `substring` and `trim` see it. It is not a sequence
  of code points.
- `RigidBody.Collide`: a collision with no axes to choose from leaves
  `minAxis` null, so `vectors.multiply` throws. The model reports this as
  `thrown` and stops the frame, without modelling the exception's
  propagation.
- `RigidBody.ContactOf` and `RigidBody.CollideWith` push along the oriented
  axis of the second row under "Findings", not along `minAxis` as written;
  `RigidCollision.PushApart` and `RigidCollision.AsWrittenPushCollapses`
  keep the correction as written.
- `RigidBody.StepBodies`: an anchored body skips its own update but can still
  be pushed as the other body of a collision, as in the source. The contract
  therefore promises only that its non-position fields are unchanged.
- `Orbit.StepBodies` and `Orbit.OrbitSimulation.SimulationStep` state each
  body's trail, radius and mass, not its new position and velocity. The
  loop is not tied to a fold of the per-body step, whose gravity impulse
  reads the list as the earlier turns left it. `Orbit.UpdateBody` states
  the position and velocity of one turn.
- `FluidGrid.ParticleGrid.Spawn`: a missing cell makes the source throw a
  TypeError. The model stops the loop there and reports how many particles
  were added. `particleSpawnAmount` is a whole number kept in range by the
  wheel.
- Object identity: a cell lists particle indices into the particle list,
  standing for the object references the source stores. A cell's key
  `"x,y"` is the pair `(x, y)`.

## Findings

| source | as written | input that shows it | evidently intended | confidence | as-written member | corrected member |
|---|---|---|---|---|---|---|
| src/js/fluidsimulation.js:366 | `startSimulation` calls `requestAnimationFrame(loop)` without storing the id, so `animationFrameId` stays `null` until the first frame runs | press space to start, then ArrowRight before the first frame: the guard `!animationFrameId` holds and a manual step runs while the loop is live. Likewise start, pause, start before the first frame: the pause cannot cancel the dropped id, so two frame chains run (the model's single abstract frame does not show this second effect) | store the first id too, so that ArrowRight steps only while paused | not executed | `SimulationLoop.ManualStepHonouredWhileRunning` | `SimulationLoop.ManualStepRefusedWhileRunning` |
| src/js/rigidbodysimulation.js:142-144 | the correction moves `body` by `+minAxis * minOverlap / 2` and `otherBody` by the opposite, without checking which way `minAxis` points from `otherBody` to `body` | two `shapes.square` bodies at (100, 100) and (150, 100), orientation 0: the first axis of least overlap is (1, 0) with overlap 50, and the push moves both bodies to (125, 100) | turn `minAxis` to point from `otherBody` towards `body` first, so that the push always widens their distance along it | not executed | `RigidCollision.AsWrittenPushCollapses` | `RigidCollision.OrientedPushWidensGap` |

=== FILE: controls.dfy ===
/** Input handling common to the three simulation pages: the rotation of
    the selector list on ArrowDown / ArrowUp, which the pages repeat
    unchanged, and the wheel step of the selected parameter, clamped to its
    range, whose shape the pages share while each has its own cases, steps
    and bounds. */
module Controls {

  /** `Math.min(Math.max(v, lo), hi)`. */
  function Clamp(v: real, lo: real, hi: real): (r: real)
    ensures lo <= hi ==> lo <= r <= hi
    ensures lo <= v <= hi ==> r == v
    ensures r == v || r == lo || r == hi
    ensures v < lo && lo <= hi ==> r == lo
    ensures v > hi && lo <= hi ==> r == hi
  {
    var atLeast := if v > lo then v else lo;
    if atLeast < hi then atLeast else hi
  }

  /** `Math.sign(event.wheelDeltaY)`, times ten while Ctrl is held. */
  function WheelDirection(wheelDeltaY: real, ctrlKey: bool): (d: int)
    ensures wheelDeltaY == 0.0 <==> d == 0
    ensures wheelDeltaY > 0.0 <==> d > 0
    ensures d == 0 || d == 1 || d == -1 || d == 10 || d == -10
    ensures (d == 10 || d == -10) <==> ctrlKey && wheelDeltaY != 0.0
  {
    var sign := if wheelDeltaY > 0.0 then 1 else if wheelDeltaY < 0.0 then -1 else 0;
    if ctrlKey then sign * 10 else sign
  }

  /** One wheel event on the selected parameter:
      `Math.min(Math.max(v + direction * step, lo), hi)`. */
  function WheelStep(v: real, direction: int, step: real, lo: real, hi: real): (r: real)
    ensures lo <= hi ==> lo <= r <= hi
    ensures lo <= v <= hi && direction == 0 ==> r == v
    ensures lo <= v + direction as real * step <= hi ==> r == v + direction as real * step
  {
    Clamp(v + direction as real * step, lo, hi)
  }

  /** Scrolling up never lowers an in-range value and scrolling down never
      raises it. */
  lemma WheelStepMonotone(v: real, direction: int, step: real, lo: real, hi: real)
    requires lo <= v <= hi && step >= 0.0
    ensures direction >= 0 ==> WheelStep(v, direction, step, lo, hi) >= v
    ensures direction <= 0 ==> WheelStep(v, direction, step, lo, hi) <= v
  {
    if direction >= 0 {
      NonNegativeStep(direction, step);
    } else {
      NonNegativeStep(-direction, step);
      assert (-direction) as real * step == -(direction as real * step);
    }
  }

  lemma NonNegativeStep(n: int, step: real)
    requires n >= 0 && step >= 0.0
    ensures n as real * step >= 0.0
  {
  }

  /** A notch that did not hit a bound is undone by the opposite notch. */
  lemma WheelStepUndone(v: real, direction: int, step: real, lo: real, hi: real)
    requires lo <= v <= hi && lo <= v + direction as real * step <= hi
    ensures WheelStep(WheelStep(v, direction, step, lo, hi), -direction, step, lo, hi) == v
  {
    assert (-direction) as real * step == -(direction as real * step);
  }

  /** With whole bounds and a step of 1, a whole value stays whole (the
      spawn amount is a loop bound). */
  lemma WheelStepKeepsWhole(v: real, direction: int, lo: int, hi: int)
    requires v == v.Floor as real
    ensures var r := WheelStep(v, direction, 1.0, lo as real, hi as real); r == r.Floor as real
  {
    var r := WheelStep(v, direction, 1.0, lo as real, hi as real);
    assert r == (v.Floor + direction) as real || r == lo as real || r == hi as real;
  }

  /** ArrowDown: `selectors.push(selectors.shift())` moves the head to the tail. */
  function RotateDown<T>(s: seq<T>): (r: seq<T>)
    requires |s| > 0
    ensures |r| == |s| && multiset(r) == multiset(s)
    ensures r[|r| - 1] == s[0]
    ensures forall i :: 0 <= i < |s| - 1 ==> r[i] == s[i + 1]
  {
    assert s == [s[0]] + s[1..];
    s[1..] + [s[0]]
  }

  /** ArrowUp: `selectors.unshift(selectors.pop())` moves the tail to the head. */
  function RotateUp<T>(s: seq<T>): (r: seq<T>)
    requires |s| > 0
    ensures |r| == |s| && multiset(r) == multiset(s)
    ensures r[0] == s[|s| - 1]
    ensures forall i :: 1 <= i < |s| ==> r[i] == s[i - 1]
  {
    assert s == s[..|s| - 1] + [s[|s| - 1]];
    [s[|s| - 1]] + s[..|s| - 1]
  }

  /** ArrowDown then ArrowUp, or ArrowUp then ArrowDown, restores the list. */
  lemma RotationsCancel<T>(s: seq<T>)
    requires |s| > 0
    ensures RotateUp(RotateDown(s)) == s
    ensures RotateDown(RotateUp(s)) == s
  {
    var d := RotateDown(s);
    assert RotateUp(d) == [d[|d| - 1]] + d[..|d| - 1];
    assert d[..|d| - 1] == s[1..];
    assert RotateUp(d) == [s[0]] + s[1..];
    var u := RotateUp(s);
    assert u[1..] == s[..|s| - 1];
    assert RotateDown(u) == s[..|s| - 1] + [s[|s| - 1]];
  }

  /** Pressing ArrowDown `n` times, for `n` up to the length of the list,
      moves its first `n` entries, in order, behind the rest. */
  function RotateDownTimes<T>(s: seq<T>, n: nat): (r: seq<T>)
    requires |s| > 0
    ensures |r| == |s|
    ensures n <= |s| ==> r == s[n..] + s[..n]
    decreases n
  {
    if n == 0 then s
    else
      var d := RotateDown(s);
      if n <= |s| then
        RotateDownSlices(s, n);
        Regroup(s, n, d[n - 1..], d[..n - 1]);
        RotateDownTimes(d, n - 1)
      else
        RotateDownTimes(d, n - 1)
  }

  lemma Regroup<T>(s: seq<T>, n: nat, left: seq<T>, right: seq<T>)
    requires 0 < n <= |s| && left == s[n..] + [s[0]] && right == s[1..n]
    ensures left + right == s[n..] + s[..n]
  {
    assert s[..n] == [s[0]] + s[1..n];
  }

  /** How one rotation moves the slices around position `n`. */
  lemma RotateDownSlices<T>(s: seq<T>, n: nat)
    requires 0 < n <= |s|
    ensures RotateDown(s)[n - 1..] == s[n..] + [s[0]]
    ensures RotateDown(s)[..n - 1] == s[1..n]
  {
    var d := RotateDown(s);
    assert d == s[1..] + [s[0]];
  }

  /** Pressing ArrowDown once per entry brings the list back to where it started. */
  lemma FullCycleRestores<T>(s: seq<T>)
    requires |s| > 0
    ensures RotateDownTimes(s, |s|) == s
  {
    assert s[|s|..] + s[..|s|] == s;
  }
}

=== FILE: fluid_controls.dfy ===
/** The tunable parameters of the fluid page and its keyboard, mouse and
    wheel handlers. The wheel adjusts the parameter named by the head of the
    selector list, clamped to that parameter's range; ArrowDown / ArrowUp
    rotate the list; the middle button spawns particles into the grid. */
module FluidControls {
  import opened Controls
  import FluidGrid
  import FluidParticle

  /** The parameters the selector list names. The page keeps their names
      as strings and switches on the head of the list; distinct names map
      to distinct constructors, and `"smoothingRadius"`, which the wheel
      handler also matches, is the name of no entry, so it has none. */
  datatype Param = MouseForceRadius | TargetDensity | PressureMultiplier | NearPressureMultiplier
                 | ViscosityStrength | GravityMultiplier | ParticleSpawnAmount | MouseForce

  /** `selectors` as the page declares it. */
  const FluidSelectors: seq<Param> := [MouseForceRadius, TargetDensity, PressureMultiplier,
    NearPressureMultiplier, ViscosityStrength, GravityMultiplier, ParticleSpawnAmount, MouseForce]

  /** The wheel-adjustable parameters, as one record. */
  datatype FluidParams = FluidParams(
    mouseForce: real,
    mouseForceRadius: real,
    gravityMultiplier: real,
    particleSpawnAmount: real,
    targetDensity: real,
    pressureMultiplier: real,
    nearPressureMultiplier: real,
    viscosityStrength: real)

  /** The module-level initial values. */
  const InitialParams := FluidParams(50.0, 10.0, 1.0, 10.0, 2.75, 10.0, 5.0, 0.1)

  /** The value of the parameter `q` names. */
  function Value(p: FluidParams, q: Param): real
  {
    match q
    case MouseForceRadius => p.mouseForceRadius
    case TargetDensity => p.targetDensity
    case PressureMultiplier => p.pressureMultiplier
    case NearPressureMultiplier => p.nearPressureMultiplier
    case ViscosityStrength => p.viscosityStrength
    case GravityMultiplier => p.gravityMultiplier
    case ParticleSpawnAmount => p.particleSpawnAmount
    case MouseForce => p.mouseForce
  }

  /** The step, lower bound and upper bound of each wheel case. */
  function Step(q: Param): real
  {
    match q
    case MouseForceRadius => 10.0
    case TargetDensity => 0.1
    case PressureMultiplier => 1.0
    case NearPressureMultiplier => 1.0
    case ViscosityStrength => 0.1
    case GravityMultiplier => 0.1
    case ParticleSpawnAmount => 1.0
    case MouseForce => 10.0
  }

  function Low(q: Param): real
  {
    match q
    case MouseForceRadius => 10.0
    case TargetDensity => 0.1
    case PressureMultiplier => 0.0
    case NearPressureMultiplier => 0.0
    case ViscosityStrength => 0.0
    case GravityMultiplier => -2.0
    case ParticleSpawnAmount => 1.0
    case MouseForce => 50.0
  }

  function High(q: Param): real
  {
    match q
    case MouseForceRadius => 1000.0
    case TargetDensity => 10.0
    case PressureMultiplier => 100.0
    case NearPressureMultiplier => 100.0
    case ViscosityStrength => 10.0
    case GravityMultiplier => 2.0
    case ParticleSpawnAmount => 100.0
    case MouseForce => 500.0
  }

  /** Every parameter lies in the range its wheel case clamps to, and the
      spawn amount (a loop bound) is a whole number. */
  predicate InRange(p: FluidParams)
  {
    (forall q: Param :: Low(q) <= Value(p, q) <= High(q)) &&
    p.particleSpawnAmount == p.particleSpawnAmount.Floor as real
  }

  /** The initial values lie in range. */
  lemma InitialInRange()
    ensures InRange(InitialParams)
  {
    forall q: Param ensures Low(q) <= Value(InitialParams, q) <= High(q) {
    }
  }

  /** The wheel handler's switch on the head of the selector list:
      `v = Math.min(Math.max(v + direction * step, lo), hi)` for the selected
      parameter. */
  function Adjust(p: FluidParams, selected: Param, direction: int): (r: FluidParams)
    requires InRange(p)
    ensures InRange(r)
    ensures Value(r, selected) == WheelStep(Value(p, selected), direction, Step(selected), Low(selected), High(selected))
    ensures forall q: Param :: q != selected ==> Value(r, q) == Value(p, q)
  {
    var v := WheelStep(Value(p, selected), direction, Step(selected), Low(selected), High(selected));
    match selected
    case GravityMultiplier => p.(gravityMultiplier := v)
    case ParticleSpawnAmount =>
      WheelStepKeepsWhole(p.particleSpawnAmount, direction, 1, 100);
      p.(particleSpawnAmount := v)
    case MouseForce => p.(mouseForce := v)
    case MouseForceRadius => p.(mouseForceRadius := v)
    case TargetDensity => p.(targetDensity := v)
    case PressureMultiplier => p.(pressureMultiplier := v)
    case NearPressureMultiplier => p.(nearPressureMultiplier := v)
    case ViscosityStrength => p.(viscosityStrength := v)
  }

  /** A notch that did not reach a bound is undone by the opposite notch,
      and every other parameter is back where it was. */
  lemma AdjustUndone(p: FluidParams, selected: Param, direction: int)
    requires InRange(p)
    requires Low(selected) <= Value(p, selected) + direction as real * Step(selected) <= High(selected)
    ensures Adjust(Adjust(p, selected, direction), selected, -direction) == p
  {
    var v := Value(p, selected);
    WheelStepUndone(v, direction, Step(selected), Low(selected), High(selected));
    var r := Adjust(Adjust(p, selected, direction), selected, -direction);
    assert Value(r, selected) == v;
    assert forall q: Param :: Value(r, q) == Value(p, q);
  }

  class FluidSettings {
    var selectors: seq<Param>
    var mouse1Down: bool
    var mouse2Down: bool
    var params: FluidParams

    /** The selector list is always a rotation of the declared one and the
        parameters lie in range. */
    ghost predicate Valid()
      reads this
    {
      |selectors| == |FluidSelectors| && multiset(selectors) == multiset(FluidSelectors) &&
      InRange(params)
    }

    constructor ()
      ensures Valid()
      ensures selectors == FluidSelectors && !mouse1Down && !mouse2Down && params == InitialParams
    {
      selectors := FluidSelectors;
      mouse1Down, mouse2Down := false, false;
      params := InitialParams;
      InitialInRange();
    }

    /** The wheel handler: one clamped step of the parameter heading the
        selector list, `Math.sign(wheelDeltaY)` notches, ten with Ctrl. */
    method Wheel(wheelDeltaY: real, ctrlKey: bool)
      requires Valid()
      modifies this
      ensures Valid()
      ensures selectors == old(selectors) && mouse1Down == old(mouse1Down) && mouse2Down == old(mouse2Down)
      ensures params == Adjust(old(params), old(selectors[0]), WheelDirection(wheelDeltaY, ctrlKey))
    {
      var direction := WheelDirection(wheelDeltaY, ctrlKey);
      params := Adjust(params, selectors[0], direction);
    }

    /** ArrowDown: the head of the selector list moves to its tail. */
    method ArrowDown()
      requires Valid()
      modifies this
      ensures Valid()
      ensures selectors == RotateDown(old(selectors))
      ensures params == old(params)
      ensures mouse1Down == old(mouse1Down) && mouse2Down == old(mouse2Down)
    {
      selectors := RotateDown(selectors);
    }

    /** ArrowUp: the tail of the selector list moves to its head. */
    method ArrowUp()
      requires Valid()
      modifies this
      ensures Valid()
      ensures selectors == RotateUp(old(selectors))
      ensures params == old(params)
      ensures mouse1Down == old(mouse1Down) && mouse2Down == old(mouse2Down)
    {
      selectors := RotateUp(selectors);
    }

    /** `mousedown`: buttons 0 and 2 raise the attract / repel flags; the
        middle button spawns `particleSpawnAmount` particles at the pointer
        (stopping early at a position without a cell, as `Spawn` says). */
    method MouseDown(button: int, grid: FluidGrid.ParticleGrid, clientX: real, clientY: real, canvasHeight: real)
      returns (spawned: nat)
      requires Valid() && grid.Valid()
      modifies this, grid
      ensures Valid() && grid.Valid()
      ensures selectors == old(selectors) && params == old(params)
      ensures mouse1Down == (button == 0 || old(mouse1Down))
      ensures mouse2Down == (button == 2 || old(mouse2Down))
      ensures button != 1 ==> spawned == 0 && grid.particles == old(grid.particles) && grid.cells == old(grid.cells)
      ensures button == 1 ==>
        spawned <= params.particleSpawnAmount.Floor &&
        grid.particles == old(grid.particles) + FluidGrid.SpawnBatch(clientX, clientY, canvasHeight, spawned)
      ensures button == 1 && spawned < params.particleSpawnAmount.Floor ==>
        FluidParticle.CellOf(FluidGrid.SpawnPosition(clientX, clientY, canvasHeight, spawned)) !in grid.cells
      ensures forall k :: k in grid.cells <==> k in old(grid.cells)
      ensures old(FluidGrid.Ordered(grid.cells, grid.particles)) ==> FluidGrid.Ordered(grid.cells, grid.particles)
    {
      spawned := 0;
      if button == 0 {
        mouse1Down := true;
      } else if button == 2 {
        mouse2Down := true;
      } else if button == 1 {
        assert Low(ParticleSpawnAmount) <= Value(params, ParticleSpawnAmount);
        spawned := grid.Spawn(clientX, clientY, canvasHeight, params.particleSpawnAmount.Floor);
      }
    }

    /** `mouseup`: buttons 0 and 2 clear their flags. */
    method MouseUp(button: int)
      requires Valid()
      modifies this
      ensures Valid()
      ensures mouse1Down == (button != 0 && old(mouse1Down))
      ensures mouse2Down == (button != 2 && old(mouse2Down))
      ensures selectors == old(selectors) && params == old(params)
    {
      if button == 0 {
        mouse1Down := false;
      } else if button == 2 {
        mouse2Down := false;
      }
    }
  }
}

=== FILE: fluid_grid.dfy ===
/** The fluid page's spatial hash: a map from cell coordinates to cells that
    list the particles inside them, kept in step with the particle list by a
    per-tick membership update and filled by the start-up scatter and the
    middle-click spawn. Particles are values in a sequence; a cell lists
    particles by their index in that sequence, which stands for the object
    reference the source stores. */
module FluidGrid {
  import opened Vectors
  import opened FluidParticle
  import FluidKernels

  /** A grid cell: the particles in it, and its own coordinates. */
  datatype Cell = Cell(particles: seq<nat>, coordinates: CellCoord)

  /** `particleAmount`, the number of particles scattered at start-up. */
  const ParticleAmount: nat := 1000

  /** `createParticleCell`: an empty cell labelled with the cell that
      contains `position`. */
  function CreateParticleCell(position: Vec): (c: Cell)
    ensures c.particles == [] && InCell(position, c.coordinates)
  {
    Cell([], CellOf(position))
  }

  /** Every cell is stored under its own coordinates. */
  ghost predicate WellKeyed(cells: map<CellCoord, Cell>)
  {
    forall k :: k in cells ==> cells[k].coordinates == k
  }

  // ---------------------------------------------------------------------
  // The 3x3 neighbourhood lookup

  /** Lookup number `n` (0 to 8) of `getSurroundingCells` probes the offset
      `(n / 3 - 1, n % 3 - 1)`: the x offset in the outer loop, y inner. */
  function Shifted(c: CellCoord, n: nat): CellCoord
  {
    CellCoord(c.x + n / 3 - 1, c.y + n % 3 - 1)
  }

  /** `k` is within one cell of `c` on each axis. */
  predicate Near(k: CellCoord, c: CellCoord)
  {
    -1 <= k.x - c.x <= 1 && -1 <= k.y - c.y <= 1
  }

  /** The lookup number at which `k` is probed around `c`. */
  function OffsetNumber(c: CellCoord, k: CellCoord): int
  {
    (k.x - c.x + 1) * 3 + (k.y - c.y + 1)
  }

  lemma ShiftedIsNear(c: CellCoord, n: nat)
    requires n < 9
    ensures Near(Shifted(c, n), c) && OffsetNumber(c, Shifted(c, n)) == n
  {
  }

  lemma NearIsShifted(c: CellCoord, k: CellCoord)
    requires Near(k, c)
    ensures 0 <= OffsetNumber(c, k) < 9 && Shifted(c, OffsetNumber(c, k)) == k
  {
  }

  /** The cells found by the first `n` of the nine lookups, in order. */
  function Neighbourhood(cells: map<CellCoord, Cell>, c: CellCoord, n: nat): seq<Cell>
    requires n <= 9
  {
    if n == 0 then []
    else
      var key := Shifted(c, n - 1);
      Neighbourhood(cells, c, n - 1) + (if key in cells then [cells[key]] else [])
  }

  /** `getSurroundingCells`: probes the nine cells around `coordinates`,
      keeping those that exist. */
  method SurroundingCells(cells: map<CellCoord, Cell>, coordinates: CellCoord) returns (found: seq<Cell>)
    ensures found == Neighbourhood(cells, coordinates, 9)
  {
    found := [];
    for i := -1 to 2
      invariant found == Neighbourhood(cells, coordinates, (i + 1) * 3)
    {
      for j := -1 to 2
        invariant found == Neighbourhood(cells, coordinates, (i + 1) * 3 + (j + 1))
      {
        var key := CellCoord(coordinates.x + i, coordinates.y + j);
        assert key == Shifted(coordinates, (i + 1) * 3 + (j + 1));
        if key in cells {
          found := found + [cells[key]];
        }
      }
    }
  }

  lemma {:induction false} NeighbourhoodUpTo(cells: map<CellCoord, Cell>, c: CellCoord, n: nat)
    requires n <= 9 && WellKeyed(cells)
    ensures |Neighbourhood(cells, c, n)| <= n
    ensures forall p :: 0 <= p < |Neighbourhood(cells, c, n)| ==>
      var cell := Neighbourhood(cells, c, n)[p];
      cell.coordinates in cells && cells[cell.coordinates] == cell &&
      Near(cell.coordinates, c) && OffsetNumber(c, cell.coordinates) < n
    ensures forall p, q :: 0 <= p < q < |Neighbourhood(cells, c, n)| ==>
      OffsetNumber(c, Neighbourhood(cells, c, n)[p].coordinates) < OffsetNumber(c, Neighbourhood(cells, c, n)[q].coordinates)
    ensures forall k :: k in cells && Near(k, c) && OffsetNumber(c, k) < n ==> cells[k] in Neighbourhood(cells, c, n)
  {
    if n > 0 {
      NeighbourhoodUpTo(cells, c, n - 1);
      ShiftedIsNear(c, n - 1);
      var key := Shifted(c, n - 1);
      forall k | k in cells && Near(k, c) && OffsetNumber(c, k) == n - 1
        ensures k == key
      {
        NearIsShifted(c, k);
      }
    }
  }

  /** The neighbourhood holds at most nine cells, each an existing cell within
      one step of the centre on both axes, no two alike, and it misses no
      existing cell of the 3x3 block. */
  lemma SurroundingCellsFacts(cells: map<CellCoord, Cell>, c: CellCoord)
    requires WellKeyed(cells)
    ensures |Neighbourhood(cells, c, 9)| <= 9
    ensures forall cell :: cell in Neighbourhood(cells, c, 9) ==>
      cell.coordinates in cells && cells[cell.coordinates] == cell && Near(cell.coordinates, c)
    ensures forall p, q :: 0 <= p < q < |Neighbourhood(cells, c, 9)| ==>
      Neighbourhood(cells, c, 9)[p].coordinates != Neighbourhood(cells, c, 9)[q].coordinates
    ensures forall k :: k in cells && Near(k, c) ==> cells[k] in Neighbourhood(cells, c, 9)
  {
    NeighbourhoodUpTo(cells, c, 9);
    forall k | k in cells && Near(k, c)
      ensures cells[k] in Neighbourhood(cells, c, 9)
    {
      NearIsShifted(c, k);
    }
  }

  // ---------------------------------------------------------------------
  // List helpers: `indexOf` and the removal `splice(index, 1)`

  /** `Array.prototype.indexOf`: the first position of `x`, or -1. */
  function IndexOf(s: seq<nat>, x: nat): (r: int)
    ensures -1 <= r < |s|
    ensures r == -1 <==> x !in s
    ensures r >= 0 ==> s[r] == x && x !in s[..r]
  {
    if |s| == 0 then -1
    else if s[0] == x then 0
    else
      var t := IndexOf(s[1..], x);
      assert t >= 0 ==> s[..t + 1] == [s[0]] + s[1..][..t];
      if t == -1 then -1 else t + 1
  }

  lemma IndexOfIs(s: seq<nat>, x: nat, p: nat)
    requires p < |s| && s[p] == x && x !in s[..p]
    ensures IndexOf(s, x) == p
  {
  }

  /** The entries of `s` that are at least `j`, in their order. */
  ghost function AtLeast(s: seq<nat>, j: nat): seq<nat>
  {
    if |s| == 0 then [] else (if s[0] >= j then [s[0]] else []) + AtLeast(s[1..], j)
  }

  lemma {:induction false} AtLeastSkip(s: seq<nat>, j: nat)
    requires j !in s
    ensures AtLeast(s, j) == AtLeast(s, j + 1)
  {
    if |s| > 0 {
      assert s[0] != j;
      assert j !in s[1..] by {
        assert s == [s[0]] + s[1..];
      }
      AtLeastSkip(s[1..], j);
    }
  }

  lemma {:induction false} AtLeastNone(s: seq<nat>, j: nat)
    requires forall x :: x in s ==> x < j
    ensures AtLeast(s, j) == []
  {
    if |s| > 0 {
      assert s[0] in s;
      assert forall x :: x in s[1..] ==> x in s;
      AtLeastNone(s[1..], j);
    }
  }

  /** `s` without its first `x`. */
  ghost function RemoveFirst(s: seq<nat>, x: nat): seq<nat>
  {
    if |s| == 0 then [] else if s[0] == x then s[1..] else [s[0]] + RemoveFirst(s[1..], x)
  }

  /** `splice(indexOf(x), 1)` removes the first `x`. */
  lemma {:induction false} SpliceRemovesFirst(s: seq<nat>, x: nat)
    requires x in s
    ensures s[..IndexOf(s, x)] + s[IndexOf(s, x) + 1..] == RemoveFirst(s, x)
  {
    if s[0] != x {
      assert x in s[1..] by {
        assert s == [s[0]] + s[1..];
      }
      SpliceRemovesFirst(s[1..], x);
      var t := IndexOf(s[1..], x);
      assert s[..t + 1] == [s[0]] + s[1..][..t];
      assert s[t + 2..] == s[1..][t + 1..];
    }
  }

  lemma {:induction false} RemoveFirstAppend(a: seq<nat>, b: seq<nat>, x: nat)
    requires x in a
    ensures RemoveFirst(a + b, x) == RemoveFirst(a, x) + b
  {
    assert (a + b)[0] == a[0];
    assert (a + b)[1..] == a[1..] + b;
    if a[0] != x {
      assert x in a[1..] by {
        assert a == [a[0]] + a[1..];
      }
      RemoveFirstAppend(a[1..], b, x);
    }
  }

  /** Removing the one occurrence of `j` from the entries `>= j` leaves the
      entries `>= j + 1`. */
  lemma {:induction false} DropOccurrence(s: seq<nat>, j: nat)
    requires multiset(s)[j] == 1
    ensures j in AtLeast(s, j)
    ensures RemoveFirst(AtLeast(s, j), j) == AtLeast(s, j + 1)
  {
    assert |s| > 0;
    assert s == [s[0]] + s[1..];
    assert multiset(s) == multiset{s[0]} + multiset(s[1..]);
    var rest := AtLeast(s[1..], j);
    if s[0] == j {
      assert multiset(s[1..])[j] == 0;
      AtLeastSkip(s[1..], j);
      assert AtLeast(s, j) == [j] + rest;
    } else {
      assert multiset(s[1..])[j] == 1;
      DropOccurrence(s[1..], j);
      if s[0] >= j {
        assert AtLeast(s, j) == [s[0]] + rest;
      } else {
        assert AtLeast(s, j) == rest;
      }
    }
  }

  // ---------------------------------------------------------------------
  // Grid consistency

  /** Every listed index is a particle registered to that cell, and every
      particle is listed exactly once, in the cell its `cellCoordinates` name. */
  ghost predicate Consistent(cells: map<CellCoord, Cell>, ps: seq<Particle>)
  {
    WellKeyed(cells) &&
    (forall k, m: nat :: k in cells && m in cells[k].particles ==> m < |ps| && ps[m].cellCoordinates == k) &&
    (forall m :: 0 <= m < |ps| ==> ps[m].cellCoordinates in cells && multiset(cells[ps[m].cellCoordinates].particles)[m] == 1)
  }

  /** The indices below `n` of the particles registered to `k`, ascending. */
  ghost function Members(ps: seq<Particle>, k: CellCoord, n: nat): seq<nat>
    requires n <= |ps|
  {
    if n == 0 then [] else Members(ps, k, n - 1) + (if ps[n - 1].cellCoordinates == k then [n - 1] else [])
  }

  /** The stronger shape the grid actually has after start-up and after each
      tick: each cell lists exactly its particles, in ascending order. */
  ghost predicate Ordered(cells: map<CellCoord, Cell>, ps: seq<Particle>)
  {
    WellKeyed(cells) &&
    (forall m :: 0 <= m < |ps| ==> ps[m].cellCoordinates in cells) &&
    (forall k :: k in cells ==> cells[k].particles == Members(ps, k, |ps|))
  }

  lemma {:induction false} MembersCountOf(ps: seq<Particle>, k: CellCoord, n: nat, m: nat)
    requires n <= |ps|
    ensures multiset(Members(ps, k, n))[m] == if m < n && ps[m].cellCoordinates == k then 1 else 0
  {
    if n > 0 {
      var prev := Members(ps, k, n - 1);
      var extra: seq<nat> := if ps[n - 1].cellCoordinates == k then [n - 1] else [];
      assert Members(ps, k, n) == prev + extra;
      CountAppend(prev, extra, m);
      MembersCountOf(ps, k, n - 1, m);
      if m == n - 1 {
        SingleCount(extra, m, ps[m].cellCoordinates == k);
      } else {
        SingleCount(extra, n - 1, ps[n - 1].cellCoordinates == k);
      }
    }
  }

  /** Occurrences of `m` in a list that is `[x]` when `b` and empty otherwise. */
  lemma SingleCount(s: seq<nat>, x: nat, b: bool)
    requires s == if b then [x] else []
    ensures forall m: nat :: multiset(s)[m] == if b && m == x then 1 else 0
  {
  }

  lemma CountAppend(s: seq<nat>, t: seq<nat>, m: nat)
    ensures multiset(s + t)[m] == multiset(s)[m] + multiset(t)[m]
  {
  }

  lemma MembersIn(ps: seq<Particle>, k: CellCoord, n: nat, m: nat)
    requires n <= |ps| && m in Members(ps, k, n)
    ensures m < n && ps[m].cellCoordinates == k
  {
    MembersCountOf(ps, k, n, m);
  }

  lemma {:induction false} MembersFrame(ps: seq<Particle>, qs: seq<Particle>, k: CellCoord, n: nat)
    requires n <= |ps| && n <= |qs|
    requires forall m :: 0 <= m < n ==> ps[m].cellCoordinates == qs[m].cellCoordinates
    ensures Members(ps, k, n) == Members(qs, k, n)
  {
    if n > 0 {
      MembersFrame(ps, qs, k, n - 1);
    }
  }

  lemma {:induction false} MembersNone(ps: seq<Particle>, k: CellCoord, n: nat)
    requires n <= |ps|
    requires forall m :: 0 <= m < n ==> ps[m].cellCoordinates != k
    ensures Members(ps, k, n) == []
  {
    if n > 0 {
      MembersNone(ps, k, n - 1);
    }
  }

  /** The ordered shape implies the plain consistency invariant. */
  lemma OrderedIsConsistent(cells: map<CellCoord, Cell>, ps: seq<Particle>)
    requires Ordered(cells, ps)
    ensures Consistent(cells, ps)
  {
    forall k | k in cells
      ensures forall m: nat :: m in cells[k].particles ==> m < |ps| && ps[m].cellCoordinates == k
    {
      forall m: nat | m in cells[k].particles
        ensures m < |ps| && ps[m].cellCoordinates == k
      {
        MembersIn(ps, k, |ps|, m);
      }
    }
    forall m | 0 <= m < |ps|
      ensures multiset(cells[ps[m].cellCoordinates].particles)[m] == 1
    {
      MembersCountOf(ps, ps[m].cellCoordinates, |ps|, m);
    }
  }

  lemma ListedParticle(cells: map<CellCoord, Cell>, ps: seq<Particle>, k: CellCoord, m: nat)
    requires Consistent(cells, ps) && k in cells && m in cells[k].particles
    ensures m < |ps| && ps[m].cellCoordinates == k
  {
  }

  /** Consistency only looks at where each particle is registered. */
  lemma ConsistentFrame(cells: map<CellCoord, Cell>, ps: seq<Particle>, qs: seq<Particle>)
    requires Consistent(cells, ps) && |ps| == |qs|
    requires forall m :: 0 <= m < |ps| ==> ps[m].cellCoordinates == qs[m].cellCoordinates
    ensures Consistent(cells, qs)
  {
    forall k | k in cells
      ensures forall m: nat :: m in cells[k].particles ==> m < |qs| && qs[m].cellCoordinates == k
    {
      forall m: nat | m in cells[k].particles
        ensures m < |qs| && qs[m].cellCoordinates == k
      {
        ListedParticle(cells, ps, k, m);
      }
    }
  }

  /** The grid after pushing particle `p` onto the list and its index onto
      the cell of its coordinates. */
  ghost function WithParticle(cells: map<CellCoord, Cell>, ps: seq<Particle>, p: Particle): map<CellCoord, Cell>
    requires p.cellCoordinates in cells
  {
    var key := p.cellCoordinates;
    cells[key := cells[key].(particles := cells[key].particles + [|ps|])]
  }

  /** Adding a particle to the list and to the existing cell of its
      coordinates keeps the grid consistent. */
  lemma AddParticleConsistent(cells: map<CellCoord, Cell>, ps: seq<Particle>, p: Particle)
    requires Consistent(cells, ps) && p.cellCoordinates in cells
    ensures Consistent(WithParticle(cells, ps, p), ps + [p])
  {
    var key := p.cellCoordinates;
    var cells' := WithParticle(cells, ps, p);
    var ps' := ps + [p];
    forall k | k in cells'
      ensures forall m: nat :: m in cells'[k].particles ==> m < |ps'| && ps'[m].cellCoordinates == k
    {
      forall m: nat | m in cells'[k].particles
        ensures m < |ps'| && ps'[m].cellCoordinates == k
      {
        if !(k == key && m == |ps|) {
          assert m in cells[k].particles;
          ListedParticle(cells, ps, k, m);
        }
      }
    }
    forall m | 0 <= m < |ps'|
      ensures ps'[m].cellCoordinates in cells' && multiset(cells'[ps'[m].cellCoordinates].particles)[m] == 1
    {
      var mk := ps'[m].cellCoordinates;
      var last: nat := |ps|;
      if m < |ps| {
        assert ps'[m] == ps[m];
        if mk == key {
          assert multiset(cells'[mk].particles) == multiset(cells[mk].particles) + multiset{last};
        }
      } else {
        NotListed(cells, ps, key);
        assert multiset(cells'[key].particles) == multiset(cells[key].particles) + multiset{last};
      }
    }
  }

  /** No cell of a consistent grid lists the index one past the last particle. */
  lemma NotListed(cells: map<CellCoord, Cell>, ps: seq<Particle>, k: CellCoord)
    requires Consistent(cells, ps) && k in cells
    ensures multiset(cells[k].particles)[|ps|] == 0
  {
    forall m: nat | m in cells[k].particles
      ensures m < |ps|
    {
      ListedParticle(cells, ps, k, m);
    }
    var n: nat := |ps|;
    assert n !in cells[k].particles;
  }

  /** ... and keeps each cell's list exactly its particles in order. */
  lemma AddParticleOrdered(cells: map<CellCoord, Cell>, ps: seq<Particle>, p: Particle)
    requires Ordered(cells, ps) && p.cellCoordinates in cells
    ensures Ordered(WithParticle(cells, ps, p), ps + [p])
  {
    var cells' := WithParticle(cells, ps, p);
    forall k | k in cells'
      ensures cells'[k].particles == Members(ps + [p], k, |ps| + 1)
    {
      MembersFrame(ps, ps + [p], k, |ps|);
    }
  }

  // ---------------------------------------------------------------------
  // The membership update loop, as a relation between the grid before the
  // loop (`c0`, `p0`) and after `j` particles have been moved.

  /** The list cell `k` held before the loop; none for a cell created since. */
  ghost function Listed(c0: map<CellCoord, Cell>, k: CellCoord): seq<nat>
  {
    if k in c0 then c0[k].particles else []
  }

  /** A particle after the update: registered to the cell of its position. */
  function Settle(p: Particle): (q: Particle)
    ensures q.cellCoordinates == CellOf(q.position)
    ensures q == p.(cellCoordinates := q.cellCoordinates)
  {
    p.(cellCoordinates := CellOf(p.position))
  }

  /** Particles below `j` have been settled into cells of `cells`; the
      others are as they were. */
  ghost predicate Progress(p0: seq<Particle>, ps: seq<Particle>, cells: map<CellCoord, Cell>, j: nat)
  {
    j <= |p0| && |ps| == |p0| &&
    (forall m :: 0 <= m < j ==> ps[m] == Settle(p0[m]) && ps[m].cellCoordinates in cells) &&
    (forall m :: j <= m < |ps| ==> ps[m] == p0[m])
  }

  /** Cell `k`, if present, lists what is left of its old list (the entries
      `>= from`), then the moved particles below `j` that now belong to it. */
  ghost predicate CellLists(c0: map<CellCoord, Cell>, cells: map<CellCoord, Cell>, ps: seq<Particle>, from: nat, j: nat, k: CellCoord)
    requires j <= |ps| && k in cells
  {
    cells[k].particles == AtLeast(Listed(c0, k), from) + Members(ps, k, j)
  }

  /** Every cell lists as `CellLists` says. Cells are only ever added, and an
      added cell is never empty. */
  ghost predicate Lists(c0: map<CellCoord, Cell>, cells: map<CellCoord, Cell>, ps: seq<Particle>, from: nat, j: nat)
    requires j <= |ps|
  {
    WellKeyed(cells) &&
    (forall k :: k in c0 ==> k in cells) &&
    (forall k :: k in cells ==> CellLists(c0, cells, ps, from, j, k)) &&
    (forall k :: k in cells && k !in c0 ==> cells[k].particles != [])
  }

  /** The grid once the update loop has moved particles `0 .. j-1`. */
  ghost predicate MovedUpTo(c0: map<CellCoord, Cell>, p0: seq<Particle>, cells: map<CellCoord, Cell>, ps: seq<Particle>, j: nat)
  {
    Progress(p0, ps, cells, j) && Lists(c0, cells, ps, j, j)
  }

  /** In the old cell of particle `j`, whose list is the old entries `>= j`
      (holding `j` once) followed by moved particles below `j`, `indexOf`
      finds `j` and `splice` leaves the old entries `>= j + 1`. */
  lemma DetachOwnCell(s: seq<nat>, moved: seq<nat>, list: seq<nat>, j: nat)
    requires list == AtLeast(s, j) + moved && multiset(s)[j] == 1 && j !in moved
    ensures IndexOf(list, j) > -1
    ensures list[..IndexOf(list, j)] + list[IndexOf(list, j) + 1..] == AtLeast(s, j + 1) + moved
  {
    DropOccurrence(s, j);
    SpliceRemovesFirst(list, j);
    RemoveFirstAppend(AtLeast(s, j), moved, j);
  }

  /** A cell other than the old cell of particle `j` never listed `j`, so
      its remaining old entries are the same from `j` or from `j + 1`. */
  lemma DetachOtherCell(c0: map<CellCoord, Cell>, p0: seq<Particle>, cells: map<CellCoord, Cell>, cells': map<CellCoord, Cell>,
                        ps: seq<Particle>, j: nat, k: CellCoord)
    requires Consistent(c0, p0) && j < |p0| && j <= |ps| && k != p0[j].cellCoordinates
    requires k in cells && CellLists(c0, cells, ps, j, j, k)
    requires k in cells' && cells'[k] == cells[k]
    ensures CellLists(c0, cells', ps, j + 1, j, k)
  {
    if k in c0 && j in c0[k].particles {
      ListedParticle(c0, p0, k, j);
    }
    AtLeastSkip(Listed(c0, k), j);
  }

  /** Before particle `j` is moved, its old cell exists and `indexOf`
      finds `j` in it. */
  lemma DetachFinds(c0: map<CellCoord, Cell>, p0: seq<Particle>, cells: map<CellCoord, Cell>, ps: seq<Particle>, j: nat)
    requires Consistent(c0, p0) && MovedUpTo(c0, p0, cells, ps, j) && j < |ps|
    ensures ps[j].cellCoordinates in cells
    ensures IndexOf(cells[ps[j].cellCoordinates].particles, j) > -1
  {
    var ok := ps[j].cellCoordinates;
    assert ps[j] == p0[j];
    assert j !in Members(ps, ok, j) by {
      if j in Members(ps, ok, j) {
        MembersIn(ps, ok, j, j);
      }
    }
    assert CellLists(c0, cells, ps, j, j, ok);
    DetachOwnCell(Listed(c0, ok), Members(ps, ok, j), cells[ok].particles, j);
  }

  /** `splice` takes exactly entry `j` out of its old cell. */
  lemma DetachOwn(c0: map<CellCoord, Cell>, p0: seq<Particle>, cells: map<CellCoord, Cell>, ps: seq<Particle>, j: nat,
                  index: int, rest: seq<nat>, cells': map<CellCoord, Cell>)
    requires Consistent(c0, p0) && MovedUpTo(c0, p0, cells, ps, j) && j < |ps|
    requires ps[j].cellCoordinates in cells
    requires index == IndexOf(cells[ps[j].cellCoordinates].particles, j) && index > -1
    requires rest == cells[ps[j].cellCoordinates].particles[..index] + cells[ps[j].cellCoordinates].particles[index + 1..]
    requires cells' == cells[ps[j].cellCoordinates := cells[ps[j].cellCoordinates].(particles := rest)]
    ensures var ok := ps[j].cellCoordinates;
      ok in cells && ok in cells' && cells' == cells[ok := cells'[ok]] && cells'[ok].coordinates == ok &&
      CellLists(c0, cells', ps, j + 1, j, ok)
  {
    var ok := ps[j].cellCoordinates;
    assert ps[j] == p0[j];
    assert j !in Members(ps, ok, j) by {
      if j in Members(ps, ok, j) {
        MembersIn(ps, ok, j, j);
      }
    }
    assert CellLists(c0, cells, ps, j, j, ok);
    DetachOwnCell(Listed(c0, ok), Members(ps, ok, j), cells[ok].particles, j);
  }

  /** With entry `j` gone from its old cell and nothing else changed, no
      cell lists `j` any more. */
  lemma Detach(c0: map<CellCoord, Cell>, p0: seq<Particle>, cells: map<CellCoord, Cell>, ps: seq<Particle>, j: nat,
               cells': map<CellCoord, Cell>)
    requires Consistent(c0, p0) && MovedUpTo(c0, p0, cells, ps, j) && j < |ps|
    requires var ok := ps[j].cellCoordinates;
      ok in cells && ok in cells' && cells' == cells[ok := cells'[ok]] && cells'[ok].coordinates == ok &&
      CellLists(c0, cells', ps, j + 1, j, ok)
    ensures Progress(p0, ps, cells', j) && Lists(c0, cells', ps, j + 1, j)
  {
    var ok := ps[j].cellCoordinates;
    assert ps[j] == p0[j];
    assert ok in c0;
    assert forall k :: k in cells' <==> k in cells;
    assert forall k :: k in cells' && k != ok ==> cells'[k] == cells[k];
    ProgressKeys(p0, ps, cells, cells', j);
    forall k | k in cells'
      ensures CellLists(c0, cells', ps, j + 1, j, k)
    {
      if k != ok {
        assert CellLists(c0, cells, ps, j, j, k);
        DetachOtherCell(c0, p0, cells, cells', ps, j, k);
      }
    }
  }

  /** Progress speaks only of the keys of the grid. */
  lemma ProgressKeys(p0: seq<Particle>, ps: seq<Particle>, cells: map<CellCoord, Cell>, cells': map<CellCoord, Cell>, j: nat)
    requires Progress(p0, ps, cells, j) && forall k :: k in cells ==> k in cells'
    ensures Progress(p0, ps, cells', j)
  {
  }

  /** Recording the new cell of particle `j` moves the settled prefix on by one. */
  lemma AttachProgress(p0: seq<Particle>, ps: seq<Particle>, cells: map<CellCoord, Cell>, j: nat,
                       cells': map<CellCoord, Cell>, ps': seq<Particle>)
    requires Progress(p0, ps, cells, j) && j < |p0|
    requires forall k :: k in cells ==> k in cells'
    requires CellOf(ps[j].position) in cells'
    requires ps' == ps[j := Settle(ps[j])]
    ensures Progress(p0, ps', cells', j + 1)
  {
  }

  /** Settling particle `j` adds `j` to the moved particles of its new cell only. */
  lemma SettledMembers(ps: seq<Particle>, ps': seq<Particle>, j: nat, k: CellCoord)
    requires j < |ps| && ps' == ps[j := Settle(ps[j])]
    ensures Members(ps', k, j + 1) == Members(ps, k, j) + if CellOf(ps[j].position) == k then [j] else []
  {
    MembersFrame(ps, ps', k, j);
  }

  /** A cell that already existed gets `j` appended exactly when it is the
      new cell of particle `j`, which extends its moved part by `j`. */
  lemma AttachCell(c0: map<CellCoord, Cell>, cells: map<CellCoord, Cell>, cells': map<CellCoord, Cell>,
                   ps: seq<Particle>, ps': seq<Particle>, j: nat, k: CellCoord)
    requires j < |ps| && ps' == ps[j := Settle(ps[j])]
    requires k in cells && k in cells' && CellLists(c0, cells, ps, j + 1, j, k)
    requires cells'[k].particles == cells[k].particles + if CellOf(ps[j].position) == k then [j] else []
    ensures CellLists(c0, cells', ps', j + 1, j + 1, k)
  {
    SettledMembers(ps, ps', j, k);
    var rest, moved := AtLeast(Listed(c0, k), j + 1), Members(ps, k, j);
    var extra := if CellOf(ps[j].position) == k then [j] else [];
    assert (rest + moved) + extra == rest + (moved + extra);
  }

  /** Pushing particle `j` onto the existing cell of its position extends
      that cell's moved part by `j`. */
  lemma AttachExisting(c0: map<CellCoord, Cell>, cells: map<CellCoord, Cell>, ps: seq<Particle>, j: nat,
                       cells': map<CellCoord, Cell>, ps': seq<Particle>)
    requires j < |ps| && Lists(c0, cells, ps, j + 1, j)
    requires CellOf(ps[j].position) in cells
    requires var nk := CellOf(ps[j].position);
      cells' == cells[nk := cells[nk].(particles := cells[nk].particles + [j])]
    requires ps' == ps[j := Settle(ps[j])]
    ensures Lists(c0, cells', ps', j + 1, j + 1)
  {
    forall k | k in cells'
      ensures CellLists(c0, cells', ps', j + 1, j + 1, k)
    {
      if k in cells {
        assert CellLists(c0, cells, ps, j + 1, j, k);
        AttachCell(c0, cells, cells', ps, ps', j, k);
      }
    }
  }

  /** The cell created for particle `j` lists `j` alone: it had no old list
      and no moved particle belonged to it. */
  lemma NewCellList(c0: map<CellCoord, Cell>, ps: seq<Particle>, j: nat, ps': seq<Particle>)
    requires j < |ps| && ps' == ps[j := Settle(ps[j])]
    requires CellOf(ps[j].position) !in c0
    requires forall m :: 0 <= m < j ==> ps[m].cellCoordinates != CellOf(ps[j].position)
    ensures [j] == AtLeast(Listed(c0, CellOf(ps[j].position)), j + 1) + Members(ps', CellOf(ps[j].position), j + 1)
  {
    var nk := CellOf(ps[j].position);
    SettledMembers(ps, ps', j, nk);
    MembersNone(ps, nk, j);
  }

  /** A missing cell of particle `j` is created holding `j` alone; no moved
      particle belonged to it before. */
  lemma AttachNew(c0: map<CellCoord, Cell>, cells: map<CellCoord, Cell>, ps: seq<Particle>, j: nat,
                  cells': map<CellCoord, Cell>, ps': seq<Particle>)
    requires j < |ps| && Lists(c0, cells, ps, j + 1, j)
    requires forall m :: 0 <= m < j ==> ps[m].cellCoordinates in cells
    requires CellOf(ps[j].position) !in cells
    requires var nk := CellOf(ps[j].position);
      cells' == cells[nk := Cell([j], nk)]
    requires ps' == ps[j := Settle(ps[j])]
    ensures Lists(c0, cells', ps', j + 1, j + 1)
  {
    var nk := CellOf(ps[j].position);
    NewCellList(c0, ps, j, ps');
    forall k | k in cells'
      ensures CellLists(c0, cells', ps', j + 1, j + 1, k)
    {
      if k in cells {
        assert CellLists(c0, cells, ps, j + 1, j, k);
        AttachCell(c0, cells, cells', ps, ps', j, k);
      }
    }
  }

  /** One removal: `indexOf` finds particle `j` at `index` in its old cell,
      and `splice` leaves `rest` there. */
  lemma DetachStep(c0: map<CellCoord, Cell>, p0: seq<Particle>, cells: map<CellCoord, Cell>, ps: seq<Particle>, j: nat,
                   index: int, rest: seq<nat>)
    requires Consistent(c0, p0) && MovedUpTo(c0, p0, cells, ps, j) && j < |ps|
    requires ps[j].cellCoordinates in cells
    requires index == IndexOf(cells[ps[j].cellCoordinates].particles, j) && index > -1
    requires rest == cells[ps[j].cellCoordinates].particles[..index] + cells[ps[j].cellCoordinates].particles[index + 1..]
    ensures var ok := ps[j].cellCoordinates;
      var cells' := cells[ok := cells[ok].(particles := rest)];
      Progress(p0, ps, cells', j) && Lists(c0, cells', ps, j + 1, j)
  {
    var ok := ps[j].cellCoordinates;
    var cells' := cells[ok := cells[ok].(particles := rest)];
    DetachOwn(c0, p0, cells, ps, j, index, rest, cells');
    Detach(c0, p0, cells, ps, j, cells');
  }

  /** One insertion: particle `j` pushed onto the cell of its position,
      created when missing, and its `cellCoordinates` updated. */
  lemma AttachStep(c0: map<CellCoord, Cell>, p0: seq<Particle>, cells: map<CellCoord, Cell>, ps: seq<Particle>, j: nat,
                   cells': map<CellCoord, Cell>, ps': seq<Particle>)
    requires Progress(p0, ps, cells, j) && Lists(c0, cells, ps, j + 1, j) && j < |p0|
    requires ps' == ps[j := Settle(ps[j])]
    requires var nk := CellOf(ps[j].position);
      if nk in cells then cells' == cells[nk := cells[nk].(particles := cells[nk].particles + [j])]
      else cells' == cells[nk := Cell([j], nk)]
    ensures MovedUpTo(c0, p0, cells', ps', j + 1)
  {
    if CellOf(ps[j].position) in cells {
      AttachExisting(c0, cells, ps, j, cells', ps');
    } else {
      AttachNew(c0, cells, ps, j, cells', ps');
    }
    AttachProgress(p0, ps, cells, j, cells', ps');
  }

  lemma {:induction false} AtLeastZero(s: seq<nat>)
    ensures AtLeast(s, 0) == s
  {
    if |s| > 0 {
      AtLeastZero(s[1..]);
      assert s == [s[0]] + s[1..];
    }
  }

  /** Before the loop nothing has moved. */
  lemma MovedNone(c0: map<CellCoord, Cell>, p0: seq<Particle>)
    requires WellKeyed(c0)
    ensures MovedUpTo(c0, p0, c0, p0, 0)
  {
    forall k | k in c0
      ensures CellLists(c0, c0, p0, 0, 0, k)
    {
      AtLeastZero(c0[k].particles);
    }
  }

  /** When every particle has been moved, nothing of the old lists remains. */
  lemma Finish(c0: map<CellCoord, Cell>, p0: seq<Particle>, cells: map<CellCoord, Cell>, ps: seq<Particle>)
    requires Consistent(c0, p0) && MovedUpTo(c0, p0, cells, ps, |p0|)
    ensures Ordered(cells, ps)
  {
    forall k | k in cells
      ensures cells[k].particles == Members(ps, k, |ps|)
    {
      assert CellLists(c0, cells, ps, |p0|, |p0|, k);
      forall x: nat | x in Listed(c0, k)
        ensures x < |p0|
      {
        ListedParticle(c0, p0, k, x);
      }
      AtLeastNone(Listed(c0, k), |p0|);
    }
  }

  // ---------------------------------------------------------------------
  // Start-up scatter and spawn

  /** A cell made by the start-up loops: `0 <= x < width / h`, `0 <= y < height / h`. */
  predicate InitialCell(k: CellCoord, width: real, height: real)
  {
    0 <= k.x && (k.x as real) < width / FluidKernels.SmoothingRadius &&
    0 <= k.y && (k.y as real) < height / FluidKernels.SmoothingRadius
  }

  /** A point `(u * width, v * height)` with `u, v` in `[0, 1)` lies in a
      cell the start-up loops made. */
  lemma SampleCellExists(u: real, v: real, width: real, height: real)
    requires 0.0 <= u < 1.0 && 0.0 <= v < 1.0 && width > 0.0 && height > 0.0
    ensures InitialCell(CellOf(Vec(u * width, v * height)), width, height)
  {
    FluidKernels.NonNegativeProduct(u, width);
    FluidKernels.PositiveProduct(1.0 - u, width);
    assert (1.0 - u) * width == width - u * width;
    FluidKernels.NonNegativeProduct(v, height);
    FluidKernels.PositiveProduct(1.0 - v, height);
    assert (1.0 - v) * height == height - v * height;
  }

  /** The `i`-th particle of a middle-click spawn: `(clientX + i, clientHeight - clientY)`. */
  function SpawnPosition(clientX: real, clientY: real, canvasHeight: real, i: nat): Vec
  {
    Vec(clientX + i as real, canvasHeight - clientY)
  }

  /** The particles the first `n` iterations of the spawn loop create. */
  function SpawnBatch(clientX: real, clientY: real, canvasHeight: real, n: nat): (batch: seq<Particle>)
    ensures |batch| == n
  {
    if n == 0 then [] else SpawnBatch(clientX, clientY, canvasHeight, n - 1) + [CreateParticle(SpawnPosition(clientX, clientY, canvasHeight, n - 1))]
  }

  /** Spawned particle `m` sits at spawn position `m`, at rest, with mass 1
      and radius 5, registered to the cell of its position. */
  lemma {:induction false} SpawnBatchAt(clientX: real, clientY: real, canvasHeight: real, n: nat, m: nat)
    requires m < n
    ensures var p := SpawnBatch(clientX, clientY, canvasHeight, n)[m];
      p.position == SpawnPosition(clientX, clientY, canvasHeight, m) &&
      p.velocity == Zero() && p.mass == 1.0 && p.radius == 5.0 &&
      p.cellCoordinates == CellOf(p.position)
  {
    if m < n - 1 {
      SpawnBatchAt(clientX, clientY, canvasHeight, n - 1, m);
    }
  }

  /** The grid `cells, ps` obtained from `cells0, ps0` by pushing each
      particle of `batch` onto the list and onto the existing cell of its
      coordinates. */
  ghost predicate Filled(cells0: map<CellCoord, Cell>, ps0: seq<Particle>, cells: map<CellCoord, Cell>, ps: seq<Particle>, batch: seq<Particle>)
  {
    ps == ps0 + batch &&
    (Consistent(cells0, ps0) ==> Consistent(cells, ps)) &&
    (Ordered(cells0, ps0) ==> Ordered(cells, ps)) &&
    (forall k :: k in cells <==> k in cells0) &&
    (forall p :: p in batch ==> p.cellCoordinates in cells0)
  }

  lemma FillStart(cells0: map<CellCoord, Cell>, ps0: seq<Particle>)
    ensures Filled(cells0, ps0, cells0, ps0, [])
  {
  }

  /** One more particle whose cell exists. */
  lemma FillStep(cells0: map<CellCoord, Cell>, ps0: seq<Particle>, cells: map<CellCoord, Cell>, ps: seq<Particle>,
                 batch: seq<Particle>, p: Particle)
    requires Filled(cells0, ps0, cells, ps, batch) && p.cellCoordinates in cells
    ensures Filled(cells0, ps0, WithParticle(cells, ps, p), ps + [p], batch + [p])
  {
    if Consistent(cells0, ps0) {
      AddParticleConsistent(cells, ps, p);
    }
    if Ordered(cells0, ps0) {
      AddParticleOrdered(cells, ps, p);
    }
  }

  /** The particles created at the first `n` of `positions`, in order. */
  function Batch(positions: seq<Vec>, n: nat): (batch: seq<Particle>)
    requires n <= |positions|
    ensures |batch| == n
  {
    if n == 0 then [] else Batch(positions, n - 1) + [CreateParticle(positions[n - 1])]
  }

  lemma {:induction false} BatchAt(positions: seq<Vec>, n: nat, m: nat)
    requires m < n <= |positions|
    ensures Batch(positions, n)[m] == CreateParticle(positions[m])
  {
    if m < n - 1 {
      BatchAt(positions, n - 1, m);
    }
  }

  /** A pair of draws of `Math.random()`, each in `[0, 1)`. */
  predicate InUnitSquare(sample: (real, real))
  {
    0.0 <= sample.0 < 1.0 && 0.0 <= sample.1 < 1.0
  }

  /** The start-up positions `(random() * width, random() * height)`, with
      the random draws given as `samples`; draws in `[0, 1)` put every
      position on the canvas. */
  function SamplePositions(samples: seq<(real, real)>, width: real, height: real): (positions: seq<Vec>)
    ensures |positions| == |samples|
    ensures forall i :: 0 <= i < |samples| ==> positions[i] == Vec(samples[i].0 * width, samples[i].1 * height)
    ensures width > 0.0 && height > 0.0 && (forall i :: 0 <= i < |samples| ==> InUnitSquare(samples[i])) ==>
      forall i :: 0 <= i < |samples| ==> 0.0 <= positions[i].x < width && 0.0 <= positions[i].y < height
  {
    ScaledOntoCanvas(samples, width, height);
    seq(|samples|, i requires 0 <= i < |samples| => Vec(samples[i].0 * width, samples[i].1 * height))
  }

  lemma ScaledOntoCanvas(samples: seq<(real, real)>, width: real, height: real)
    ensures width > 0.0 && height > 0.0 ==> forall i :: 0 <= i < |samples| && InUnitSquare(samples[i]) ==>
      0.0 <= samples[i].0 * width < width && 0.0 <= samples[i].1 * height < height
  {
    if width > 0.0 && height > 0.0 {
      forall i | 0 <= i < |samples| && InUnitSquare(samples[i])
        ensures 0.0 <= samples[i].0 * width < width && 0.0 <= samples[i].1 * height < height
      {
        ScaledBelow(samples[i].0, width);
        ScaledBelow(samples[i].1, height);
      }
    }
  }

  lemma ScaledBelow(u: real, extent: real)
    requires 0.0 <= u < 1.0 && extent > 0.0
    ensures 0.0 <= u * extent < extent
  {
    FluidKernels.NonNegativeProduct(u, extent);
    FluidKernels.PositiveProduct(1.0 - u, extent);
  }

  /** On a non-empty canvas every sampled position falls in a start-up cell. */
  lemma SamplesInCells(samples: seq<(real, real)>, width: real, height: real)
    requires forall i :: 0 <= i < |samples| ==> InUnitSquare(samples[i])
    requires width > 0.0 && height > 0.0
    ensures forall i :: 0 <= i < |samples| ==> InitialCell(CellOf(SamplePositions(samples, width, height)[i]), width, height)
  {
    var positions := SamplePositions(samples, width, height);
    forall i | 0 <= i < |samples|
      ensures InitialCell(CellOf(positions[i]), width, height)
    {
      var u, v := samples[i].0, samples[i].1;
      assert positions[i] == Vec(u * width, v * height);
      SampleCellExists(u, v, width, height);
    }
  }

  /** The loop of `createParticles` pushing one particle per position onto
      the list and onto its cell; a position without a cell ends it (the
      push on `undefined` throws), keeping the particles before it. */
  method Scatter(grid0: map<CellCoord, Cell>, positions: seq<Vec>) returns (grid: map<CellCoord, Cell>, ps: seq<Particle>)
    ensures |ps| <= |positions| && Filled(grid0, [], grid, ps, Batch(positions, |ps|))
    ensures |ps| < |positions| ==> CellOf(positions[|ps|]) !in grid0
  {
    grid, ps := grid0, [];
    FillStart(grid, ps);
    var i := 0;
    while i < |positions|
      invariant i <= |positions| && Filled(grid0, [], grid, ps, Batch(positions, i))
    {
      var particle := CreateParticle(positions[i]);
      var key := particle.cellCoordinates;
      if key !in grid {
        break;
      }
      FillStep(grid0, [], grid, ps, Batch(positions, i), particle);
      grid := grid[key := grid[key].(particles := grid[key].particles + [|ps|])];
      ps := ps + [particle];
      i := i + 1;
    }
  }

  /** A grid of empty, correctly keyed cells and no particles is consistent. */
  lemma EmptyCells(cells: map<CellCoord, Cell>)
    requires WellKeyed(cells) && forall k :: k in cells ==> cells[k].particles == []
    ensures Consistent(cells, []) && Ordered(cells, [])
  {
  }

  /** The start-up loops over `0 <= x < width / h` and `0 <= y < height / h`,
      each making the cell whose corner is `(x * h, y * h)`. */
  method InitialCells(width: real, height: real) returns (grid: map<CellCoord, Cell>)
    ensures WellKeyed(grid) && forall k :: k in grid ==> grid[k].particles == []
    ensures forall k :: k in grid <==> InitialCell(k, width, height)
  {
    grid := map[];
    var x := 0;
    while (x as real) < width / FluidKernels.SmoothingRadius
      invariant 0 <= x
      invariant WellKeyed(grid) && forall k :: k in grid ==> grid[k].particles == []
      invariant forall k :: k in grid <==> InitialCell(k, width, height) && k.x < x
      decreases (width / FluidKernels.SmoothingRadius).Floor + 1 - x
    {
      var y := 0;
      while (y as real) < height / FluidKernels.SmoothingRadius
        invariant 0 <= y
        invariant WellKeyed(grid) && forall k :: k in grid ==> grid[k].particles == []
        invariant forall k :: k in grid <==> InitialCell(k, width, height) && (k.x < x || (k.x == x && k.y < y))
        decreases (height / FluidKernels.SmoothingRadius).Floor + 1 - y
      {
        CornerInOwnCell(x, y);
        var cell := CreateParticleCell(Vec(x as real * FluidKernels.SmoothingRadius, y as real * FluidKernels.SmoothingRadius));
        grid := grid[cell.coordinates := cell];
        y := y + 1;
      }
      x := x + 1;
    }
  }

  /** The `forEach` callback of the membership pass for particle `i`:
      `indexOf` and `splice(index, 1)` take it out of its old cell, then it
      is pushed onto the cell of its position, which `createParticleCell`
      makes when missing, and its `cellCoordinates` are updated. */
  method MoveToCell(cells: map<CellCoord, Cell>, particles: seq<Particle>, i: nat, ghost c0: map<CellCoord, Cell>, ghost p0: seq<Particle>)
    returns (grid: map<CellCoord, Cell>, ps: seq<Particle>)
    requires Consistent(c0, p0) && i < |particles| && MovedUpTo(c0, p0, cells, particles, i)
    ensures MovedUpTo(c0, p0, grid, ps, i + 1)
  {
    grid, ps := cells, particles;
    var particle := ps[i];
    var coordinates := CellOf(particle.position);
    DetachFinds(c0, p0, grid, ps, i);
    if particle.cellCoordinates in grid {
      var oldCell := grid[particle.cellCoordinates];
      var index := IndexOf(oldCell.particles, i);
      if index > -1 {
        var rest := oldCell.particles[..index] + oldCell.particles[index + 1..];
        DetachStep(c0, p0, grid, ps, i, index, rest);
        grid := grid[particle.cellCoordinates := oldCell.(particles := rest)];
      }
    }
    ghost var detached := grid;
    if coordinates in grid {
      var cell := grid[coordinates];
      grid := grid[coordinates := cell.(particles := cell.particles + [i])];
    } else {
      var newCell := CreateParticleCell(particle.position);
      newCell := newCell.(particles := newCell.particles + [i]);
      assert newCell == Cell([i], coordinates);
      grid := grid[coordinates := newCell];
    }
    AttachStep(c0, p0, detached, ps, i, grid, ps[i := particle.(cellCoordinates := coordinates)]);
    ps := ps[i := particle.(cellCoordinates := coordinates)];
  }

  /** Inside the canvas on each axis whose extent is at least the radius. */
  predicate InCanvas(p: Particle, width: real, height: real)
  {
    (width >= p.radius ==> p.radius / 2.0 <= p.position.x <= width - p.radius / 2.0) &&
    (height >= p.radius ==> p.radius / 2.0 <= p.position.y <= height - p.radius / 2.0)
  }

  class ParticleGrid {
    /** `particleCells`. */
    var cells: map<CellCoord, Cell>
    /** `particles`. */
    var particles: seq<Particle>

    ghost predicate Valid()
      reads this
    {
      Consistent(cells, particles)
    }

    /** Start-up: the empty map and list, the cells `0 <= x < width / h`,
        `0 <= y < height / h`, then `particleAmount` particles at
        `(u * width, v * height)` for the random pairs `(u, v)` in `samples`.
        A particle whose cell is missing makes `get(...)` yield `undefined`
        and the push throw; the scatter stops there. */
    constructor (width: real, height: real, samples: seq<(real, real)>)
      requires |samples| == ParticleAmount
      requires forall i :: 0 <= i < |samples| ==> InUnitSquare(samples[i])
      ensures Valid() && Ordered(cells, particles)
      ensures forall k :: k in cells <==> InitialCell(k, width, height)
      ensures |particles| <= ParticleAmount
      ensures particles == Batch(SamplePositions(samples, width, height), |particles|)
      ensures width > 0.0 && height > 0.0 ==> |particles| == ParticleAmount
      ensures !(width > 0.0 && height > 0.0) ==> particles == []
    {
      var grid := InitialCells(width, height);
      EmptyCells(grid);
      var positions := SamplePositions(samples, width, height);
      if width > 0.0 && height > 0.0 {
        SamplesInCells(samples, width, height);
      } else if |positions| > 0 {
        assert !InitialCell(CellOf(positions[0]), width, height);
      }
      var filled, ps := Scatter(grid, positions);
      assert [] + Batch(positions, |ps|) == Batch(positions, |ps|);
      cells, particles := filled, ps;
    }

    /** Middle click: `particleSpawnAmount` particles at
        `(clientX + i, clientHeight - clientY)`, each at rest with mass 1 and
        radius 5 and pushed onto the cell of its position. The first
        particle whose cell does not exist ends the handler (the push on
        `undefined` throws); the ones before it stay. */
    method Spawn(clientX: real, clientY: real, canvasHeight: real, amount: nat) returns (added: nat)
      requires Valid()
      modifies this
      ensures Valid()
      ensures old(Ordered(cells, particles)) ==> Ordered(cells, particles)
      ensures forall k :: k in cells <==> k in old(cells)
      ensures added <= amount
      ensures particles == old(particles) + SpawnBatch(clientX, clientY, canvasHeight, added)
      ensures forall p :: p in SpawnBatch(clientX, clientY, canvasHeight, added) ==> p.cellCoordinates in cells
      ensures added < amount ==> CellOf(SpawnPosition(clientX, clientY, canvasHeight, added)) !in cells
    {
      added := 0;
      var grid, ps := cells, particles;
      FillStart(grid, ps);
      while added < amount
        invariant cells == old(cells) && particles == old(particles) && added <= amount
        invariant Filled(cells, particles, grid, ps, SpawnBatch(clientX, clientY, canvasHeight, added))
      {
        var particle := CreateParticle(SpawnPosition(clientX, clientY, canvasHeight, added));
        var key := particle.cellCoordinates;
        if key !in grid {
          break;
        }
        FillStep(cells, particles, grid, ps, SpawnBatch(clientX, clientY, canvasHeight, added), particle);
        grid := grid[key := grid[key].(particles := grid[key].particles + [|ps|])];
        ps := ps + [particle];
        added := added + 1;
      }
      cells, particles := grid, ps;
    }

    /** The boundary pass of `simulationStep`: `particleUpdateBounds` on
        every particle. */
    method ApplyBounds(width: real, height: real)
      requires Valid()
      modifies this
      ensures Valid() && cells == old(cells) && |particles| == old(|particles|)
      ensures forall m :: 0 <= m < |particles| ==>
        particles[m] == old(particles)[m].(position := particles[m].position, velocity := particles[m].velocity) &&
        InCanvas(particles[m], width, height)
    {
      var i := 0;
      while i < |particles|
        invariant 0 <= i <= |particles| == old(|particles|) && cells == old(cells)
        invariant forall m :: 0 <= m < |particles| ==>
          particles[m] == old(particles)[m].(position := particles[m].position, velocity := particles[m].velocity)
        invariant forall m :: 0 <= m < i ==> InCanvas(particles[m], width, height)
        invariant forall m :: i <= m < |particles| ==> particles[m] == old(particles)[m]
      {
        var q := UpdateBounds(particles[i], width, height);
        particles := particles[i := q];
        i := i + 1;
      }
      ConsistentFrame(cells, old(particles), particles);
    }

    /** The membership pass of `simulationStep`. Comparing the stored
        coordinates object with a freshly made one is always "different",
        so every particle is taken out of its old cell and pushed onto the
        cell of its position, made if missing. Cells are never deleted.
        Afterwards each cell lists exactly the particles inside it, in list
        order. */
    method UpdateMembership()
      requires Valid()
      modifies this
      ensures Valid() && Ordered(cells, particles)
      ensures |particles| == old(|particles|)
      ensures forall m :: 0 <= m < |particles| ==> particles[m] == Settle(old(particles)[m])
      ensures forall k :: k in old(cells) ==> k in cells
      ensures forall k :: k in cells && k !in old(cells) ==> cells[k].particles != []
    {
      ghost var c0, p0 := cells, particles;
      var grid, ps := cells, particles;
      MovedNone(c0, p0);
      var i := 0;
      while i < |ps|
        invariant Consistent(c0, p0)
        invariant MovedUpTo(c0, p0, grid, ps, i)
        decreases |ps| - i
      {
        grid, ps := MoveToCell(grid, ps, i, c0, p0);
        i := i + 1;
      }
      assert i == |p0|;
      Finish(c0, p0, grid, ps);
      OrderedIsConsistent(grid, ps);
      cells, particles := grid, ps;
    }

    /** The grid part of one `simulationStep`: bounds, then membership.
        Afterwards every particle is inside the canvas and listed, once, in
        the cell of its position. */
    method Tick(width: real, height: real)
      requires Valid()
      modifies this
      ensures Valid() && Ordered(cells, particles)
      ensures |particles| == old(|particles|)
      ensures forall m :: 0 <= m < |particles| ==>
        InCanvas(particles[m], width, height) && particles[m].cellCoordinates == CellOf(particles[m].position) &&
        particles[m].cellCoordinates in cells
      ensures forall k :: k in old(cells) ==> k in cells
    {
      ApplyBounds(width, height);
      UpdateMembership();
    }
  }
}

=== FILE: fluid_kernels.dfy ===
/** The SPH smoothing kernels of the fluid page and the two pressure
    conversions. Each kernel is zero beyond the cutoff `radius`; inside it a
    power of `radius - dist` (or of `radius^2 - dist^2`) is scaled by a
    normalising constant that uses the fixed `SmoothingRadius`, not the
    `radius` argument (every call passes `SmoothingRadius`, so the two agree). */
module FluidKernels {

  /** `Math.PI`, written out; the proofs only use that it is positive. */
  const Pi: real := 3.141592653589793

  /** `smoothingRadius`, the cutoff and the grid's cell size. */
  const SmoothingRadius: real := 30.0

  /** `Math.pow(smoothingRadius, n)`. */
  function Pow(b: real, n: nat): (r: real)
    ensures b > 0.0 ==> r > 0.0
  {
    if n == 0 then 1.0 else b * Pow(b, n - 1)
  }

  /** `6 / (PI * h^4)`, `12 / (h^4 * PI)`, `10 / (PI * h^5)`, `30 / (h^5 * PI)`
      and `4 / (PI * h^8)` with `h = SmoothingRadius`. */
  function Kernel2Scale(): (r: real) ensures r > 0.0 { 6.0 / (Pi * Pow(SmoothingRadius, 4)) }
  function Kernel2SlopeScale(): (r: real) ensures r > 0.0 { 12.0 / (Pow(SmoothingRadius, 4) * Pi) }
  function Kernel3Scale(): (r: real) ensures r > 0.0 { 10.0 / (Pi * Pow(SmoothingRadius, 5)) }
  function Kernel3SlopeScale(): (r: real) ensures r > 0.0 { 30.0 / (Pow(SmoothingRadius, 5) * Pi) }
  function Poly6Scale(): (r: real) ensures r > 0.0 { 4.0 / (Pi * Pow(SmoothingRadius, 8)) }

  /** `smoothingKernel2`, the density kernel. */
  function Kernel2(radius: real, dist: real): (r: real)
    ensures dist >= radius ==> r == 0.0
    ensures dist <= radius ==> r >= 0.0
  {
    if dist > radius then 0.0
    else
      var v := radius - dist;
      NonNegativeProduct(v * v, Kernel2Scale());
      (v * v) * Kernel2Scale()
  }

  /** `smoothingKernel2Derivative`, the pressure gradient kernel. */
  function Kernel2Derivative(radius: real, dist: real): (r: real)
    ensures dist >= radius ==> r == 0.0
    ensures dist <= radius ==> r <= 0.0
  {
    if dist > radius then 0.0
    else
      var v := radius - dist;
      NonNegativeProduct(v, Kernel2SlopeScale());
      -v * Kernel2SlopeScale()
  }

  /** `smoothingKernel3`, the near-density kernel. */
  function Kernel3(radius: real, dist: real): (r: real)
    ensures dist >= radius ==> r == 0.0
    ensures dist <= radius ==> r >= 0.0
  {
    if dist > radius then 0.0
    else
      var v := radius - dist;
      NonNegativeProduct(v, v);
      NonNegativeProduct(v * v, v);
      NonNegativeProduct(v * v * v, Kernel3Scale());
      (v * v * v) * Kernel3Scale()
  }

  /** `smoothingKernel3Derivative`, the near-pressure gradient kernel. */
  function Kernel3Derivative(radius: real, dist: real): (r: real)
    ensures dist >= radius ==> r == 0.0
    ensures dist <= radius ==> r <= 0.0
  {
    if dist > radius then 0.0
    else
      var v := radius - dist;
      NonNegativeProduct(v, v);
      NonNegativeProduct(v * v, Kernel3SlopeScale());
      -v * v * Kernel3SlopeScale()
  }

  /** `smoothingKernelPoly6`, the viscosity weight. */
  function KernelPoly6(radius: real, dist: real): (r: real)
    ensures dist >= radius ==> r == 0.0
    ensures 0.0 <= dist <= radius ==> r >= 0.0
  {
    if dist > radius then 0.0
    else
      var v := radius * radius - dist * dist;
      Poly6Base(radius, dist);
      CubeNonNegative(v);
      NonNegativeProductIf(v * v * v, Poly6Scale());
      (v * v * v) * Poly6Scale()
  }

  lemma NonNegativeProduct(a: real, b: real)
    requires a >= 0.0 && b >= 0.0
    ensures a * b >= 0.0
  {
  }

  /** On `[0, radius]` the poly6 base `radius^2 - dist^2` is non-negative,
      and it vanishes at the cutoff. */
  lemma Poly6Base(radius: real, dist: real)
    ensures 0.0 <= dist <= radius ==> radius * radius - dist * dist >= 0.0
    ensures dist == radius ==> radius * radius - dist * dist == 0.0
  {
    if 0.0 <= dist <= radius {
      assert dist * dist <= radius * dist;
      assert radius * dist <= radius * radius;
    }
  }

  lemma CubeNonNegative(v: real)
    ensures v >= 0.0 ==> v * v * v >= 0.0
  {
    if v >= 0.0 {
      NonNegativeProduct(v, v);
      NonNegativeProduct(v * v, v);
    }
  }

  lemma PositiveProduct(a: real, b: real)
    requires a > 0.0 && b > 0.0
    ensures a * b > 0.0
  {
  }

  lemma StrictSquare(a: real, b: real)
    requires 0.0 <= b < a
    ensures b * b < a * a
  {
    PositiveProduct(a - b, a + b);
    assert (a - b) * (a + b) == a * a - b * b;
  }

  lemma ScaleStrict(a: real, b: real, c: real)
    requires b < a && c > 0.0
    ensures b * c < a * c
  {
    PositiveProduct(a - b, c);
    assert (a - b) * c == a * c - b * c;
  }

  /** The density kernel strictly decreases with distance inside the cutoff,
      so it is largest at distance 0. */
  lemma Kernel2Decreasing(radius: real, d1: real, d2: real)
    requires 0.0 <= d1 < d2 <= radius
    ensures Kernel2(radius, d1) > Kernel2(radius, d2)
  {
    var v1, v2 := radius - d1, radius - d2;
    StrictSquare(v1, v2);
    ScaleStrict(v1 * v1, v2 * v2, Kernel2Scale());
  }

  /** The near-density kernel strictly decreases with distance inside the cutoff. */
  lemma Kernel3Decreasing(radius: real, d1: real, d2: real)
    requires 0.0 <= d1 < d2 <= radius
    ensures Kernel3(radius, d1) > Kernel3(radius, d2)
  {
    var v1, v2 := radius - d1, radius - d2;
    StrictCube(v1, v2);
    ScaleStrict(v1 * v1 * v1, v2 * v2 * v2, Kernel3Scale());
  }

  lemma StrictCube(a: real, b: real)
    requires 0.0 <= b < a
    ensures b * b * b < a * a * a
  {
    PositiveProduct(a, a);
    NonNegativeProduct(a, b);
    NonNegativeProduct(b, b);
    PositiveProduct(a - b, a * a + a * b + b * b);
    assert (a - b) * (a * a + a * b + b * b) == a * a * a - b * b * b;
  }

  /** The viscosity weight strictly decreases with distance inside the cutoff. */
  lemma KernelPoly6Decreasing(radius: real, d1: real, d2: real)
    requires 0.0 <= d1 < d2 <= radius
    ensures KernelPoly6(radius, d1) > KernelPoly6(radius, d2)
  {
    StrictSquare(d2, d1);
    Poly6Base(radius, d2);
    var v1, v2 := radius * radius - d1 * d1, radius * radius - d2 * d2;
    StrictCube(v1, v2);
    ScaleStrict(v1 * v1 * v1, v2 * v2 * v2, Poly6Scale());
  }

  /** `densityToPressure`: below the target density the pressure is
      negative (attractive), above it positive (repulsive). */
  function DensityToPressure(density: real, targetDensity: real, pressureMultiplier: real): (r: real)
    ensures pressureMultiplier > 0.0 ==> (r < 0.0 <==> density < targetDensity)
    ensures pressureMultiplier > 0.0 ==> (r > 0.0 <==> density > targetDensity)
    ensures density == targetDensity ==> r == 0.0
  {
    (density - targetDensity) * pressureMultiplier
  }

  /** `densityToNearPressure`: never negative for a non-negative near density
      and multiplier. */
  function DensityToNearPressure(nearDensity: real, nearPressureMultiplier: real): (r: real)
    ensures nearDensity >= 0.0 && nearPressureMultiplier >= 0.0 ==> r >= 0.0
  {
    NonNegativeProductIf(nearDensity, nearPressureMultiplier);
    nearDensity * nearPressureMultiplier
  }

  lemma NonNegativeProductIf(a: real, b: real)
    ensures a >= 0.0 && b >= 0.0 ==> a * b >= 0.0
  {
  }
}

=== FILE: fluid_particle.dfy ===
/** A fluid particle record, the grid cell it belongs to, and the boundary
    reflection applied to it after each position update. */
module FluidParticle {
  import opened Vectors
  import FluidKernels

  /** Integer grid coordinates; the source keys its cell map by the string
      `"x,y"`, which is injective on integer pairs, so the pair is the key. */
  datatype CellCoord = CellCoord(x: int, y: int)

  datatype Particle = Particle(
    cellCoordinates: CellCoord,
    position: Vec,
    predictedPosition: Vec,
    velocity: Vec,
    radius: real,
    mass: real,
    density: real,
    nearDensity: real)

  /** `collisionDamping`: the share of speed kept by a bounce. */
  const CollisionDamping: real := 0.7

  /** Cell `c` is the square `[x * h, (x + 1) * h) x [y * h, (y + 1) * h)`
      with `h` the smoothing radius; `position` lies in it. */
  predicate InCell(position: Vec, c: CellCoord)
  {
    (c.x as real) * FluidKernels.SmoothingRadius <= position.x < (c.x as real + 1.0) * FluidKernels.SmoothingRadius &&
    (c.y as real) * FluidKernels.SmoothingRadius <= position.y < (c.y as real + 1.0) * FluidKernels.SmoothingRadius
  }

  /** `getCellCoordinates`: the cell of side `smoothingRadius` holding
      `position`, i.e. `floor(position / smoothingRadius)` on each axis. */
  function CellOf(position: Vec): (c: CellCoord)
    ensures InCell(position, c)
  {
    CellCoord((position.x / FluidKernels.SmoothingRadius).Floor, (position.y / FluidKernels.SmoothingRadius).Floor)
  }

  /** The cells tile the plane: the cell `getCellCoordinates` picks is the
      only one containing the point. */
  lemma CellOfUnique(position: Vec, c: CellCoord)
    requires InCell(position, c)
    ensures c == CellOf(position)
  {
    FloorOfScaled(position.x, c.x);
    FloorOfScaled(position.y, c.y);
  }

  lemma FloorOfScaled(p: real, k: int)
    requires (k as real) * FluidKernels.SmoothingRadius <= p < (k as real + 1.0) * FluidKernels.SmoothingRadius
    ensures (p / FluidKernels.SmoothingRadius).Floor == k
  {
    var q := p / FluidKernels.SmoothingRadius;
    assert p == q * FluidKernels.SmoothingRadius;
    assert k as real <= q < k as real + 1.0;
  }

  /** The corner `(x * h, y * h)` of cell `(x, y)` lies in that cell. */
  lemma CornerInOwnCell(x: int, y: int)
    ensures CellOf(Vec(x as real * FluidKernels.SmoothingRadius, y as real * FluidKernels.SmoothingRadius)) == CellCoord(x, y)
  {
    CellOfUnique(Vec(x as real * FluidKernels.SmoothingRadius, y as real * FluidKernels.SmoothingRadius), CellCoord(x, y));
  }

  /** `createParticle`: at rest, mass 1, radius 5, registered to the cell
      that contains its position, with the prediction equal to the position
      and no density gathered yet. */
  function CreateParticle(position: Vec): (p: Particle)
    ensures p.position == position && p.predictedPosition == position
    ensures InCell(position, p.cellCoordinates)
    ensures p.velocity == Zero() && p.mass == 1.0 && p.radius == 5.0
    ensures p.density == 0.0 && p.nearDensity == 0.0
  {
    Particle(CellOf(position), position, position, Zero(), 5.0, 1.0, 0.0, 0.0)
  }

  /** The particle's disc (of diameter `radius`, as the source measures it)
      lies inside `[0, extent]` on one axis. */
  predicate AxisInside(pos: real, radius: real, extent: real)
  {
    !(pos - radius / 2.0 < 0.0) && !(pos + radius / 2.0 > extent)
  }

  /** `particleUpdateBounds`: four checks in sequence, each clamping one
      coordinate to the edge it crossed and reversing and damping that
      velocity component. */
  method UpdateBounds(p: Particle, width: real, height: real) returns (q: Particle)
    ensures q == p.(position := q.position, velocity := q.velocity)
    ensures AxisInside(p.position.x, p.radius, width) && AxisInside(p.position.y, p.radius, height) ==> q == p
    ensures width >= p.radius ==> p.radius / 2.0 <= q.position.x <= width - p.radius / 2.0
    ensures height >= p.radius ==> p.radius / 2.0 <= q.position.y <= height - p.radius / 2.0
    ensures width >= p.radius ==>
      q.velocity.x == if AxisInside(p.position.x, p.radius, width) then p.velocity.x else p.velocity.x * (-1.0 * CollisionDamping)
    ensures height >= p.radius ==>
      q.velocity.y == if AxisInside(p.position.y, p.radius, height) then p.velocity.y else p.velocity.y * (-1.0 * CollisionDamping)
    ensures width >= p.radius ==>
      q.position.x == if p.position.x - p.radius / 2.0 < 0.0 then p.radius / 2.0
                      else if p.position.x + p.radius / 2.0 > width then width - p.radius / 2.0
                      else p.position.x
    ensures height >= p.radius ==>
      q.position.y == if p.position.y - p.radius / 2.0 < 0.0 then p.radius / 2.0
                      else if p.position.y + p.radius / 2.0 > height then height - p.radius / 2.0
                      else p.position.y
  {
    var x, y := p.position.x, p.position.y;
    var vx, vy := p.velocity.x, p.velocity.y;
    var half := p.radius / 2.0;
    if x - half < 0.0 {
      x := 0.0 + half;
      vx := vx * (-1.0 * CollisionDamping);
    }
    if x + half > width {
      x := width - half;
      vx := vx * (-1.0 * CollisionDamping);
    }
    if y - half < 0.0 {
      y := 0.0 + half;
      vy := vy * (-1.0 * CollisionDamping);
    }
    if y + half > height {
      y := height - half;
      vy := vy * (-1.0 * CollisionDamping);
    }
    q := p.(position := Vec(x, y), velocity := Vec(vx, vy));
  }
}

=== FILE: link_text.dfy ===
/** The launcher page shortens every source link's text longer than 50
    UTF-16 code units to its first 50 code units, trimmed, followed by
    `"..."`. JavaScript strings are sequences of UTF-16 code units, and
    `length`, `substring` and `trim` all count in them. */
module LinkText {

  newtype CodeUnit = x: int | 0 <= x < 0x1_0000

  /** The longest text left as it is. */
  const MaxLength: nat := 50

  const Ellipsis: seq<CodeUnit> := [0x2E, 0x2E, 0x2E]

  /** What `String.prototype.trim` removes: the ECMAScript WhiteSpace code
      points (tab, vertical tab, form feed, the byte order mark and the
      space separators) and the LineTerminator code points. */
  predicate IsWhitespace(c: CodeUnit)
  {
    c == 0x09 || c == 0x0B || c == 0x0C || c == 0xFEFF ||
    c == 0x20 || c == 0xA0 || c == 0x1680 || 0x2000 <= c <= 0x200A || c == 0x202F || c == 0x205F || c == 0x3000 ||
    c == 0x0A || c == 0x0D || c == 0x2028 || c == 0x2029
  }

  /** How many code units at the start of `s` are whitespace. */
  function LeadingSpace(s: seq<CodeUnit>): (n: nat)
    ensures n <= |s|
    ensures forall k :: 0 <= k < n ==> IsWhitespace(s[k])
    ensures n < |s| ==> !IsWhitespace(s[n])
  {
    if |s| == 0 || !IsWhitespace(s[0]) then 0 else 1 + LeadingSpace(s[1..])
  }

  /** How many code units at the end of `s` are whitespace. */
  function TrailingSpace(s: seq<CodeUnit>): (n: nat)
    ensures n <= |s|
    ensures forall k :: |s| - n <= k < |s| ==> IsWhitespace(s[k])
    ensures n < |s| ==> !IsWhitespace(s[|s| - n - 1])
  {
    if |s| == 0 || !IsWhitespace(s[|s| - 1]) then 0 else 1 + TrailingSpace(s[..|s| - 1])
  }

  /** `trim`: the contiguous part of `s` left after dropping the leading and
      the trailing whitespace; what is kept neither starts nor ends with
      whitespace. */
  function Trim(s: seq<CodeUnit>): (r: seq<CodeUnit>)
    ensures LeadingSpace(s) + |r| <= |s| && r == s[LeadingSpace(s)..LeadingSpace(s) + |r|]
    ensures |r| > 0 ==> !IsWhitespace(r[0]) && !IsWhitespace(r[|r| - 1])
  {
    var lead := LeadingSpace(s);
    var rest := s[lead..];
    rest[..|rest| - TrailingSpace(rest)]
  }

  /** Only whitespace is dropped, and the result is empty exactly when `s`
      is all whitespace. */
  lemma TrimDropsOnlyWhitespace(s: seq<CodeUnit>)
    ensures var lead, r := LeadingSpace(s), Trim(s);
      forall k :: 0 <= k < |s| && !(lead <= k < lead + |r|) ==> IsWhitespace(s[k])
    ensures (forall k :: 0 <= k < |s| ==> IsWhitespace(s[k])) <==> |Trim(s)| == 0
  {
    var lead := LeadingSpace(s);
    var rest := s[lead..];
    var trail := TrailingSpace(rest);
    assert forall k :: lead <= k < |s| ==> s[k] == rest[k - lead];
  }

  /** Trimming twice trims nothing more. */
  lemma TrimIdempotent(s: seq<CodeUnit>)
    ensures Trim(Trim(s)) == Trim(s)
  {
    var t := Trim(s);
    if |t| > 0 {
      assert LeadingSpace(t) == 0;
      assert TrailingSpace(t) == 0;
    }
  }

  /** The rule applied to each link text. */
  function Truncate(text: seq<CodeUnit>): (r: seq<CodeUnit>)
    ensures |text| <= MaxLength ==> r == text
    ensures |r| <= MaxLength + |Ellipsis|
    ensures |text| > MaxLength ==>
      |r| >= |Ellipsis| && r[|r| - |Ellipsis|..] == Ellipsis &&
      r[..|r| - |Ellipsis|] == Trim(text[..MaxLength])
  {
    if |text| > MaxLength then Trim(text[..MaxLength]) + Ellipsis else text
  }

  /** What a shortened text keeps is a contiguous slice of the first 50
      code units with no whitespace at either end, and everything of those
      50 outside it is whitespace. */
  lemma TruncateKeepsSlice(text: seq<CodeUnit>)
    requires |text| > MaxLength
    ensures var kept := Truncate(text)[..|Truncate(text)| - |Ellipsis|];
      var lead := LeadingSpace(text[..MaxLength]);
      lead + |kept| <= MaxLength && kept == text[lead..lead + |kept|] &&
      (|kept| > 0 ==> !IsWhitespace(kept[0]) && !IsWhitespace(kept[|kept| - 1])) &&
      forall k :: 0 <= k < MaxLength && !(lead <= k < lead + |kept|) ==> IsWhitespace(text[k])
  {
    var first := text[..MaxLength];
    var kept := Trim(first);
    var lead := LeadingSpace(first);
    assert Truncate(text) == kept + Ellipsis;
    PrefixOfConcat(kept, Ellipsis);
    SliceOfPrefix(text, MaxLength, lead, lead + |kept|);
    TrimDropsOnlyWhitespace(first);
  }

  lemma PrefixOfConcat<T>(a: seq<T>, b: seq<T>)
    ensures (a + b)[..|a + b| - |b|] == a
  {
  }

  lemma SliceOfPrefix<T>(s: seq<T>, n: nat, lo: nat, hi: nat)
    requires lo <= hi <= n <= |s|
    ensures s[..n][lo..hi] == s[lo..hi]
    ensures forall k :: 0 <= k < n ==> s[..n][k] == s[k]
  {
  }

  /** The `forEach` over the source links: each text is replaced, in place,
      by its truncation. */
  method TruncateLinks(links: array<seq<CodeUnit>>)
    modifies links
    ensures forall i :: 0 <= i < links.Length ==> links[i] == Truncate(old(links[i]))
  {
    for i := 0 to links.Length
      invariant forall k :: 0 <= k < i ==> links[k] == Truncate(old(links[k]))
      invariant forall k :: i <= k < links.Length ==> links[k] == old(links[k])
    {
      links[i] := Truncate(links[i]);
    }
  }
}

=== FILE: orbit.dfy ===
/** The orbit page: bodies that leave a bounded trail of points behind
    them, the per-frame body update, and the page's tunable parameters with
    their keyboard, mouse and wheel handlers. The pairwise gravity (which
    divides by a squared distance) and the mouse force (which divides by a
    distance) are taken as the velocity changes they produce. */
module Orbit {
  import opened Vectors
  import opened Controls

  datatype OrbitBody = OrbitBody(position: Vec, velocity: Vec, radius: real, mass: real, path: seq<Vec>)

  /** `createBody`: the impulse is the initial velocity; the trail starts empty. */
  function CreateBody(position: Vec, impulse: Vec, radius: real, mass: real): (b: OrbitBody)
    ensures b.path == [] && b.velocity == impulse
    ensures b.position == position && b.radius == radius && b.mass == mass
  {
    OrbitBody(position, impulse, radius, mass, [])
  }

  /** The most points a trail keeps. */
  const TrailLength: nat := 100

  /** `vectors.magnitude(d) > 10`, stated on the squared length so that no
      square root is needed: both sides are non-negative. */
  predicate FartherThan10(d: Vec)
  {
    d.x * d.x + d.y * d.y > 100.0
  }

  /** A point is added when the trail is empty (`lastPoint` is undefined)
      or its last point lies farther than 10 from the body. */
  predicate Moved(path: seq<Vec>, position: Vec)
  {
    |path| == 0 || FartherThan10(Subtract(path[|path| - 1], position))
  }

  /** The trail after the append rule and before the length rule. */
  function Appended(path: seq<Vec>, position: Vec): (r: seq<Vec>)
    ensures Moved(path, position) ==> |r| == |path| + 1 && r[|path|] == position && r[..|path|] == path
    ensures !Moved(path, position) ==> r == path
  {
    if Moved(path, position) then path + [position] else path
  }

  /** The trail after one frame: the appended trail, without its oldest
      point when that makes it longer than `TrailLength`. The result is a
      suffix of the appended trail that drops at most its first point. */
  function Trail(path: seq<Vec>, position: Vec): (r: seq<Vec>)
    ensures |Appended(path, position)| - 1 <= |r| <= |Appended(path, position)|
    ensures r == Appended(path, position)[|Appended(path, position)| - |r|..]
    ensures |r| < |Appended(path, position)| <==> |Appended(path, position)| > TrailLength
    ensures |path| <= TrailLength ==> |r| <= TrailLength
    ensures |r| <= |path| + 1
    ensures Moved(path, position) ==> r[|r| - 1] == position
    ensures !Moved(path, position) && |path| <= TrailLength ==> r == path
  {
    var a := Appended(path, position);
    if |a| > TrailLength then a[1..] else a
  }

  /** The trail part of `simulationStep`: push a copy of the position if the
      body moved far enough, then drop the oldest point if the trail is over
      its length. */
  method UpdateTrail(path: seq<Vec>, position: Vec) returns (r: seq<Vec>)
    ensures r == Trail(path, position)
  {
    r := path;
    if |r| == 0 || FartherThan10(Subtract(r[|r| - 1], position)) {
      r := r + [Vec(position.x, position.y)];
    }
    if |r| > TrailLength {
      r := r[1..];
    }
  }

  /** Every trail holds at most `TrailLength` points. */
  predicate TrailsBounded(bodies: seq<OrbitBody>)
  {
    forall k :: 0 <= k < |bodies| ==> |bodies[k].path| <= TrailLength
  }

  /** The `forEach` body of `simulationStep` for body `i`: the velocity
      change from every other body (given as `gravityImpulse`, which sees
      the bodies as updated so far), the position update, the mouse force
      (given as `mouseImpulse`) and the trail update. */
  method UpdateBody(bodies: seq<OrbitBody>, i: nat, dt: real,
                    gravityImpulse: (seq<OrbitBody>, nat) -> Vec, mouseImpulse: OrbitBody -> Vec)
    returns (r: seq<OrbitBody>)
    requires i < |bodies|
    ensures |r| == |bodies|
    ensures forall k :: 0 <= k < |bodies| && k != i ==> r[k] == bodies[k]
    ensures r[i].radius == bodies[i].radius && r[i].mass == bodies[i].mass
    ensures r[i].path == Trail(bodies[i].path, r[i].position)
    ensures r[i].position == Add(bodies[i].position, Multiply(Add(bodies[i].velocity, gravityImpulse(bodies, i)), dt * 100.0))
    ensures r[i].velocity == Add(Add(bodies[i].velocity, gravityImpulse(bodies, i)),
      mouseImpulse(bodies[i].(velocity := Add(bodies[i].velocity, gravityImpulse(bodies, i)), position := r[i].position)))
  {
    var b := bodies[i];
    b := b.(velocity := Add(b.velocity, gravityImpulse(bodies, i)));
    b := b.(position := Add(b.position, Multiply(b.velocity, dt * 100.0)));
    b := b.(velocity := Add(b.velocity, mouseImpulse(b)));
    var path := UpdateTrail(b.path, b.position);
    r := bodies[i := b.(path := path)];
  }

  /** The body loop of `simulationStep`, in list order: every body ends
      with its trail updated for its own new position, and keeps its
      radius and mass. */
  method StepBodies(bodies: seq<OrbitBody>, dt: real,
                    gravityImpulse: (seq<OrbitBody>, nat) -> Vec, mouseImpulse: OrbitBody -> Vec)
    returns (r: seq<OrbitBody>)
    requires TrailsBounded(bodies)
    ensures TrailsBounded(r)
    ensures |r| == |bodies|
    ensures forall k :: 0 <= k < |bodies| ==>
      r[k].radius == bodies[k].radius && r[k].mass == bodies[k].mass && r[k].path == Trail(bodies[k].path, r[k].position)
  {
    r := bodies;
    for i := 0 to |bodies|
      invariant TrailsBounded(r) && |r| == |bodies|
      invariant forall k :: 0 <= k < |bodies| ==> r[k].radius == bodies[k].radius && r[k].mass == bodies[k].mass
      invariant forall k :: i <= k < |bodies| ==> r[k] == bodies[k]
      invariant forall k :: 0 <= k < i ==> r[k].path == Trail(bodies[k].path, r[k].position)
    {
      r := UpdateBody(r, i, dt, gravityImpulse, mouseImpulse);
    }
  }

  /** The parameters the selector list names. */
  datatype Param = MouseForceRadius | MouseForce

  /** `selectors` as the page declares it. */
  const OrbitSelectors: seq<Param> := [MouseForceRadius, MouseForce]

  datatype OrbitParams = OrbitParams(mouseForce: real, mouseForceRadius: real)

  /** The module-level initial values. */
  const InitialParams := OrbitParams(10.0, 10.0)

  function Value(p: OrbitParams, q: Param): real
  {
    match q
    case MouseForceRadius => p.mouseForceRadius
    case MouseForce => p.mouseForce
  }

  /** The step, lower bound and upper bound of each wheel case. */
  function Step(q: Param): real
  {
    match q
    case MouseForceRadius => 10.0
    case MouseForce => 1.0
  }

  function Low(q: Param): real
  {
    match q
    case MouseForceRadius => 10.0
    case MouseForce => 10.0
  }

  function High(q: Param): real
  {
    match q
    case MouseForceRadius => 1000.0
    case MouseForce => 50.0
  }

  predicate InRange(p: OrbitParams)
  {
    forall q: Param :: Low(q) <= Value(p, q) <= High(q)
  }

  lemma InitialInRange()
    ensures InRange(InitialParams)
  {
    forall q: Param ensures Low(q) <= Value(InitialParams, q) <= High(q) {
    }
  }

  /** The wheel handler's switch: one clamped step of the selected parameter. */
  function Adjust(p: OrbitParams, selected: Param, direction: int): (r: OrbitParams)
    requires InRange(p)
    ensures InRange(r)
    ensures Value(r, selected) == WheelStep(Value(p, selected), direction, Step(selected), Low(selected), High(selected))
    ensures forall q: Param :: q != selected ==> Value(r, q) == Value(p, q)
  {
    var v := WheelStep(Value(p, selected), direction, Step(selected), Low(selected), High(selected));
    match selected
    case MouseForce => p.(mouseForce := v)
    case MouseForceRadius => p.(mouseForceRadius := v)
  }

  /** The page's state: the body list, the selector list, the parameters and
      the two mouse flags. The frame loop is `SimulationLoop.FrameLoop`. */
  class OrbitSimulation {
    var bodies: seq<OrbitBody>
    var selectors: seq<Param>
    var params: OrbitParams
    var mouse1Down: bool
    var mouse2Down: bool

    ghost predicate Valid()
      reads this
    {
      |selectors| == |OrbitSelectors| && multiset(selectors) == multiset(OrbitSelectors) &&
      InRange(params) && TrailsBounded(bodies)
    }

    /** The initial state: a heavy body and a light one in orbit around it. */
    constructor ()
      ensures Valid()
      ensures bodies == [CreateBody(Vec(100.0, 100.0), Vec(0.5, 0.25), 10.0, 100000.0),
                         CreateBody(Vec(100.0, 350.0), Vec(2.5, 0.25), 5.0, 100.0)]
      ensures selectors == OrbitSelectors && params == InitialParams && !mouse1Down && !mouse2Down
    {
      bodies := [CreateBody(Vec(100.0, 100.0), Vec(0.5, 0.25), 10.0, 100000.0),
                 CreateBody(Vec(100.0, 350.0), Vec(2.5, 0.25), 5.0, 100.0)];
      selectors := OrbitSelectors;
      params := InitialParams;
      mouse1Down, mouse2Down := false, false;
      InitialInRange();
    }

    /** `simulationStep` on the body list. */
    method SimulationStep(dt: real, gravityImpulse: (seq<OrbitBody>, nat) -> Vec, mouseImpulse: OrbitBody -> Vec)
      requires Valid()
      modifies this
      ensures Valid()
      ensures selectors == old(selectors) && params == old(params)
      ensures mouse1Down == old(mouse1Down) && mouse2Down == old(mouse2Down)
      ensures |bodies| == |old(bodies)|
      ensures forall k :: 0 <= k < |bodies| ==>
        bodies[k].radius == old(bodies)[k].radius && bodies[k].mass == old(bodies)[k].mass &&
        bodies[k].path == Trail(old(bodies)[k].path, bodies[k].position)
    {
      bodies := StepBodies(bodies, dt, gravityImpulse, mouseImpulse);
    }

    method Wheel(wheelDeltaY: real, ctrlKey: bool)
      requires Valid()
      modifies this
      ensures Valid()
      ensures bodies == old(bodies) && selectors == old(selectors)
      ensures mouse1Down == old(mouse1Down) && mouse2Down == old(mouse2Down)
      ensures params == Adjust(old(params), old(selectors[0]), WheelDirection(wheelDeltaY, ctrlKey))
    {
      params := Adjust(params, selectors[0], WheelDirection(wheelDeltaY, ctrlKey));
    }

    method ArrowDown()
      requires Valid()
      modifies this
      ensures Valid()
      ensures selectors == RotateDown(old(selectors))
      ensures bodies == old(bodies) && params == old(params)
      ensures mouse1Down == old(mouse1Down) && mouse2Down == old(mouse2Down)
    {
      selectors := RotateDown(selectors);
    }

    method ArrowUp()
      requires Valid()
      modifies this
      ensures Valid()
      ensures selectors == RotateUp(old(selectors))
      ensures bodies == old(bodies) && params == old(params)
      ensures mouse1Down == old(mouse1Down) && mouse2Down == old(mouse2Down)
    {
      selectors := RotateUp(selectors);
    }

    /** `mousedown`: buttons 0 and 2 raise the attract / repel flags; the
        middle button appends a body at rest at the pointer, flipped to the
        page's y-up frame, with radius 5 and mass 100. */
    method MouseDown(button: int, clientX: real, clientY: real, canvasHeight: real)
      requires Valid()
      modifies this
      ensures Valid()
      ensures selectors == old(selectors) && params == old(params)
      ensures mouse1Down == (button == 0 || old(mouse1Down))
      ensures mouse2Down == (button == 2 || old(mouse2Down))
      ensures bodies == if button == 1
        then old(bodies) + [CreateBody(Vec(clientX, canvasHeight - clientY), Zero(), 5.0, 100.0)]
        else old(bodies)
    {
      if button == 0 {
        mouse1Down := true;
      } else if button == 2 {
        mouse2Down := true;
      } else if button == 1 {
        bodies := bodies + [CreateBody(Vec(clientX, canvasHeight - clientY), Vec(0.0, 0.0), 5.0, 100.0)];
      }
    }

    method MouseUp(button: int)
      requires Valid()
      modifies this
      ensures Valid()
      ensures mouse1Down == (button != 0 && old(mouse1Down))
      ensures mouse2Down == (button != 2 && old(mouse2Down))
      ensures bodies == old(bodies) && selectors == old(selectors) && params == old(params)
    {
      if button == 0 {
        mouse1Down := false;
      } else if button == 2 {
        mouse2Down := false;
      }
    }
  }
}

=== FILE: rigid_body.dfy ===
/** The rigid-body page: body records, the wall clamp, the per-body step
    (gravity, walls, pairwise collision correction, mouse force, position
    and orientation update, all skipped for anchored bodies) and the
    page's tunable parameters with their keyboard, mouse and wheel
    handlers. Corner positions (which need `vectors.rotate`), edge normals
    (which need `vectors.unit`) and the mouse force's velocity change
    (which divides by a distance) are taken as functions of the body. */
module RigidBody {
  import opened Vectors
  import opened Controls
  import opened RigidCollision

  /** `g`. */
  const G: real := -9.81

  datatype Body = Body(
    position: Vec,
    orientation: real,
    velocity: Vec,
    angularVelocity: real,
    mass: real,
    friction: real,
    anchored: bool,
    shape: seq<Vec>)

  /** `createBody`: every body starts moving right at speed 5, without spin. */
  function CreateBody(position: Vec, orientation: real, mass: real, friction: real, anchored: bool, shape: seq<Vec>): (b: Body)
    ensures b.velocity == Vec(5.0, 0.0) && b.angularVelocity == 0.0
    ensures b.position == position && b.orientation == orientation && b.anchored == anchored && b.shape == shape
    ensures b.mass == mass && b.friction == friction
  {
    Body(position, orientation, Vec(5.0, 0.0), 0.0, mass, friction, anchored, shape)
  }

  /** The wall checks of `bodyUpdateCollisions`: four checks in sequence,
      each putting one coordinate on the wall it crossed and reversing that
      velocity component, without damping. */
  method WallClamp(b: Body, width: real, height: real) returns (q: Body)
    ensures q == WallClamped(b, width, height)
    ensures q == b.(position := q.position, velocity := q.velocity)
    ensures 0.0 <= b.position.x <= width && 0.0 <= b.position.y <= height ==> q == b
    ensures width >= 0.0 ==> 0.0 <= q.position.x <= width
    ensures height >= 0.0 ==> 0.0 <= q.position.y <= height
    ensures width >= 0.0 ==>
      q.position.x == (if b.position.x < 0.0 then 0.0 else if b.position.x > width then width else b.position.x)
    ensures height >= 0.0 ==>
      q.position.y == (if b.position.y < 0.0 then 0.0 else if b.position.y > height then height else b.position.y)
    ensures width >= 0.0 ==>
      q.velocity.x == (if 0.0 <= b.position.x <= width then b.velocity.x else -b.velocity.x)
    ensures height >= 0.0 ==>
      q.velocity.y == (if 0.0 <= b.position.y <= height then b.velocity.y else -b.velocity.y)
  {
    var x, y := b.position.x, b.position.y;
    var vx, vy := b.velocity.x, b.velocity.y;
    if x < 0.0 {
      x := 0.0;
      vx := vx * -1.0;
    }
    if x > width {
      x := width;
      vx := vx * -1.0;
    }
    if y < 0.0 {
      y := 0.0;
      vy := vy * -1.0;
    }
    if y > height {
      y := height;
      vy := vy * -1.0;
    }
    q := b.(position := Vec(x, y), velocity := Vec(vx, vy));
  }

  /** The four wall checks as one value: each check sees the coordinate
      and velocity component the previous one left. */
  function WallClamped(b: Body, width: real, height: real): Body
  {
    var x1, vx1 := if b.position.x < 0.0 then 0.0 else b.position.x, if b.position.x < 0.0 then -b.velocity.x else b.velocity.x;
    var x2, vx2 := if x1 > width then width else x1, if x1 > width then -vx1 else vx1;
    var y1, vy1 := if b.position.y < 0.0 then 0.0 else b.position.y, if b.position.y < 0.0 then -b.velocity.y else b.velocity.y;
    var y2, vy2 := if y1 > height then height else y1, if y1 > height then -vy1 else vy1;
    b.(position := Vec(x2, y2), velocity := Vec(vx2, vy2))
  }

  /** `orientation % 360`: JavaScript's remainder keeps the sign of the
      dividend (it truncates the quotient toward zero). */
  function Rem360(x: real): (r: real)
    ensures -360.0 < r < 360.0
    ensures x >= 0.0 ==> r >= 0.0
    ensures x <= 0.0 ==> r <= 0.0
    ensures -360.0 < x < 360.0 ==> r == x
  {
    if x >= 0.0 then x - (x / 360.0).Floor as real * 360.0
    else -((-x) - ((-x) / 360.0).Floor as real * 360.0)
  }

  /** The remainder differs from its argument by whole turns. */
  lemma Rem360WholeTurns(x: real)
    ensures var turns := (x - Rem360(x)) / 360.0; turns == turns.Floor as real
  {
    if x >= 0.0 {
      var n := (x / 360.0).Floor;
      assert x - Rem360(x) == n as real * 360.0;
      WholeTurns(n);
    } else {
      var n := ((-x) / 360.0).Floor;
      assert x - Rem360(x) == (-n) as real * 360.0;
      WholeTurns(-n);
    }
  }

  lemma WholeTurns(n: int)
    ensures (n as real * 360.0) / 360.0 == n as real
    ensures (n as real).Floor == n
  {
  }

  /** The bodies other than `i` are the same records but for their position. */
  predicate OnlyMoved(before: seq<Body>, after: seq<Body>, i: nat)
  {
    |after| == |before| &&
    forall k :: 0 <= k < |before| && k != i ==> after[k] == before[k].(position := after[k].position)
  }

  /** What no step changes: the count and each body's mass, friction,
      anchoring and shape. */
  predicate SameBodies(before: seq<Body>, after: seq<Body>)
  {
    |after| == |before| &&
    forall k :: 0 <= k < |before| ==>
      after[k].mass == before[k].mass && after[k].friction == before[k].friction &&
      after[k].anchored == before[k].anchored && after[k].shape == before[k].shape
  }

  /** The sum of the bodies' positions. */
  function PositionSum(bodies: seq<Body>): Vec
  {
    if |bodies| == 0 then Zero()
    else Add(PositionSum(bodies[..|bodies| - 1]), bodies[|bodies| - 1].position)
  }

  /** Replacing one body changes the sum by the change in its position. */
  lemma {:induction false} PositionSumUpdate(bodies: seq<Body>, i: nat, b: Body)
    requires i < |bodies|
    ensures PositionSum(bodies[i := b]) ==
      Add(Subtract(PositionSum(bodies), bodies[i].position), b.position)
    decreases |bodies|
  {
    var last := |bodies| - 1;
    var updated := bodies[i := b];
    if i == last {
      assert updated[..last] == bodies[..last];
    } else {
      assert updated[..last] == bodies[..last][i := b];
      PositionSumUpdate(bodies[..last], i, b);
    }
  }

  /** Moving two bodies by opposite amounts keeps the sum. */
  lemma PairKeepsSum(bodies: seq<Body>, i: nat, j: nat, a: Vec, b: Vec)
    requires i < |bodies| && j < |bodies| && i != j
    requires Add(a, b) == Add(bodies[i].position, bodies[j].position)
    ensures PositionSum(bodies[i := bodies[i].(position := a)][j := bodies[j].(position := b)]) == PositionSum(bodies)
  {
    var first := bodies[i := bodies[i].(position := a)];
    PositionSumUpdate(bodies, i, bodies[i].(position := a));
    PositionSumUpdate(first, j, bodies[j].(position := b));
  }

  /** What one turn of the collision pass does to the pair `(a, b)`:
      nothing, a push to the two given positions, or a throw. */
  datatype Contact = Apart | Push(positionA: Vec, positionB: Vec) | Throw

  /** The turn of `bodyUpdateCollisions` for the pair `(a, b)`: nothing
      when their corner lists do not collide; otherwise the push apart
      along the axis of least overlap, or the throw when there is no axis
      (`minAxis` stays null and `vectors.multiply` reads its fields). The
      push is the oriented one, which moves `a` away from `b`; the code as
      written can push them together (`AsWrittenPushCollapses`). */
  function ContactOf(a: Body, b: Body, corners: Body -> seq<Vec>, axesOf: seq<Vec> -> seq<Vec>): (c: Contact)
    ensures c.Apart? <==> !Colliding(corners(a), corners(b), axesOf(corners(a)) + axesOf(corners(b)))
    ensures c.Push? ==> Add(c.positionA, c.positionB) == Add(a.position, b.position)
  {
    var pointsA, pointsB := corners(a), corners(b);
    var axes := axesOf(pointsA) + axesOf(pointsB);
    if !Colliding(pointsA, pointsB, axes) then Apart
    else
      var choice := MinChoice(pointsA, pointsB, axes, |axes|);
      if choice.NoAxis? then Throw
      else
        var moved := OrientedPushApart(a.position, b.position, choice.axis, choice.overlap);
        Push(moved.0, moved.1)
  }

  /** Turn `j` of the collision pass for body `i`, on the list as the
      earlier turns left it, under the pair rule `contact`; body `i` skips
      itself. */
  function PairStep(bodies: seq<Body>, i: nat, j: nat, contact: (Body, Body) -> Contact): (p: (seq<Body>, bool))
    requires i < |bodies| && j < |bodies|
    ensures |p.0| == |bodies|
  {
    if j == i then (bodies, false)
    else
      match contact(bodies[i], bodies[j])
      case Apart => (bodies, false)
      case Throw => (bodies, true)
      case Push(a, b) => (bodies[i := bodies[i].(position := a)][j := bodies[j].(position := b)], false)
  }

  /** The first `n` turns of the collision pass for body `i`; a throw ends
      the pass with the list as it was. */
  function CollidePass(bodies: seq<Body>, i: nat, n: nat, contact: (Body, Body) -> Contact): (p: (seq<Body>, bool))
    requires i < |bodies| && n <= |bodies|
    ensures |p.0| == |bodies|
  {
    if n == 0 then (bodies, false)
    else
      var before := CollidePass(bodies, i, n - 1, contact);
      if before.1 then before else PairStep(before.0, i, n - 1, contact)
  }

  /** A turn changes at most the two bodies of the pair, and those only in
      their positions. */
  lemma PairStepFrame(bodies: seq<Body>, i: nat, j: nat, contact: (Body, Body) -> Contact)
    requires i < |bodies| && j < |bodies|
    ensures var r := PairStep(bodies, i, j, contact).0;
      (forall k :: 0 <= k < |bodies| && k != i && k != j ==> r[k] == bodies[k]) &&
      OnlyMoved(bodies, r, i) && r[i] == bodies[i].(position := r[i].position)
  {
  }

  /** Once thrown, later turns change nothing. */
  lemma {:induction false} ThrownStays(bodies: seq<Body>, i: nat, n: nat, m: nat, contact: (Body, Body) -> Contact)
    requires i < |bodies| && n <= m <= |bodies|
    requires CollidePass(bodies, i, n, contact).1
    ensures CollidePass(bodies, i, m, contact) == CollidePass(bodies, i, n, contact)
    decreases m
  {
    if m > n {
      ThrownStays(bodies, i, n, m - 1, contact);
    }
  }

  /** Each other body is pushed at most once, on its own turn: body `k`
      is as it came in before turn `k`, and turns after it leave it alone. */
  lemma {:induction false} PushedOnOwnTurn(bodies: seq<Body>, i: nat, k: nat, n: nat, contact: (Body, Body) -> Contact)
    requires i < |bodies| && k < |bodies| && k != i && n <= |bodies|
    ensures n <= k ==> CollidePass(bodies, i, n, contact).0[k] == bodies[k]
    ensures k < n ==> CollidePass(bodies, i, n, contact).0[k] == CollidePass(bodies, i, k + 1, contact).0[k]
    decreases n
  {
    if n > 0 {
      PushedOnOwnTurn(bodies, i, k, n - 1, contact);
      var before := CollidePass(bodies, i, n - 1, contact);
      if !before.1 {
        PairStepFrame(before.0, i, n - 1, contact);
      }
    }
  }

  /** Which bodies a pass moves: another body `k` that comes out changed was
      met on its own turn, with no throw before, by a push of the pair rule,
      and its only change is the position that push gave it. */
  lemma MovedOnlyByPush(bodies: seq<Body>, i: nat, k: nat, contact: (Body, Body) -> Contact)
    requires i < |bodies| && k < |bodies| && k != i
    ensures var before := CollidePass(bodies, i, k, contact);
      var after := CollidePass(bodies, i, |bodies|, contact).0;
      after[k] != bodies[k] ==>
        !before.1 && contact(before.0[i], bodies[k]).Push? &&
        after[k] == bodies[k].(position := contact(before.0[i], bodies[k]).positionB)
  {
    PushedOnOwnTurn(bodies, i, k, |bodies|, contact);
    PushedOnOwnTurn(bodies, i, k, k, contact);
  }

  /** The oriented pair rule of `bodyUpdateCollisions` for the given
      corner and axis functions. */
  function Contacts(corners: Body -> seq<Vec>, axesOf: seq<Vec> -> seq<Vec>): (Body, Body) -> Contact
  {
    (a, b) => ContactOf(a, b, corners, axesOf)
  }

  /** `contact` answers as the oriented pair rule of `bodyUpdateCollisions`
      (`ContactOf`) does. */
  ghost predicate Agrees(contact: (Body, Body) -> Contact, corners: Body -> seq<Vec>, axesOf: seq<Vec> -> seq<Vec>)
  {
    forall a, b {:trigger ContactOf(a, b, corners, axesOf)} :: contact(a, b) == ContactOf(a, b, corners, axesOf)
  }

  /** Every push of the pair rule `contact` keeps the sum of the pair's
      positions. */
  ghost predicate KeepsPairSum(contact: (Body, Body) -> Contact)
  {
    forall a, b :: contact(a, b).Push? ==> Add(contact(a, b).positionA, contact(a, b).positionB) == Add(a.position, b.position)
  }

  lemma ContactsAgree(corners: Body -> seq<Vec>, axesOf: seq<Vec> -> seq<Vec>)
    ensures Agrees(Contacts(corners, axesOf), corners, axesOf)
  {
  }

  /** The pushes of `bodyUpdateCollisions` move the pair by opposite
      amounts. */
  lemma AgreeingKeepsPairSum(contact: (Body, Body) -> Contact, corners: Body -> seq<Vec>, axesOf: seq<Vec> -> seq<Vec>)
    requires Agrees(contact, corners, axesOf)
    ensures KeepsPairSum(contact)
  {
    forall a, b
      ensures contact(a, b).Push? ==> Add(contact(a, b).positionA, contact(a, b).positionB) == Add(a.position, b.position)
    {
      assert contact(a, b) == ContactOf(a, b, corners, axesOf);
    }
  }

  /** A turn under a sum-keeping pair rule keeps the sum of the positions. */
  lemma PairStepKeepsSum(bodies: seq<Body>, i: nat, j: nat, contact: (Body, Body) -> Contact)
    requires i < |bodies| && j < |bodies| && KeepsPairSum(contact)
    ensures PositionSum(PairStep(bodies, i, j, contact).0) == PositionSum(bodies)
  {
    if j != i {
      var c := contact(bodies[i], bodies[j]);
      if c.Push? {
        PairKeepsSum(bodies, i, j, c.positionA, c.positionB);
      }
    }
  }

  /** A whole pass, thrown or not, moves only positions and leaves the
      other fields of body `i` alone. */
  lemma {:induction false} CollidePassMovesOnly(bodies: seq<Body>, i: nat, n: nat, contact: (Body, Body) -> Contact)
    requires i < |bodies| && n <= |bodies|
    ensures var r := CollidePass(bodies, i, n, contact).0;
      OnlyMoved(bodies, r, i) && r[i] == bodies[i].(position := r[i].position)
    decreases n
  {
    if n > 0 {
      CollidePassMovesOnly(bodies, i, n - 1, contact);
      var before := CollidePass(bodies, i, n - 1, contact);
      if !before.1 {
        PairStepFrame(before.0, i, n - 1, contact);
        OnlyMovedTwice(bodies, before.0, PairStep(before.0, i, n - 1, contact).0, i);
      }
    }
  }

  lemma OnlyMovedTwice(a: seq<Body>, b: seq<Body>, c: seq<Body>, i: nat)
    requires OnlyMoved(a, b, i) && OnlyMoved(b, c, i)
    ensures OnlyMoved(a, c, i)
  {
  }

  /** Under a sum-keeping pair rule a whole pass, thrown or not, keeps the
      sum of the positions. */
  lemma {:induction false} CollidePassKeepsSum(bodies: seq<Body>, i: nat, n: nat, contact: (Body, Body) -> Contact)
    requires i < |bodies| && n <= |bodies| && KeepsPairSum(contact)
    ensures PositionSum(CollidePass(bodies, i, n, contact).0) == PositionSum(bodies)
    decreases n
  {
    if n > 0 {
      var before := CollidePass(bodies, i, n - 1, contact);
      CollidePassKeepsSum(bodies, i, n - 1, contact);
      if !before.1 {
        PairStepKeepsSum(before.0, i, n - 1, contact);
        assert CollidePass(bodies, i, n, contact) == PairStep(before.0, i, n - 1, contact);
      } else {
        assert CollidePass(bodies, i, n, contact) == before;
      }
    }
  }

  /** The `forEach` callback of `bodyUpdateCollisions` for `otherBody`
      at index `j`: skip the body itself, test the pair, choose the axis
      of least overlap and push the pair apart along it (oriented, see
      `ContactOf`). `contact` names the pair rule this computes. */
  method CollideWith(bodies: seq<Body>, i: nat, j: nat, corners: Body -> seq<Vec>, axesOf: seq<Vec> -> seq<Vec>,
                     ghost contact: (Body, Body) -> Contact)
    returns (r: seq<Body>, thrown: bool)
    requires i < |bodies| && j < |bodies| && Agrees(contact, corners, axesOf)
    ensures (r, thrown) == PairStep(bodies, i, j, contact)
  {
    r, thrown := bodies, false;
    if j != i {
      var pointsA, pointsB := corners(r[i]), corners(r[j]);
      var axesA, axesB := axesOf(pointsA), axesOf(pointsB);
      var colliding := BodiesColliding(pointsA, pointsB, axesA, axesB);
      if colliding {
        var choice := SelectMinOverlap(pointsA, pointsB, axesA + axesB);
        if choice.NoAxis? {
          thrown := true;
        } else {
          var moved := OrientedPushApart(r[i].position, r[j].position, choice.axis, choice.overlap);
          r := r[i := r[i].(position := moved.0)][j := r[j].(position := moved.1)];
        }
      }
      assert contact(bodies[i], bodies[j]) == ContactOf(bodies[i], bodies[j], corners, axesOf);
    }
  }

  /** One pass of `bodyUpdateCollisions`'s `forEach` for body `i`: every
      other body (the `body == otherBody` check skips only itself) that
      collides with it is pushed apart from it, in list order. A collision
      with no axis to choose throws: the pass stops there with `thrown`. */
  method Collide(bodies: seq<Body>, i: nat, corners: Body -> seq<Vec>, axesOf: seq<Vec> -> seq<Vec>,
                 ghost contact: (Body, Body) -> Contact)
    returns (r: seq<Body>, thrown: bool)
    requires i < |bodies| && Agrees(contact, corners, axesOf)
    ensures (r, thrown) == CollidePass(bodies, i, |bodies|, contact)
    ensures OnlyMoved(bodies, r, i)
    ensures r[i] == bodies[i].(position := r[i].position)
    ensures PositionSum(r) == PositionSum(bodies)
  {
    r, thrown := bodies, false;
    var j := 0;
    while j < |bodies| && !thrown
      invariant j <= |bodies|
      invariant (r, thrown) == CollidePass(bodies, i, j, contact)
    {
      r, thrown := CollideWith(r, i, j, corners, axesOf, contact);
      j := j + 1;
    }
    if thrown {
      ThrownStays(bodies, i, j, |bodies|, contact);
    }
    CollidePassMovesOnly(bodies, i, |bodies|, contact);
    AgreeingKeepsPairSum(contact, corners, axesOf);
    CollidePassKeepsSum(bodies, i, |bodies|, contact);
  }

  /** The gravity line of `simulationStep`. */
  function Fallen(b: Body, dt: real, gravityMultiplier: real): Body
  {
    b.(velocity := Vec(b.velocity.x, b.velocity.y + G * gravityMultiplier * dt))
  }

  /** The lines after the collision pass: the mouse force (given as
      `mouseImpulse`), the position update and the orientation update. */
  function Advanced(b: Body, dt: real, mouseImpulse: Body -> Vec): Body
  {
    var v := Add(b.velocity, mouseImpulse(b));
    b.(velocity := v, position := Add(b.position, Multiply(v, dt * 100.0)),
       orientation := Rem360(Turn(b.orientation, b.angularVelocity, dt)))
  }

  /** The orientation before the remainder: the old one plus a step of spin. */
  function Turn(orientation: real, angularVelocity: real, dt: real): real
  {
    orientation + angularVelocity * dt
  }

  /** The lines after the collision pass, updating the body field by field. */
  method Advance(b: Body, dt: real, mouseImpulse: Body -> Vec) returns (q: Body)
    ensures q == Advanced(b, dt, mouseImpulse)
  {
    q := b.(velocity := Add(b.velocity, mouseImpulse(b)));
    q := q.(position := Add(q.position, Multiply(q.velocity, dt * 100.0)));
    q := q.(orientation := Turn(q.orientation, q.angularVelocity, dt));
    q := q.(orientation := Rem360(q.orientation));
  }

  /** A body that is not anchored and whose pass does not throw turns by
      its own spin: gravity, the walls and the pass leave its orientation
      and spin alone. */
  lemma StepTurns(bodies: seq<Body>, i: nat, dt: real, gravityMultiplier: real, width: real, height: real,
                  mouseImpulse: Body -> Vec, contact: (Body, Body) -> Contact)
    requires i < |bodies|
    ensures var p := BodyStep(bodies, i, dt, gravityMultiplier, width, height, mouseImpulse, contact);
      !bodies[i].anchored && !p.1 ==> p.0[i].orientation == Rem360(Turn(bodies[i].orientation, bodies[i].angularVelocity, dt))
  {
    if !bodies[i].anchored {
      var prepared := bodies[i := WallClamped(Fallen(bodies[i], dt, gravityMultiplier), width, height)];
      CollidePassMovesOnly(prepared, i, |bodies|, contact);
      var passed := CollidePass(prepared, i, |bodies|, contact).0;
      assert passed[i].orientation == bodies[i].orientation && passed[i].angularVelocity == bodies[i].angularVelocity;
    }
  }

  /** The `forEach` body of `simulationStep` for body `i` as a value: an
      anchored body is skipped; otherwise gravity and the walls update body
      `i`, the collision pass under `contact` runs on the list so updated,
      and unless it throws, body `i` is advanced. */
  function BodyStep(bodies: seq<Body>, i: nat, dt: real, gravityMultiplier: real, width: real, height: real,
                    mouseImpulse: Body -> Vec, contact: (Body, Body) -> Contact): (p: (seq<Body>, bool))
    requires i < |bodies|
    ensures |p.0| == |bodies|
  {
    if bodies[i].anchored then (bodies, false)
    else
      var pass := CollidePass(bodies[i := WallClamped(Fallen(bodies[i], dt, gravityMultiplier), width, height)], i, |bodies|, contact);
      if pass.1 then pass else (pass.0[i := Advanced(pass.0[i], dt, mouseImpulse)], false)
  }

  /** The first `n` turns of the body loop of `simulationStep`; a throw
      ends the frame with the list as it was then. */
  function StepFrom(bodies: seq<Body>, n: nat, dt: real, gravityMultiplier: real, width: real, height: real,
                    mouseImpulse: Body -> Vec, contact: (Body, Body) -> Contact): (p: (seq<Body>, bool))
    requires n <= |bodies|
    ensures |p.0| == |bodies|
    decreases n
  {
    if n == 0 then (bodies, false)
    else
      var before := StepFrom(bodies, n - 1, dt, gravityMultiplier, width, height, mouseImpulse, contact);
      if before.1 then before
      else BodyStep(before.0, n - 1, dt, gravityMultiplier, width, height, mouseImpulse, contact)
  }

  /** Once a turn throws, the rest of the frame changes nothing. */
  lemma {:induction false} StepThrownStays(bodies: seq<Body>, n: nat, m: nat, dt: real, gravityMultiplier: real,
                                           width: real, height: real, mouseImpulse: Body -> Vec, contact: (Body, Body) -> Contact)
    requires n <= m <= |bodies|
    requires StepFrom(bodies, n, dt, gravityMultiplier, width, height, mouseImpulse, contact).1
    ensures StepFrom(bodies, m, dt, gravityMultiplier, width, height, mouseImpulse, contact) ==
            StepFrom(bodies, n, dt, gravityMultiplier, width, height, mouseImpulse, contact)
    decreases m
  {
    if m > n {
      StepThrownStays(bodies, n, m - 1, dt, gravityMultiplier, width, height, mouseImpulse, contact);
    }
  }

  /** The `forEach` body of `simulationStep` for body `i`. An anchored body
      returns at once; otherwise gravity, the walls, the collision pass, the
      mouse force (given as `mouseImpulse`), the position update and the
      orientation update follow in that order. Only body `i`'s velocity and
      orientation change; other bodies can only be pushed, and end as the
      collision pass leaves them. */
  method UpdateBody(bodies: seq<Body>, i: nat, dt: real, gravityMultiplier: real, width: real, height: real,
                    corners: Body -> seq<Vec>, axesOf: seq<Vec> -> seq<Vec>, mouseImpulse: Body -> Vec,
                    ghost contact: (Body, Body) -> Contact)
    returns (r: seq<Body>, thrown: bool)
    requires i < |bodies| && Agrees(contact, corners, axesOf)
    ensures (r, thrown) == BodyStep(bodies, i, dt, gravityMultiplier, width, height, mouseImpulse, contact)
    ensures SameBodies(bodies, r)
    ensures OnlyMoved(bodies, r, i)
    ensures bodies[i].anchored ==> r == bodies && !thrown
    ensures !bodies[i].anchored ==> forall k :: 0 <= k < |bodies| && k != i ==>
      r[k] == CollidePass(bodies[i := WallClamped(Fallen(bodies[i], dt, gravityMultiplier), width, height)], i, |bodies|, contact).0[k]
    ensures !thrown && !bodies[i].anchored ==> r[i].orientation == Rem360(Turn(bodies[i].orientation, bodies[i].angularVelocity, dt))
  {
    StepTurns(bodies, i, dt, gravityMultiplier, width, height, mouseImpulse, contact);
    if bodies[i].anchored {
      return bodies, false;
    }
    var b := bodies[i];
    b := b.(velocity := Vec(b.velocity.x, b.velocity.y + G * gravityMultiplier * dt));
    assert b == Fallen(bodies[i], dt, gravityMultiplier);
    b := WallClamp(b, width, height);
    r := bodies[i := b];
    r, thrown := Collide(r, i, corners, axesOf, contact);
    if thrown {
      return;
    }
    b := Advance(r[i], dt, mouseImpulse);
    r := r[i := b];
  }

  /** The body loop of `simulationStep`, in list order; a throw ends the
      frame with the updates made so far. Anchored bodies receive no
      update of their own: at most another body's pass pushes them. */
  method StepBodies(bodies: seq<Body>, dt: real, gravityMultiplier: real, width: real, height: real,
                    corners: Body -> seq<Vec>, axesOf: seq<Vec> -> seq<Vec>, mouseImpulse: Body -> Vec,
                    ghost contact: (Body, Body) -> Contact)
    returns (r: seq<Body>, thrown: bool)
    requires Agrees(contact, corners, axesOf)
    ensures (r, thrown) == StepFrom(bodies, |bodies|, dt, gravityMultiplier, width, height, mouseImpulse, contact)
    ensures SameBodies(bodies, r)
    ensures forall k :: 0 <= k < |bodies| && bodies[k].anchored ==>
      r[k] == bodies[k].(position := r[k].position)
    ensures (forall k :: 0 <= k < |bodies| ==> bodies[k].anchored) ==> r == bodies && !thrown
    ensures !thrown ==> forall k :: 0 <= k < |bodies| && !bodies[k].anchored ==> -360.0 < r[k].orientation < 360.0
  {
    r, thrown := bodies, false;
    for i := 0 to |bodies|
      invariant (r, false) == StepFrom(bodies, i, dt, gravityMultiplier, width, height, mouseImpulse, contact)
      invariant SameBodies(bodies, r)
      invariant forall k :: 0 <= k < |bodies| && bodies[k].anchored ==>
        r[k] == bodies[k].(position := r[k].position)
      invariant (forall k :: 0 <= k < |bodies| ==> bodies[k].anchored) ==> r == bodies
      invariant forall k :: 0 <= k < i && !bodies[k].anchored ==> -360.0 < r[k].orientation < 360.0
    {
      var next, stop := UpdateBody(r, i, dt, gravityMultiplier, width, height, corners, axesOf, mouseImpulse, contact);
      r := next;
      if stop {
        thrown := true;
        StepThrownStays(bodies, i + 1, |bodies|, dt, gravityMultiplier, width, height, mouseImpulse, contact);
        return;
      }
    }
  }

  /** The parameters the selector list names. */
  datatype Param = MouseForceRadius | GravityMultiplier | MouseForce

  /** `selectors` as the page declares it. */
  const RigidSelectors: seq<Param> := [MouseForceRadius, GravityMultiplier, MouseForce]

  datatype RigidParams = RigidParams(mouseForce: real, mouseForceRadius: real, gravityMultiplier: real)

  /** The module-level initial values. */
  const InitialParams := RigidParams(20.0, 10.0, 1.0)

  function Value(p: RigidParams, q: Param): real
  {
    match q
    case MouseForceRadius => p.mouseForceRadius
    case GravityMultiplier => p.gravityMultiplier
    case MouseForce => p.mouseForce
  }

  /** The step, lower bound and upper bound of each wheel case. */
  function Step(q: Param): real
  {
    match q
    case MouseForceRadius => 10.0
    case GravityMultiplier => 0.1
    case MouseForce => 1.0
  }

  function Low(q: Param): real
  {
    match q
    case MouseForceRadius => 10.0
    case GravityMultiplier => -2.0
    case MouseForce => 10.0
  }

  function High(q: Param): real
  {
    match q
    case MouseForceRadius => 1000.0
    case GravityMultiplier => 2.0
    case MouseForce => 50.0
  }

  predicate InRange(p: RigidParams)
  {
    forall q: Param :: Low(q) <= Value(p, q) <= High(q)
  }

  lemma InitialInRange()
    ensures InRange(InitialParams)
  {
    forall q: Param ensures Low(q) <= Value(InitialParams, q) <= High(q) {
    }
  }

  /** The wheel handler's switch: one clamped step of the selected parameter. */
  function Adjust(p: RigidParams, selected: Param, direction: int): (r: RigidParams)
    requires InRange(p)
    ensures InRange(r)
    ensures Value(r, selected) == WheelStep(Value(p, selected), direction, Step(selected), Low(selected), High(selected))
    ensures forall q: Param :: q != selected ==> Value(r, q) == Value(p, q)
  {
    var v := WheelStep(Value(p, selected), direction, Step(selected), Low(selected), High(selected));
    match selected
    case GravityMultiplier => p.(gravityMultiplier := v)
    case MouseForce => p.(mouseForce := v)
    case MouseForceRadius => p.(mouseForceRadius := v)
  }

  /** The page's state: the body list, the selector list, the parameters and
      the two mouse flags. The frame loop is `SimulationLoop.FrameLoop`. */
  class RigidSimulation {
    var bodies: seq<Body>
    var selectors: seq<Param>
    var params: RigidParams
    var mouse1Down: bool
    var mouse2Down: bool

    ghost predicate Valid()
      reads this
    {
      |selectors| == |RigidSelectors| && multiset(selectors) == multiset(RigidSelectors) &&
      InRange(params)
    }

    /** The initial state: one circle at (100, 100) with mass 10 and
        friction 0.1 (`shapes.circle` is given). */
    constructor (circle: seq<Vec>)
      ensures Valid()
      ensures bodies == [CreateBody(Vec(100.0, 100.0), 0.0, 10.0, 0.1, false, circle)]
      ensures selectors == RigidSelectors && params == InitialParams && !mouse1Down && !mouse2Down
    {
      bodies := [CreateBody(Vec(100.0, 100.0), 0.0, 10.0, 0.1, false, circle)];
      selectors := RigidSelectors;
      params := InitialParams;
      mouse1Down, mouse2Down := false, false;
      InitialInRange();
    }

    /** `simulationStep` on the body list. */
    method SimulationStep(dt: real, width: real, height: real,
                          corners: Body -> seq<Vec>, axesOf: seq<Vec> -> seq<Vec>, mouseImpulse: Body -> Vec)
      returns (thrown: bool)
      requires Valid()
      modifies this
      ensures Valid()
      ensures selectors == old(selectors) && params == old(params)
      ensures mouse1Down == old(mouse1Down) && mouse2Down == old(mouse2Down)
      ensures (bodies, thrown) == StepFrom(old(bodies), |old(bodies)|, dt, params.gravityMultiplier, width, height,
                                           mouseImpulse, Contacts(corners, axesOf))
      ensures SameBodies(old(bodies), bodies)
      ensures forall k :: 0 <= k < |bodies| && old(bodies)[k].anchored ==>
        bodies[k] == old(bodies)[k].(position := bodies[k].position)
      ensures !thrown ==> forall k :: 0 <= k < |bodies| && !bodies[k].anchored ==> -360.0 < bodies[k].orientation < 360.0
    {
      ContactsAgree(corners, axesOf);
      bodies, thrown := StepBodies(bodies, dt, params.gravityMultiplier, width, height, corners, axesOf, mouseImpulse,
                                   Contacts(corners, axesOf));
    }

    method Wheel(wheelDeltaY: real, ctrlKey: bool)
      requires Valid()
      modifies this
      ensures Valid()
      ensures bodies == old(bodies) && selectors == old(selectors)
      ensures mouse1Down == old(mouse1Down) && mouse2Down == old(mouse2Down)
      ensures params == Adjust(old(params), old(selectors[0]), WheelDirection(wheelDeltaY, ctrlKey))
    {
      params := Adjust(params, selectors[0], WheelDirection(wheelDeltaY, ctrlKey));
    }

    method ArrowDown()
      requires Valid()
      modifies this
      ensures Valid()
      ensures selectors == RotateDown(old(selectors))
      ensures bodies == old(bodies) && params == old(params)
      ensures mouse1Down == old(mouse1Down) && mouse2Down == old(mouse2Down)
    {
      selectors := RotateDown(selectors);
    }

    method ArrowUp()
      requires Valid()
      modifies this
      ensures Valid()
      ensures selectors == RotateUp(old(selectors))
      ensures bodies == old(bodies) && params == old(params)
      ensures mouse1Down == old(mouse1Down) && mouse2Down == old(mouse2Down)
    {
      selectors := RotateUp(selectors);
    }

    /** `mousedown`: buttons 0 and 2 raise the attract / repel flags; the
        middle button appends a square (`shapes.square`, given) of mass 10
        and friction 100 at the pointer, flipped to the page's y-up frame. */
    method MouseDown(button: int, clientX: real, clientY: real, canvasHeight: real, square: seq<Vec>)
      requires Valid()
      modifies this
      ensures Valid()
      ensures selectors == old(selectors) && params == old(params)
      ensures mouse1Down == (button == 0 || old(mouse1Down))
      ensures mouse2Down == (button == 2 || old(mouse2Down))
      ensures bodies == if button == 1
        then old(bodies) + [CreateBody(Vec(clientX, canvasHeight - clientY), 0.0, 10.0, 100.0, false, square)]
        else old(bodies)
    {
      if button == 0 {
        mouse1Down := true;
      } else if button == 2 {
        mouse2Down := true;
      } else if button == 1 {
        bodies := bodies + [CreateBody(Vec(clientX, canvasHeight - clientY), 0.0, 10.0, 100.0, false, square)];
      }
    }

    method MouseUp(button: int)
      requires Valid()
      modifies this
      ensures Valid()
      ensures mouse1Down == (button != 0 && old(mouse1Down))
      ensures mouse2Down == (button != 2 && old(mouse2Down))
      ensures bodies == old(bodies) && selectors == old(selectors) && params == old(params)
    {
      if button == 0 {
        mouse1Down := false;
      } else if button == 2 {
        mouse2Down := false;
      }
    }
  }
}

=== FILE: rigid_collision.dfy ===
/** The separating-axis test of the rigid-body page: the projection of a
    polygon's corners onto an axis, the overlap test of two projections, the
    collision test over a list of axes, the choice of the axis of least
    overlap and the correction that pushes two bodies apart along it. */
module RigidCollision {
  import opened Vectors

  /** `projectShape`'s `{min, max}`. `Math.min()` of no values is `Infinity`
      and `Math.max()` is `-Infinity`, so the projection of no points is the
      inverted pair, kept here as its own case. */
  datatype Projection = Interval(min: real, max: real) | Empty

  function Min(a: real, b: real): real { if a < b then a else b }
  function Max(a: real, b: real): real { if a > b then a else b }

  /** `projectShape`: the least and the greatest of the dot products of the
      points with the axis. */
  function ProjectShape(points: seq<Vec>, axis: Vec): (p: Projection)
    ensures p.Empty? <==> |points| == 0
    ensures p.Interval? ==> p.min <= p.max
    ensures p.Interval? ==> forall i :: 0 <= i < |points| ==> p.min <= Dot(points[i], axis) <= p.max
    decreases |points|
  {
    if |points| == 0 then Empty
    else
      var last := |points| - 1;
      var d := Dot(points[last], axis);
      var front := ProjectShape(points[..last], axis);
      assert forall i :: 0 <= i < last ==> points[..last][i] == points[i];
      match front
      case Empty => Interval(d, d)
      case Interval(lo, hi) => Interval(Min(d, lo), Max(d, hi))
  }

  /** Both ends of a projection are attained: some point projects onto the
      minimum and some point onto the maximum. */
  lemma {:induction false} ProjectionAttained(points: seq<Vec>, axis: Vec)
    requires |points| > 0
    ensures exists i :: 0 <= i < |points| && ProjectShape(points, axis).min == Dot(points[i], axis)
    ensures exists i :: 0 <= i < |points| && ProjectShape(points, axis).max == Dot(points[i], axis)
    decreases |points|
  {
    var last := |points| - 1;
    var front := points[..last];
    if last > 0 {
      ProjectionAttained(front, axis);
      var lo :| 0 <= lo < last && ProjectShape(front, axis).min == Dot(front[lo], axis);
      var hi :| 0 <= hi < last && ProjectShape(front, axis).max == Dot(front[hi], axis);
      var p := ProjectShape(points, axis);
      assert p.min == Dot(points[last], axis) || p.min == Dot(points[lo], axis);
      assert p.max == Dot(points[last], axis) || p.max == Dot(points[hi], axis);
    } else {
      assert ProjectShape(points, axis).min == Dot(points[last], axis);
      assert ProjectShape(points, axis).max == Dot(points[last], axis);
    }
  }

  /** `isOverlapping`: two projections overlap unless one ends before the
      other starts. For proper intervals that is exactly the intersection
      `[max of the mins, min of the maxes]` being non-empty; the projection
      of no points overlaps nothing. */
  function IsOverlapping(a: Projection, b: Projection): (r: bool)
    ensures a.Empty? || b.Empty? ==> !r
    ensures a.Interval? && b.Interval? && a.min <= a.max && b.min <= b.max ==>
      (r <==> Max(a.min, b.min) <= Min(a.max, b.max))
  {
    match (a, b)
    case (Interval(aMin, aMax), Interval(bMin, bMax)) => !(aMax < bMin || bMax < aMin)
    // `x < Infinity` and `-Infinity < x` hold for every finite x
    case (Interval(_, _), Empty) => false
    case (Empty, _) => false
  }

  /** A point common to both intervals makes them overlap, in either order. */
  lemma CommonPointOverlaps(a: Projection, b: Projection, x: real)
    requires a.Interval? && b.Interval?
    requires a.min <= x <= a.max && b.min <= x <= b.max
    ensures IsOverlapping(a, b) && IsOverlapping(b, a)
  {
  }

  /** The overlap test does not depend on the order of its arguments. */
  lemma OverlapSymmetric(a: Projection, b: Projection)
    ensures IsOverlapping(a, b) == IsOverlapping(b, a)
  {
  }

  /** The projections of the two corner lists onto `axis` do not overlap. */
  predicate Separates(pointsA: seq<Vec>, pointsB: seq<Vec>, axis: Vec)
  {
    !IsOverlapping(ProjectShape(pointsA, axis), ProjectShape(pointsB, axis))
  }

  /** No axis of the list separates the two corner lists. */
  predicate Colliding(pointsA: seq<Vec>, pointsB: seq<Vec>, axes: seq<Vec>)
  {
    forall i :: 0 <= i < |axes| ==> !Separates(pointsA, pointsB, axes[i])
  }

  /** `bodiesColliding`: walks the axes of A followed by those of B and
      answers false at the first one whose projections do not overlap. */
  method BodiesColliding(pointsA: seq<Vec>, pointsB: seq<Vec>, axesA: seq<Vec>, axesB: seq<Vec>)
    returns (colliding: bool)
    ensures colliding <==> Colliding(pointsA, pointsB, axesA + axesB)
    ensures !colliding ==> exists i :: 0 <= i < |axesA + axesB| && Separates(pointsA, pointsB, (axesA + axesB)[i])
  {
    var axes := axesA + axesB;
    for i := 0 to |axes|
      invariant forall k :: 0 <= k < i ==> !Separates(pointsA, pointsB, axes[k])
    {
      var projA := ProjectShape(pointsA, axes[i]);
      var projB := ProjectShape(pointsB, axes[i]);
      if !IsOverlapping(projA, projB) {
        return false;
      }
    }
    return true;
  }

  /** When no axis separates the corner lists and there is an axis at all,
      both lists have corners. */
  lemma CollidingHasCorners(pointsA: seq<Vec>, pointsB: seq<Vec>, axes: seq<Vec>)
    requires Colliding(pointsA, pointsB, axes) && |axes| > 0
    ensures |pointsA| > 0 && |pointsB| > 0
  {
    assert !Separates(pointsA, pointsB, axes[0]);
  }

  /** `Math.min(projA.max - projB.min, projB.max - projA.min)`: how far the
      two projections onto `axis` overlap. */
  function AxisOverlap(pointsA: seq<Vec>, pointsB: seq<Vec>, axis: Vec): (r: real)
    requires !Separates(pointsA, pointsB, axis)
    ensures r >= 0.0
  {
    var pa, pb := ProjectShape(pointsA, axis), ProjectShape(pointsB, axis);
    Min(pa.max - pb.min, pb.max - pa.min)
  }

  /** The outcome of the minimum-overlap loop: `minAxis` stays `null` (and
      `minOverlap` stays `Infinity`) when there is no axis; otherwise the
      chosen overlap, axis and its place in the list. */
  datatype Choice = NoAxis | Chosen(overlap: real, axis: Vec, index: nat)

  /** The axis of least overlap among the first `n` axes, the first of
      equal overlaps winning: what the loop below has chosen after `n`
      rounds. */
  function MinChoice(pointsA: seq<Vec>, pointsB: seq<Vec>, axes: seq<Vec>, n: nat): (c: Choice)
    requires Colliding(pointsA, pointsB, axes) && n <= |axes|
    ensures c.NoAxis? <==> n == 0
    ensures c.Chosen? ==>
      c.index < n && c.axis == axes[c.index] && c.overlap == AxisOverlap(pointsA, pointsB, axes[c.index])
    ensures c.Chosen? ==> forall j :: 0 <= j < n ==> c.overlap <= AxisOverlap(pointsA, pointsB, axes[j])
    ensures c.Chosen? ==> forall j :: 0 <= j < c.index ==> c.overlap < AxisOverlap(pointsA, pointsB, axes[j])
  {
    if n == 0 then NoAxis
    else
      var c := MinChoice(pointsA, pointsB, axes, n - 1);
      var overlap := AxisOverlap(pointsA, pointsB, axes[n - 1]);
      if c.NoAxis? || overlap < c.overlap then Chosen(overlap, axes[n - 1], n - 1) else c
  }

  /** The loop of `bodyUpdateCollisions` that keeps the axis of least
      overlap. It runs only once the bodies are known to collide. Every
      finite overlap is below the initial `Infinity`, so the first axis is
      always taken; after that the strict `<` keeps the first of equal
      overlaps. */
  method SelectMinOverlap(pointsA: seq<Vec>, pointsB: seq<Vec>, axes: seq<Vec>) returns (c: Choice)
    requires Colliding(pointsA, pointsB, axes)
    ensures c == MinChoice(pointsA, pointsB, axes, |axes|)
  {
    c := NoAxis;
    for i := 0 to |axes|
      invariant c == MinChoice(pointsA, pointsB, axes, i)
    {
      var overlap := AxisOverlap(pointsA, pointsB, axes[i]);
      if c.NoAxis? || overlap < c.overlap {
        c := Chosen(overlap, axes[i], i);
      }
    }
  }

  /** The correction: `body` moves by `minAxis * minOverlap / 2` and
      `otherBody` by the opposite amount. */
  function PushApart(positionA: Vec, positionB: Vec, minAxis: Vec, minOverlap: real): (r: (Vec, Vec))
    ensures Add(r.0, r.1) == Add(positionA, positionB)
    ensures Subtract(r.0, positionA) == Multiply(minAxis, minOverlap / 2.0)
    ensures Subtract(positionB, r.1) == Multiply(minAxis, minOverlap / 2.0)
    ensures Subtract(r.0, r.1) == Add(Subtract(positionA, positionB), Multiply(minAxis, minOverlap))
  {
    var correction := Multiply(minAxis, minOverlap / 2.0);
    (Add(positionA, correction), Subtract(positionB, correction))
  }

  /** Along a unit axis, the push changes the signed offset `dot(A - B,
      minAxis)` of the two positions by exactly the overlap. Whether that
      moves the bodies apart depends on the offset, which the code never
      looks at: see `PushApartWidensExactlyWhen` and `AsWrittenPushCollapses`. */
  lemma PushApartSeparatesByOverlap(positionA: Vec, positionB: Vec, minAxis: Vec, minOverlap: real)
    requires Dot(minAxis, minAxis) == 1.0
    ensures var r := PushApart(positionA, positionB, minAxis, minOverlap);
      Dot(Subtract(r.0, r.1), minAxis) == Dot(Subtract(positionA, positionB), minAxis) + minOverlap
  {
    ShiftAlong(Subtract(positionA, positionB), minAxis, minOverlap);
  }

  /** The push as written widens the distance along a unit axis exactly
      when the offset `dot(A - B, minAxis)` exceeds `-minOverlap / 2`; at
      that value it brings the bodies level, and below it the distance
      shrinks before it grows. */
  lemma PushApartWidensExactlyWhen(positionA: Vec, positionB: Vec, minAxis: Vec, minOverlap: real)
    requires Dot(minAxis, minAxis) == 1.0 && minOverlap > 0.0
    ensures var r := PushApart(positionA, positionB, minAxis, minOverlap);
      var before := Dot(Subtract(positionA, positionB), minAxis);
      Abs(Dot(Subtract(r.0, r.1), minAxis)) > Abs(before) <==> before > -minOverlap / 2.0
  {
    PushApartSeparatesByOverlap(positionA, positionB, minAxis, minOverlap);
  }

  /** Adding `s` times a unit axis moves the projection onto it by `s`. */
  lemma ShiftAlong(v: Vec, axis: Vec, s: real)
    requires Dot(axis, axis) == 1.0
    ensures Dot(Add(v, Multiply(axis, s)), axis) == Dot(v, axis) + s
  {
    assert Dot(Multiply(axis, s), axis) == s * Dot(axis, axis);
  }

  function Abs(x: real): real { if x < 0.0 then -x else x }

  /** `minAxis` turned, where needed, to point from B towards A, so that
      adding it to A moves A away from B. */
  function Oriented(positionA: Vec, positionB: Vec, axis: Vec): (r: Vec)
    ensures r == axis || r == Multiply(axis, -1.0)
    ensures Dot(Subtract(positionA, positionB), r) >= 0.0
  {
    if Dot(Subtract(positionA, positionB), axis) < 0.0 then
      Flipped(Subtract(positionA, positionB), axis);
      Multiply(axis, -1.0)
    else axis
  }

  lemma FlippedScaled(axis: Vec, s: real)
    ensures Multiply(Multiply(axis, -1.0), s) == Multiply(axis, -s)
  {
    var f := Multiply(axis, -1.0);
    assert f.x == -axis.x && f.y == -axis.y;
    assert f.x * s == axis.x * -s;
    assert f.y * s == axis.y * -s;
  }

  /** Turning the axis round negates every projection onto it. */
  lemma Flipped(v: Vec, axis: Vec)
    ensures Dot(v, Multiply(axis, -1.0)) == -Dot(v, axis)
  {
    assert Multiply(axis, -1.0) == Vec(-axis.x, -axis.y);
  }

  /** The correction as evidently intended: the same push, along the
      oriented axis. The sum of the two positions is kept all the same. */
  function OrientedPushApart(positionA: Vec, positionB: Vec, minAxis: Vec, minOverlap: real): (r: (Vec, Vec))
    ensures Add(r.0, r.1) == Add(positionA, positionB)
  {
    PushApart(positionA, positionB, Oriented(positionA, positionB, minAxis), minOverlap)
  }

  /** Along a unit axis, the oriented push widens the distance between the
      projections of the two positions by exactly the overlap, whichever
      side each body is on. */
  lemma OrientedPushWidensGap(positionA: Vec, positionB: Vec, minAxis: Vec, minOverlap: real)
    requires Dot(minAxis, minAxis) == 1.0 && minOverlap >= 0.0
    ensures var r := OrientedPushApart(positionA, positionB, minAxis, minOverlap);
      Abs(Dot(Subtract(r.0, r.1), minAxis)) == Abs(Dot(Subtract(positionA, positionB), minAxis)) + minOverlap
  {
    var gap := Subtract(positionA, positionB);
    var r := OrientedPushApart(positionA, positionB, minAxis, minOverlap);
    if Dot(gap, minAxis) < 0.0 {
      FlippedScaled(minAxis, minOverlap);
      assert Subtract(r.0, r.1) == Add(gap, Multiply(minAxis, -minOverlap));
      ShiftAlong(gap, minAxis, -minOverlap);
    } else {
      ShiftAlong(gap, minAxis, minOverlap);
    }
  }

  // A pair of `shapes.square` bodies at (100, 100) and (150, 100), both at
  // orientation 0: their world corners, and the unit normals `bodyAxes`
  // computes for the edges of either.
  const SquareA: seq<Vec> := [Vec(50.0, 150.0), Vec(50.0, 50.0), Vec(150.0, 50.0), Vec(150.0, 150.0)]
  const SquareB: seq<Vec> := [Vec(100.0, 150.0), Vec(100.0, 50.0), Vec(200.0, 50.0), Vec(200.0, 150.0)]
  const SquareAxes: seq<Vec> := [Vec(1.0, 0.0), Vec(0.0, 1.0), Vec(-1.0, 0.0), Vec(0.0, -1.0)]

  lemma ProjectSnoc(points: seq<Vec>, p: Vec, axis: Vec)
    ensures ProjectShape(points + [p], axis) ==
      match ProjectShape(points, axis)
      case Empty => Interval(Dot(p, axis), Dot(p, axis))
      case Interval(lo, hi) => Interval(Min(Dot(p, axis), lo), Max(Dot(p, axis), hi))
  {
    assert (points + [p])[..|points|] == points;
  }

  lemma ProjectFour(p0: Vec, p1: Vec, p2: Vec, p3: Vec, axis: Vec)
    ensures ProjectShape([p0, p1, p2, p3], axis) ==
      Interval(Min(Dot(p3, axis), Min(Dot(p2, axis), Min(Dot(p1, axis), Dot(p0, axis)))),
               Max(Dot(p3, axis), Max(Dot(p2, axis), Max(Dot(p1, axis), Dot(p0, axis)))))
  {
    ProjectSnoc([], p0, axis);
    assert [] + [p0] == [p0];
    ProjectSnoc([p0], p1, axis);
    assert [p0] + [p1] == [p0, p1];
    ProjectSnoc([p0, p1], p2, axis);
    assert [p0, p1] + [p2] == [p0, p1, p2];
    ProjectSnoc([p0, p1, p2], p3, axis);
    assert [p0, p1, p2] + [p3] == [p0, p1, p2, p3];
  }

  /** The projections of the two squares onto the four edge normals. */
  lemma SquareProjections()
    ensures ProjectShape(SquareA, SquareAxes[0]) == Interval(50.0, 150.0)
    ensures ProjectShape(SquareB, SquareAxes[0]) == Interval(100.0, 200.0)
    ensures ProjectShape(SquareA, SquareAxes[1]) == Interval(50.0, 150.0)
    ensures ProjectShape(SquareB, SquareAxes[1]) == Interval(50.0, 150.0)
    ensures ProjectShape(SquareA, SquareAxes[2]) == Interval(-150.0, -50.0)
    ensures ProjectShape(SquareB, SquareAxes[2]) == Interval(-200.0, -100.0)
    ensures ProjectShape(SquareA, SquareAxes[3]) == Interval(-150.0, -50.0)
    ensures ProjectShape(SquareB, SquareAxes[3]) == Interval(-150.0, -50.0)
  {
    forall axis | axis in SquareAxes
      ensures ProjectShape(SquareA, axis) ==
        Interval(Min(Dot(SquareA[3], axis), Min(Dot(SquareA[2], axis), Min(Dot(SquareA[1], axis), Dot(SquareA[0], axis)))),
                 Max(Dot(SquareA[3], axis), Max(Dot(SquareA[2], axis), Max(Dot(SquareA[1], axis), Dot(SquareA[0], axis)))))
      ensures ProjectShape(SquareB, axis) ==
        Interval(Min(Dot(SquareB[3], axis), Min(Dot(SquareB[2], axis), Min(Dot(SquareB[1], axis), Dot(SquareB[0], axis)))),
                 Max(Dot(SquareB[3], axis), Max(Dot(SquareB[2], axis), Max(Dot(SquareB[1], axis), Dot(SquareB[0], axis)))))
    {
      ProjectFour(SquareA[0], SquareA[1], SquareA[2], SquareA[3], axis);
      assert SquareA == [SquareA[0], SquareA[1], SquareA[2], SquareA[3]];
      ProjectFour(SquareB[0], SquareB[1], SquareB[2], SquareB[3], axis);
      assert SquareB == [SquareB[0], SquareB[1], SquareB[2], SquareB[3]];
    }
  }

  /** Every edge normal of the squares meets both projections, and the
      overlap is 50 along the x axes and 100 along the y axes. */
  lemma SquareOverlaps()
    ensures forall i :: 0 <= i < 4 ==> !Separates(SquareA, SquareB, SquareAxes[i])
    ensures AxisOverlap(SquareA, SquareB, SquareAxes[0]) == 50.0 && AxisOverlap(SquareA, SquareB, SquareAxes[1]) == 100.0
    ensures AxisOverlap(SquareA, SquareB, SquareAxes[2]) == 50.0 && AxisOverlap(SquareA, SquareB, SquareAxes[3]) == 100.0
  {
    SquareProjections();
  }

  lemma SquaresCollide()
    ensures Colliding(SquareA, SquareB, SquareAxes + SquareAxes)
    ensures (SquareAxes + SquareAxes)[0] == Vec(1.0, 0.0)
    ensures AxisOverlap(SquareA, SquareB, (SquareAxes + SquareAxes)[0]) == 50.0
    ensures forall i :: 0 <= i < 8 ==> 50.0 <= AxisOverlap(SquareA, SquareB, (SquareAxes + SquareAxes)[i])
  {
    var axes := SquareAxes + SquareAxes;
    SquareOverlaps();
    forall i | 0 <= i < 8
      ensures !Separates(SquareA, SquareB, axes[i]) && 50.0 <= AxisOverlap(SquareA, SquareB, axes[i])
    {
      if i < 4 {
        assert axes[i] == SquareAxes[i];
      } else {
        assert axes[i] == SquareAxes[i - 4];
      }
    }
  }

  /** The minimum loop takes the first of its axes when no later one has a
      smaller overlap. */
  lemma FirstMinimalChosen(pointsA: seq<Vec>, pointsB: seq<Vec>, axes: seq<Vec>)
    requires Colliding(pointsA, pointsB, axes) && |axes| > 0
    requires forall i :: 0 <= i < |axes| ==> AxisOverlap(pointsA, pointsB, axes[0]) <= AxisOverlap(pointsA, pointsB, axes[i])
    ensures MinChoice(pointsA, pointsB, axes, |axes|) == Chosen(AxisOverlap(pointsA, pointsB, axes[0]), axes[0], 0)
  {
  }

  /** The correction as written can pull two colliding bodies onto each
      other: for the two squares, the loop picks axis (1, 0) with overlap
      50, A lies on the negative side of B along it, and the push of 25
      each way lands both at (125, 100). */
  lemma AsWrittenPushCollapses()
    ensures Colliding(SquareA, SquareB, SquareAxes + SquareAxes)
    ensures MinChoice(SquareA, SquareB, SquareAxes + SquareAxes, |SquareAxes + SquareAxes|) == Chosen(50.0, Vec(1.0, 0.0), 0)
    ensures PushApart(Vec(100.0, 100.0), Vec(150.0, 100.0), Vec(1.0, 0.0), 50.0) == (Vec(125.0, 100.0), Vec(125.0, 100.0))
  {
    SquaresCollide();
    FirstMinimalChosen(SquareA, SquareB, SquareAxes + SquareAxes);
  }
}

=== FILE: simulation_loop.dfy ===
/** The run/pause state machine that each simulation page keeps in three
    module variables (`running`, `animationFrameId`, `dt`) and drives from
    `startSimulation`, `pauseSimulation`, `toggleSimulation`, the
    `requestAnimationFrame` callback `loop` and the ArrowRight key. The
    browser's frame scheduler is abstract: a frame arriving is a call of
    `Frame`, and the id the browser hands out is a parameter. */
module SimulationLoop {

  /** `animationFrameId`: `null` or the id `requestAnimationFrame` returned. */
  datatype FrameId = Null | Id(value: int)

  /** The largest step `loop` lets through: `1 / 60` of a second. */
  const MaxDt: real := 1.0 / 60.0
  /** The step `pauseSimulation` leaves behind: `1 / 120`. */
  const PausedDt: real := 1.0 / 120.0

  function Min(a: real, b: real): (r: real)
    ensures r <= a && r <= b && (r == a || r == b)
  {
    if a < b then a else b
  }

  class FrameLoop {
    var running: bool
    var animationFrameId: FrameId
    var dt: real
    /** `lastTick`, the time the running loop closure last saw. */
    var lastTick: real

    /** The browser only hands out non-zero ids, and an id is only stored by
        a frame that found the loop running, and is cleared by a pause. */
    ghost predicate Valid()
      reads this
    {
      (animationFrameId.Id? ==> animationFrameId.value > 0) &&
      (animationFrameId.Id? ==> running)
    }

    /** `if (animationFrameId)`: a stored id is truthy unless it is 0. */
    predicate HasFrameId()
      reads this
    {
      animationFrameId.Id? && animationFrameId.value != 0
    }

    /** The module-level initial values: stopped, no id, `dt = 0`. */
    constructor ()
      ensures Valid() && StepGuardSound()
      ensures !running && animationFrameId == Null && dt == 0.0
    {
      running := false;
      animationFrameId := Null;
      dt := 0.0;
      lastTick := 0.0;
    }

    /** `startSimulation`: a no-op while running; otherwise sets `running`,
        records the start time, and schedules the first frame WITHOUT
        storing its id (the id returned at that call is dropped). */
    method Start(now: real)
      requires Valid()
      modifies this
      ensures Valid()
      ensures old(running) ==> unchanged(this)
      ensures !old(running) ==> running && lastTick == now
      ensures animationFrameId == old(animationFrameId) && dt == old(dt)
    {
      if running {
        return;
      }
      running := true;
      lastTick := now;
    }

    /** `pauseSimulation`: a no-op while paused; otherwise clears `running`,
        sets `dt` to 1/120 and cancels and forgets a stored frame id. */
    method Pause()
      requires Valid()
      modifies this
      ensures Valid()
      ensures !old(running) ==> unchanged(this)
      ensures old(running) ==> !running && dt == PausedDt && animationFrameId == Null
      ensures lastTick == old(lastTick)
      ensures old(StepGuardSound()) ==> StepGuardSound()
    {
      if !running {
        return;
      }
      running := false;
      dt := PausedDt;
      if HasFrameId() {
        animationFrameId := Null;
      }
    }

    /** `toggleSimulation`, bound to the space bar: flips `running`. */
    method Toggle(now: real)
      requires Valid()
      modifies this
      ensures Valid()
      ensures running == !old(running)
      ensures old(running) ==> dt == PausedDt && animationFrameId == Null
      ensures !old(running) ==> lastTick == now && dt == old(dt) && animationFrameId == old(animationFrameId)
    {
      if running {
        Pause();
      } else {
        Start(now);
      }
    }

    /** The frame callback `loop(now)`: returns at once when paused;
        otherwise computes `dt` clamped to 1/60, runs one simulation step
        (reported as `stepped`) and stores the id of the next frame. */
    method Frame(now: real, nextId: int) returns (stepped: bool)
      requires Valid() && nextId > 0
      modifies this
      ensures Valid()
      ensures stepped == old(running)
      ensures !old(running) ==> unchanged(this)
      ensures old(running) ==> running && lastTick == now && animationFrameId == Id(nextId)
      ensures old(running) ==> dt == Min((now - old(lastTick)) / 1000.0, MaxDt) && dt <= MaxDt
      ensures old(StepGuardSound()) ==> StepGuardSound()
    {
      if !running {
        return false;
      }
      dt := Min((now - lastTick) / 1000.0, MaxDt);
      lastTick := now;
      stepped := true;
      animationFrameId := Id(nextId);
    }

    /** ArrowRight: `if (!animationFrameId) simulationStep()`. The guard is
        the stored frame id, not `running`. */
    method ManualStep() returns (stepped: bool)
      requires Valid()
      ensures stepped <==> animationFrameId == Null
      ensures stepped ==> !running || !HasFrameId()
    {
      stepped := !HasFrameId();
    }

    /** What the guard of `ManualStep` is meant to express: a frame id is
        stored exactly while the loop runs. */
    ghost predicate StepGuardSound()
      reads this
    {
      HasFrameId() == running
    }

    /** `startSimulation` as evidently intended: the id of the first
        scheduled frame is stored like every later one. */
    method StartStoringId(now: real, firstId: int)
      requires Valid() && firstId > 0
      modifies this
      ensures Valid()
      ensures old(running) ==> unchanged(this)
      ensures !old(running) ==> running && lastTick == now && animationFrameId == Id(firstId) && dt == old(dt)
      ensures old(StepGuardSound()) ==> StepGuardSound()
    {
      if running {
        return;
      }
      running := true;
      lastTick := now;
      animationFrameId := Id(firstId);
    }
  }

  /** As written: right after the page starts its loop, before the first
      frame arrives, ArrowRight still runs a step although the loop is live. */
  method ManualStepHonouredWhileRunning() returns (running: bool, stepped: bool)
    ensures running && stepped
  {
    var loop := new FrameLoop();
    loop.Start(0.0);
    running := loop.running;
    stepped := loop.ManualStep();
  }

  /** With the first id stored, a manual step is refused whenever the loop
      runs and honoured whenever it is paused, for every sequence of starts,
      pauses and frames (`StepGuardSound` is kept by each of them). */
  method ManualStepRefusedWhileRunning(firstId: int, nextId: int) returns (running: bool, stepped: bool, afterPause: bool)
    requires firstId > 0 && nextId > 0
    ensures running && !stepped && afterPause
  {
    var loop := new FrameLoop();
    loop.StartStoringId(0.0, firstId);
    running := loop.running;
    stepped := loop.ManualStep();
    var framed := loop.Frame(1.0, nextId);
    loop.Pause();
    afterPause := loop.ManualStep();
  }

  /** Under the sound guard, a manual step is honoured exactly when paused. */
  lemma GuardMeansPaused(loop: FrameLoop)
    requires loop.Valid() && loop.StepGuardSound()
    ensures (loop.animationFrameId == Null) <==> !loop.running
  {
  }
}

=== FILE: vectors.dfy ===
/** Two-dimensional vector algebra over exact reals (the `vectors` helper module).
    Every operation returns a fresh `{x, y}` record, so vectors are values here. */
module Vectors {

  datatype Vec = Vec(x: real, y: real)

  /** The origin: the identity of `add` on either side. */
  function Zero(): (r: Vec)
    ensures forall v :: Add(v, r) == v && Add(r, v) == v
  {
    Vec(0.0, 0.0)
  }

  /** The vector turned a quarter turn counter-clockwise: perpendicular to
      `v` and of the same length. */
  function Normal(v: Vec): (r: Vec)
    ensures Dot(v, r) == 0.0
    ensures Dot(r, r) == Dot(v, v)
  {
    Vec(-v.y, v.x)
  }

  /** `dot`. The squared length `dot(v, v)` is never negative, is
      positive for every vector but the zero vector, and is 0 for that one. */
  function Dot(v: Vec, w: Vec): (r: real)
    ensures v == w ==> r >= 0.0
    ensures v == w && v != Vec(0.0, 0.0) ==> r > 0.0
    ensures v == w && v == Vec(0.0, 0.0) ==> r == 0.0
  {
    if v == w then
      assert v != Vec(0.0, 0.0) ==> v.x != 0.0 || v.y != 0.0;
      SquaresPositive(v.x, v.y);
      v.x * w.x + v.y * w.y
    else v.x * w.x + v.y * w.y
  }

  lemma SquaresPositive(a: real, b: real)
    ensures a * a + b * b >= 0.0
    ensures a != 0.0 || b != 0.0 ==> a * a + b * b > 0.0
  {
    SquarePositive(a);
    SquarePositive(b);
  }

  lemma SquarePositive(a: real)
    ensures a * a >= 0.0
    ensures a != 0.0 ==> a * a > 0.0
  {
    if a > 0.0 {
      PositiveProduct(a, a);
    } else if a < 0.0 {
      PositiveProduct(-a, -a);
      assert a * a == (-a) * (-a);
    }
  }

  lemma PositiveProduct(a: real, b: real)
    requires a > 0.0 && b > 0.0
    ensures a * b > 0.0
  {
  }

  /** `add`: the dot product with a sum is the sum of the dot products. */
  function Add(v: Vec, w: Vec): (r: Vec)
    ensures forall u :: Dot(r, u) == Dot(v, u) + Dot(w, u)
  {
    Vec(v.x + w.x, v.y + w.y)
  }

  /** `subtract`: adding `w` back gives `v`. */
  function Subtract(v: Vec, w: Vec): (r: Vec)
    ensures Add(r, w) == v
  {
    Vec(v.x - w.x, v.y - w.y)
  }

  /** `multiply`: scaling a vector scales its dot products. */
  function Multiply(v: Vec, s: real): (r: Vec)
    ensures forall u :: Dot(r, u) == s * Dot(v, u)
  {
    ScalesDot(v, s);
    Vec(v.x * s, v.y * s)
  }

  lemma ScalesDot(v: Vec, s: real)
    ensures forall u :: Dot(Vec(v.x * s, v.y * s), u) == s * Dot(v, u)
  {
    forall u ensures Dot(Vec(v.x * s, v.y * s), u) == s * Dot(v, u) {
      calc {
        Dot(Vec(v.x * s, v.y * s), u);
        (v.x * s) * u.x + (v.y * s) * u.y;
        s * (v.x * u.x) + s * (v.y * u.y);
        s * Dot(v, u);
      }
    }
  }

  /** `divide`: multiplying back by the scalar gives `v`. */
  function Divide(v: Vec, s: real): (r: Vec)
    requires s != 0.0
    ensures Multiply(r, s) == v
  {
    assert (v.x / s) * s == v.x;
    assert (v.y / s) * s == v.y;
    Vec(v.x / s, v.y / s)
  }

  /** `unit`: `mag` stands for `magnitude(v)`, the square root of
      `dot(v, v)`, which is computed outside this model and enters as the
      non-negative number whose square is `dot(v, v)`. A zero magnitude
      yields the zero vector instead of a division by zero; otherwise the
      result has length 1 and points the way `v` does. */
  function Unit(v: Vec, mag: real): (r: Vec)
    requires mag >= 0.0 && mag * mag == Dot(v, v)
    ensures mag == 0.0 ==> r == Zero()
    ensures mag != 0.0 ==> Multiply(r, mag) == v && Dot(r, r) == 1.0
  {
    if mag == 0.0 then Zero()
    else
      var r := Divide(v, mag);
      UnitLength(v, mag);
      r
  }

  lemma UnitLength(v: Vec, mag: real)
    requires mag > 0.0 && mag * mag == Dot(v, v)
    ensures Dot(Divide(v, mag), Divide(v, mag)) == 1.0
  {
    var r := Divide(v, mag);
    var e, d := Dot(r, v), Dot(r, r);
    assert v == Multiply(r, mag);
    assert Dot(v, v) == mag * e;
    assert e == Dot(v, r) == mag * d;
    UnitCancel(mag, Dot(v, v), e, d);
  }

  /** `m * m == s == m * e` and `e == m * d` with `m > 0` force `d == 1`. */
  lemma UnitCancel(m: real, s: real, e: real, d: real)
    requires m > 0.0 && m * m == s && s == m * e && e == m * d
    ensures d == 1.0
  {
    Cancel(m, m, e);
    Cancel(m, 1.0, d);
  }

  /** A positive factor can be cancelled from both sides. */
  lemma Cancel(a: real, b: real, c: real)
    requires a > 0.0 && a * b == a * c
    ensures b == c
  {
    if b > c {
      PositiveProduct(a, b - c);
    } else if b < c {
      PositiveProduct(a, c - b);
    }
  }

  lemma NormalTwiceNegates(v: Vec)
    ensures Normal(Normal(v)) == Multiply(v, -1.0)
  {
  }

  lemma SubtractUndoesAdd(a: Vec, b: Vec)
    ensures Subtract(Add(a, b), b) == a
  {
  }

  lemma AddCommutes(a: Vec, b: Vec)
    ensures Add(a, b) == Add(b, a)
  {
  }

  lemma DivideUndoesMultiply(v: Vec, s: real)
    requires s != 0.0
    ensures Divide(Multiply(v, s), s) == v
  {
    assert (v.x * s) / s == v.x;
    assert (v.y * s) / s == v.y;
  }

  lemma DotSymmetric(v: Vec, w: Vec)
    ensures Dot(v, w) == Dot(w, v)
  {
  }

  /** `magnitude(zero())` is 0, whichever root is taken, and `unit` returns
      the zero vector for it rather than dividing by zero. */
  lemma UnitOfZero(mag: real)
    requires mag >= 0.0 && mag * mag == Dot(Zero(), Zero())
    ensures Unit(Zero(), mag) == Zero()
  {
    SquarePositive(mag);
  }

  /** Only the zero vector has magnitude 0, so every other vector is
      divided by its magnitude. */
  lemma UnitDividesNonZero(v: Vec, mag: real)
    requires mag >= 0.0 && mag * mag == Dot(v, v)
    ensures v != Zero() ==> mag != 0.0 && Unit(v, mag) == Divide(v, mag)
  {
  }
}
